=== FILE: README.md ===
# llm-wod workout core, modelled in Dafny

llm-wod is a React Native app. It asks a language model for a timed
circuit workout, then runs that workout as a live countdown. This project
models the app's core as pure Dafny functions over immutable datatypes,
and proves properties of them. The core covers:

- **the workout shapes and the flattener**: a `GeneratedWorkout` (warm-up,
  circuits with rounds and rests, cool-down) is turned into one ordered
  timeline of `TimerItem`s (`Flatten`, `FlattenProperties`, `WorkoutTypes`);
- **the generator's post-processing**: the model's JSON response is
  validated and turned into a `GeneratedWorkout`, with its computed totals
  (`Generator`);
- **the timer store**: the state machine behind the workout screen
  (`Timer`);
- **the timer screen's rules**: which side is shown, when each audio cue
  fires, the 3-2-1-GO countdown, pause/resume, stopping early and the
  completion hand-off (`TimerScreen`);
- **the segmented progress bar** (`ProgressBar`);
- **the review screen**: starting a workout and regenerating it with
  feedback (`Review`);
- **the post-workout screens**: rating and notes on the completion screen
  and the edit-feedback screen (`FeedbackScreens`);
- **the manual-entry modal** and `createManualWorkoutSession`
  (`ManualEntry`);
- **the three persisted stores**: history with the streak, user profile
  and equipment sets, and weight entries (`HistoryStore`, `UserStore`,
  `WeightStore`);
- **the equipment screens**: the edit-set modal and the onboarding
  equipment step, with the catalogue lookups between equipment ids and
  names (`EquipmentScreens`, `Constants`);
- **the goals and training onboarding steps** (`Onboarding`);
- **the formatting helpers** `formatTime`, `formatTimeVerbose` and
  `formatDuration` (`FormatTime`);
- **the byte path of `uuid()`** (`Uuid`).

`Common` holds the shared pieces: `Option`, `Result`, JavaScript `trim`,
`join`, `filter(Boolean)`, toggling a value in a list, decimal rendering,
and `Math.round` of a quotient (`RoundDiv`, exact half-up rounding).

Clocks, fresh ids, random bytes and the outcome of HTTP calls are
parameters: `now`, `newId`, `mint`, `bytes` and `outcome`. Timestamps are
integers, in milliseconds where the code does date arithmetic.

Behaviours of the code worth noting, each modelled as written:

- **The last second of a workout.** `tick` on the final second of the last
  item calls `moveToNextItem`. Its completion branch does not add that
  second to `totalElapsed` (src/stores/useTimerStore.ts:119-137). A full
  run therefore records one second less than the timeline's total
  (`Timer.FreshRunCompletes`).
- **Skipping in any status.** `skipToNext` works whatever the status.
  On the last item it completes the workout without adding the part of
  the item already done (src/stores/useTimerStore.ts:156-170).
- **Calories on an early stop.** The store's `stopTimer` does not prorate
  calories. Only the screen's `handleStop` does, and the screen's record,
  not the store's, goes to the history (`TimerScreen.StopRecordVersusStore`).
- **Silent start numbers.** An item of 1 to 3 seconds has its starting
  number announced only when it is entered while running from another
  item. The effect remembers the current index in every status, so the
  first item after 3-2-1-GO and an item reached by skip or previous while
  paused start silently (app/workout/timer.tsx:161-172,
  `TimerScreen.StartValueSilentUnlessEnteredRunning`).
- **The side-switch cue.** It needs a positive midpoint, so an exercise
  of 1 second never plays it (`TimerScreen.SideSwitchOnce`).
- **Generated exercises never switch sides.** The generator does not copy
  `switchSides` (`Generator.GeneratedNeverSwitchesSides`), although the
  exercise type carries it.
- **The duration invariant.** "actualDuration equals the flattened total"
  holds only for well-shaped responses (`Generator.GeneratedDurationMatchesTimeline`).
  A circuit with no exercises breaks it (`Generator.EmptyCircuitUndercounts`).

## Model

| member | source | states |
|---|---|---|
| Flatten.FlattenWorkout | src/utils/flattenWorkout.ts:4-100 | warm-up items open the timeline and cool-down items close it, each in order, tagged with its position and carrying its exercise's duration; every item's tag matches what it carries; `totalItems` is the number of items and `totalDuration` their summed durations |
| Flatten.TimelineWellFormed | src/utils/flattenWorkout.ts:4-90 | every item of the timeline is well formed: an exercise item takes its exercise's name and duration, and a rest item lasts a positive time |
| Flatten.ItemTypeLabel | src/utils/flattenWorkout.ts:102-119 | every item type has a non-empty label |
| Flatten.ItemTypeLabelInjective | src/utils/flattenWorkout.ts:102-119 | distinct item types get distinct labels |
| Flatten.RestIffNoExercise | src/utils/flattenWorkout.ts:121-123 | an item counts as a rest exactly when it carries no exercise |
| FlattenProperties.RoundShape | src/utils/flattenWorkout.ts:34-62 | one round lists every exercise in order, tagged with circuit, round and position; an exercise rest sits between consecutive exercises and never after the last, and only when that rest is positive |
| FlattenProperties.CircuitCounts | src/utils/flattenWorkout.ts:34-75 | a circuit emits `rounds × E` exercises, `rounds × (E-1)` exercise rests when that rest is positive, `rounds - 1` round rests when that rest is positive, and no circuit rest |
| FlattenProperties.TimelineCircuitRests | src/utils/flattenWorkout.ts:22-32 | circuit rests sit only between consecutive circuits: `n - 1` of them for `n` circuits when the rest is positive, none otherwise |
| FlattenProperties.SectionItemsDuration | src/utils/flattenWorkout.ts:8-19 | the warm-up and cool-down runs last exactly the sum of their exercises' durations |
| FlattenProperties.CircuitDuration | src/utils/flattenWorkout.ts:34-75 | a circuit's stretch of the timeline lasts `(exercise sum + (E-1) × exercise rest) × rounds + (rounds-1) × round rest`, where non-positive rests count as zero |
| FlattenProperties.FlattenTotal | src/utils/flattenWorkout.ts:92-99 | the flattened total is the warm-up, plus each circuit's own items, plus one circuit rest between consecutive circuits, plus the cool-down |
| FlattenProperties.RoundFromCounts | src/utils/flattenWorkout.ts:35-62 | counts of each item type in a round, from any exercise on |
| FlattenProperties.RoundsFromCounts | src/utils/flattenWorkout.ts:34-75 | counts of each item type over the remaining rounds of a circuit |
| FlattenProperties.CircuitsFromCircuitRests | src/utils/flattenWorkout.ts:22-32 | the number of circuit rests emitted from a given circuit on |
| FlattenProperties.RoundsFromDuration | src/utils/flattenWorkout.ts:34-75 | the duration of the remaining rounds of a circuit |
| FlattenProperties.CircuitsFromDuration | src/utils/flattenWorkout.ts:22-76 | the duration of the circuits from a given one on, rests between them included |
| WorkoutTypes.SumDurationsAppend | src/utils/flattenWorkout.ts:92 | the summed duration of two stretches joined is the sum of their durations |
| Generator.RequiredFields | src/services/openrouter/client.ts:78-80 | `name` and `circuits` are always required; `warmUp` is required exactly when a warm-up was requested, and `coolDown` exactly when a cool-down was |
| Generator.FirstMissing | src/services/openrouter/client.ts:82-86 | finds the first required field that is absent, with every earlier field present, or reports that none is missing |
| Generator.ValidateResponse | src/services/openrouter/client.ts:78-88 | the response passes exactly when every required key is present, and is then returned unchanged; otherwise the error names a missing required key |
| Generator.ValidationOrder | src/services/openrouter/client.ts:78-86 | a missing `name` is always the reported error; `name` and `circuits` alone suffice when no warm-up or cool-down was requested |
| Generator.TransformSection | src/services/openrouter/client.ts:97-115 | an absent or empty section becomes an empty section with total 0; otherwise each exercise is copied in order, and the total is the sum of the copies' durations |
| Generator.TransformCircuit | src/services/openrouter/client.ts:117-145 | the name, rounds and rests are copied; each exercise is copied in order; the total is `(sum + (E-1) × exercise rest) × rounds + (rounds-1) × round rest` |
| Generator.CircuitRestOf | src/services/openrouter/client.ts:168 | a missing or zero rest between circuits becomes 30; any other value is kept; the result is never 0 |
| Generator.CaloriesOr | src/services/openrouter/client.ts:192-196 | `value \|\| fallback`: a missing or zero value gives the fallback, and any other value is kept |
| Generator.CircuitExerciseOf | src/services/openrouter/client.ts:118-130 | a circuit exercise keeps the name, duration, reps, rep range and equipment, and never switches sides |
| Generator.EquipmentLabel | src/services/openrouter/client.ts:186 | the equipment joined by ", " when that is non-empty, and "Bodyweight" exactly when the join is empty (no equipment, or a single empty name); never empty |
| Generator.TransformToGeneratedWorkout | src/services/openrouter/client.ts:91-200 | the generated workout: its sections and circuits as above, and `actualDuration` = warm-up + circuit totals + `(n-1) ×` circuit rest + cool-down. Missing calories are estimated as `round(actualDuration/60 × 8)`, and the calorie range defaults to `×5` and `×12`. The difficulty defaults to intermediate and the target duration is the requested minutes × 60 |
| Generator.GenerateFromResponse | src/services/openrouter/client.ts:47-48 | generation succeeds exactly when validation does, and then yields the transformed workout |
| Generator.GeneratedNeverSwitchesSides | src/services/openrouter/client.ts:100-130 | no generated exercise carries `switchSides`, in any section or circuit |
| Generator.CircuitTotalMatchesTimeline | src/services/openrouter/client.ts:131-135 | for a circuit with an exercise, a round and non-negative rests, its precomputed total equals the length of its stretch of the flattened timeline |
| Generator.GeneratedDurationMatchesTimeline | src/services/openrouter/client.ts:168-175 | for a well-shaped response, the generated `actualDuration` equals the flattened timeline's total duration |
| Generator.EmptyCircuitUndercounts | src/services/openrouter/client.ts:131-135 | a one-round circuit with no exercises gets the total −(exercise rest), while its timeline is empty, so the two totals disagree |
| Timer.PercentOf | src/stores/useTimerStore.ts:85 | `Math.round(100 · index / length)`: the nearest integer to the exact ratio, halves rounded up; so between 0 and 100 for an index within the timeline and 100 at its end |
| Timer.InitializeTimer | src/stores/useTimerStore.ts:46-55 | idle on the first item with its full duration (0 for an empty timeline), nothing elapsed, the session attached; the countdown fields and completion flag untouched |
| Timer.StartCountdown | src/stores/useTimerStore.ts:57-59 | enters the countdown showing 3, nothing else changes |
| Timer.StartTimer | src/stores/useTimerStore.ts:61-63 | running with the countdown hidden, nothing else changes; `finishTransition` (useTimerStore.ts:152-154) makes the same change |
| Timer.PauseTimer | src/stores/useTimerStore.ts:65-67 | only the status changes, to paused |
| Timer.ResumeTimer | src/stores/useTimerStore.ts:69-71 | only the status changes, to running |
| Timer.StartTransitionCountdown | src/stores/useTimerStore.ts:148-150 | enters the transition with the countdown at 3, nothing else changes |
| Timer.SetCountdownValue | src/stores/useTimerStore.ts:183 | only the countdown value changes |
| Timer.SetShowCountdown | src/stores/useTimerStore.ts:184 | only the countdown flag changes |
| Timer.ClearJustCompletedItem | src/stores/useTimerStore.ts:185 | only the completion flag changes, to false |
| Timer.Reset | src/stores/useTimerStore.ts:187-198 | every field is back at its initial value |
| Timer.StoppedAt | src/stores/useTimerStore.ts:86-93 | the stop coordinates name the current item; a circuit index is present exactly for circuit items, and an exercise index exactly for exercise items |
| Timer.StoppedSession | src/stores/useTimerStore.ts:79-94 | stopped early at `now`, the items done = the current index, the time worked = the elapsed time, the percent done is `PercentOf` of the current index and the timeline length, hence within 0..100; the stop point is recorded exactly when the index is inside the timeline; calories untouched |
| Timer.StopTimer | src/stores/useTimerStore.ts:73-97 | without a session nothing changes; with one, the timer goes idle with the stopped-early record and nothing else changes |
| Timer.CompletedSession | src/stores/useTimerStore.ts:123-135 | completed at `now` with every item done, 100 percent, the elapsed time as the time worked and the workout's full calorie estimate |
| Timer.MoveToNextItem | src/stores/useTimerStore.ts:115-146 | past the last item: completed, with the index, remaining time and elapsed time unchanged and the session finalised. Otherwise: running on the next item with its full duration and one more second elapsed. It keeps the index within the timeline |
| Timer.Tick | src/stores/useTimerStore.ts:99-113 | a timer that is not running is unchanged; otherwise the countdown drops by one with one second more elapsed, or on the item's last second the completion flag is raised and the timer advances |
| Timer.SkipToNext | src/stores/useTimerStore.ts:156-170 | before the last item: on to the next item with its full duration, adding the part of the current item already done; on the last item: completes like `moveToNextItem`; the status is otherwise kept |
| Timer.GoToPrevious | src/stores/useTimerStore.ts:172-181 | back one item with its full duration and the elapsed time kept; nothing happens at the first item |
| Timer.TickStep | src/stores/useTimerStore.ts:99-146 | each running tick either counts down, starts the next item, or completes the workout, and each moves the end of the timeline one second closer |
| Timer.RunToCompletion | src/stores/useTimerStore.ts:99-146 | from any running position, exactly the remaining seconds in ticks reach completion, every earlier tick leaves the timer running and valid, and the final tick adds no second |
| Timer.FreshRunCompletes | src/stores/useTimerStore.ts:46-146 | a fresh, started timeline of positive durations completes after exactly the sum of its durations in ticks, recording one second less as the time worked |
| Timer.TicksFrozenUnlessRunning | src/stores/useTimerStore.ts:100-101 | any number of ticks leave a timer that is not running unchanged |
| Timer.PauseResume | src/stores/useTimerStore.ts:65-71 | pausing then resuming a running timer restores it exactly |
| Timer.PreviousThenSkip | src/stores/useTimerStore.ts:156-181 | going back then skipping returns to the same item with its full duration, keeping the elapsed time and the status, so the part of the item already done is lost |
| Timer.ActionsKeepConsistent | src/stores/useTimerStore.ts:46-198 | ticks, stopping, resetting and initialising keep the index within the timeline |
| TimerScreen.CurrentItem | app/workout/timer.tsx:61 | the current item is present exactly when the index is inside the timeline |
| TimerScreen.Midpoint | app/workout/timer.tsx:70 | `floor(duration / 2)` |
| TimerScreen.CurrentSide | app/workout/timer.tsx:71-72 | LEFT exactly while more than half of the item remains |
| TimerScreen.RestsShowNoSide | app/workout/timer.tsx:347-349 | a rest item never shows a side |
| TimerScreen.SideHalves | app/workout/timer.tsx:68-72 | over the seconds of an item of duration `d`, LEFT shows `d - floor(d/2)` times and RIGHT `floor(d/2)` times, so the left side gets the extra second of an odd duration |
| TimerScreen.SideSwitchOnce | app/workout/timer.tsx:183-193 | within an item the side-switch cue fires exactly at the step that lands on a positive midpoint |
| TimerScreen.SideSwitchNotOnFreshItem | app/workout/timer.tsx:183-193 | the cue never fires on an item's first render |
| TimerScreen.HalfwayAvoidsEnding | app/workout/timer.tsx:152-196 | the halfway warning never plays during the ending countdown, nor on a rest or an item shorter than 8 seconds |
| TimerScreen.PreTickCue | app/workout/timer.tsx:133-137 | the interval plays a number exactly when 2 to 4 seconds remain |
| TimerScreen.PreTickCueMatchesDisplay | app/workout/timer.tsx:133-139 | the pre-tick cue announces exactly the number the tick then displays, inside the ending overlay, on the same item |
| TimerScreen.NewItemCue | app/workout/timer.tsx:163-172 | a newly entered running item that starts at 1 to 3 seconds announces that number at once, and only then |
| TimerScreen.ItemChangeEffect | app/workout/timer.tsx:161-172 | a cue plays only while running on an item other than the remembered one, and the remembered index catches up with the current one in every status |
| TimerScreen.EveryEndingValueAnnouncedOnce | app/workout/timer.tsx:133-172 | for an item entered while running from a different item, each number of the ending overlay is announced exactly once, by exactly one of the two cue paths |
| TimerScreen.StartValueSilentUnlessEnteredRunning | app/workout/timer.tsx:161-172 | the starting number of a short item goes unannounced for the first item after 3-2-1-GO and for an item reached by skip or previous while paused, even after resuming |
| TimerScreen.CountdownStep | app/workout/timer.tsx:104-124 | during the countdown a positive value is announced and decremented, and zero plays GO and starts the timer; it does nothing in any other status |
| TimerScreen.ScreenStart | app/workout/timer.tsx:97-101 | an idle timer with a timeline starts the countdown; otherwise nothing happens |
| TimerScreen.CountdownPlaysThreeTwoOneGo | app/workout/timer.tsx:97-124 | opening the screen plays 3, 2, 1, GO over four firings and leaves the timer running on the first item with nothing elapsed |
| TimerScreen.HandlePauseResume | app/workout/timer.tsx:223-229 | pauses a running timer and resumes a paused one; in any other status nothing changes |
| TimerScreen.PauseResumeInvolution | app/workout/timer.tsx:223-229 | two presses restore the timer; a finished or idle timer cannot be restarted with the button |
| TimerScreen.PreviousEnabledIffMoves | app/workout/timer.tsx:404 | the previous button is disabled exactly when pressing it would not move |
| TimerScreen.ProratedCalories | app/workout/timer.tsx:250-252 | `Math.round(estimate · index / length)`: the nearest integer to the exact share, halves rounded up; 0 on an empty timeline |
| TimerScreen.ProratedCaloriesBounds | app/workout/timer.tsx:250-252 | prorated calories stay within the estimate, are 0 at the first item and the full estimate past the last |
| TimerScreen.StopEarlyRecord | app/workout/timer.tsx:243-253 | the record handed to the history: stopped early at `now`, items done and time worked from the timer, the percent done as `PercentOf` of the current index and the timeline length, calories prorated by items done |
| TimerScreen.StopRecordVersusStore | app/workout/timer.tsx:241-253 | the screen's record equals the store's stop record, except for the prorated calories and the session's own stop point |
| TimerScreen.HandleStop | app/workout/timer.tsx:240-256 | the timer is reset, and a record is handed on exactly when there was a session |
| TimerScreen.CompletionRecord | app/workout/timer.tsx:215-221 | a finished timer with a session hands that session on, and nothing else does |
| TimerScreen.FullRunRecordsCompletion | app/workout/timer.tsx:215-221 | after a full run the history receives a completed session with every item done, 100 percent and the full calorie estimate |
| ProgressBar.SegmentTypeOf | src/components/common/SegmentedProgressBar.tsx:27-31 | warm-up and cool-down items get their own segment types; everything else, rests included, is main |
| ProgressBar.CalculateSegments | src/components/common/SegmentedProgressBar.tsx:40-70 | the segments cut the timeline into consecutive, non-empty, maximal runs of one type, starting at 0 and ending at the last item, with counts adding up to the number of items |
| ProgressBar.AddItem | src/components/common/SegmentedProgressBar.tsx:46-63 | each item either grows the open run or closes it and opens a new one, extending the covering by one item |
| ProgressBar.WidthsFillTheBar | src/components/common/SegmentedProgressBar.tsx:87 | the segment widths of a full segmentation add up to 100 percent |
| ProgressBar.FillPercent | src/components/common/SegmentedProgressBar.tsx:90-96 | a segment is full once the current item is past it and empty before it; within it, the fill is the share of its items done, below 100 |
| ProgressBar.DoneAddsUpToCurrent | src/components/common/SegmentedProgressBar.tsx:85-96 | over a segmentation, the items counted done add up to the current index |
| ProgressBar.AllDoneBefore | src/components/common/SegmentedProgressBar.tsx:91-92 | once the current index is past every item, every segment counts as fully done |
| Review.SessionDraft | app/workout/review.tsx:56-67 | the started session is in progress with nothing done, sized to the flattened timeline, and tied to the workout |
| Review.StartWorkout | app/workout/review.tsx:44-70 | the timer is started exactly when both a workout and its timeline exist, idle on that timeline with the draft session |
| Review.StartedSessionMatchesTimeline | app/workout/review.tsx:55-69 | when the timeline is the workout's flattening, the session's item count is the length of the timeline the timer runs |
| Review.SelectedSet | app/workout/review.tsx:80 | the first default set, otherwise the first set, otherwise none |
| Review.FirstDefault | app/workout/review.tsx:80 | the position of the first set marked default, with none marked before it |
| Review.ExercisesUsedMembers | app/workout/review.tsx:85 | a name is listed exactly when some circuit has an exercise of that name; warm-up and cool-down do not contribute |
| Review.ExercisesUsedLength | app/workout/review.tsx:85 | one name is listed per circuit exercise |
| Review.SummaryOf | app/workout/review.tsx:82-89 | the summary names the workout and its circuit exercises, dated by its completion, or by its start when it has none |
| Review.BuildRequest | app/workout/review.tsx:80-102 | the request carries the trimmed feedback, one summary per recent session in order, and the chosen set's equipment (none without a set) |
| Review.Regenerate | app/workout/review.tsx:73-114 | nothing happens without a profile or with blank feedback; on success the workout and its flattening are replaced and the feedback cleared; on failure the error is shown and everything else kept; either way the spinner and panel close |
| Review.RegenerationKeepsTimelineInSync | app/workout/review.tsx:104-106 | regeneration keeps the screen's timeline the flattening of its workout |
| Review.WhitespaceFeedbackIsIgnored | app/workout/review.tsx:74 | feedback made only of whitespace never triggers a request |
| ManualEntry.ManualWorkout | src/utils/createManualWorkoutSession.ts:19-38 | a manual workout has only metadata: no exercises, no circuits, flagged manual, lasting the entered minutes |
| ManualEntry.CreateManualWorkoutSession | src/utils/createManualWorkoutSession.ts:14-58 | a completed session dated at the entered date, 100 percent, no items, time worked = the entered minutes × 60, calories from the metadata, the description kept as notes |
| ManualEntry.ManualWorkoutHasNoTimeline | src/utils/createManualWorkoutSession.ts:29-31 | a manual workout flattens to no items, so its recorded duration matches its timeline only for 0 minutes |
| ManualEntry.ResetModal | src/components/history/ManualWorkoutModal.tsx:60-72 | a fresh form dated `now`: empty fields, 30 minutes, no metadata, no error |
| ManualEntry.BeginGenerate | src/components/history/ManualWorkoutModal.tsx:79-86 | a blank title or description gives the error and stays on the form; otherwise the spinner shows |
| ManualEntry.FinishGenerate | src/components/history/ManualWorkoutModal.tsx:88-101 | success shows the preview with exactly the returned metadata; failure returns to the form with the error; the form fields are kept |
| ManualEntry.CaloriesDown | src/components/history/ManualWorkoutModal.tsx:277 | down by 50, never below 0 |
| ManualEntry.CaloriesUp | src/components/history/ManualWorkoutModal.tsx:289 | up by 50 |
| ManualEntry.CalorieButtonsInverse | src/components/history/ManualWorkoutModal.tsx:277-289 | up then down restores any non-negative count; down then up restores counts of 50 or more and gives 50 below that |
| ManualEntry.EditMetadata | src/components/history/ManualWorkoutModal.tsx:124-138 | metadata edits change only the metadata and do nothing without it |
| ManualEntry.Step | src/components/history/ManualWorkoutModal.tsx:74-138 | a session is handed to the history exactly on Save with metadata, which then resets the form; Back returns to the form; Close resets |
| ManualEntry.StepKeepsInvariant | src/components/history/ManualWorkoutModal.tsx:74-138 | a single action that the current step renders (Close in every step, and a request outcome at any time) keeps the modal's invariant |
| ManualEntry.FreshModalInvariant | src/components/history/ManualWorkoutModal.tsx:60-138 | from a freshly opened form, every run of rendered actions keeps the invariant |
| ManualEntry.RunKeepsInvariant | src/components/history/ManualWorkoutModal.tsx:60-138 | every state reached by a run of actions, each rendered by the step it is applied in (ManualWorkoutModal.tsx:366-373), satisfies the modal's invariant: the preview has metadata, and the loading step shows no error |
| ManualEntry.GenerateThenArrive | src/components/history/ManualWorkoutModal.tsx:79-97 | a filled form with a successful request lands on the preview showing exactly the returned metadata |
| ManualEntry.BlankFieldsStayOnForm | src/components/history/ManualWorkoutModal.tsx:80-83 | blank fields keep the modal on the form with an error |
| FormatTime.FloorMinutes | src/utils/formatTime.ts:2 | `Math.floor(seconds / 60)` |
| FormatTime.JsRem60 | src/utils/formatTime.ts:3 | JavaScript's `%`: non-negative for non-negative seconds, otherwise non-positive, with the sign of the dividend |
| FormatTime.PadStart2 | src/utils/formatTime.ts:4 | at least two characters; a text already that long is unchanged |
| FormatTime.ClockRoundTrip | src/utils/formatTime.ts:1-5 | `m:ss` reads back to the same number of seconds; the minutes are not capped |
| FormatTime.ClockInjective | src/utils/formatTime.ts:1-5 | different non-negative times give different clock texts |
| FormatTime.FormatClock | src/utils/formatTime.ts:1-5 | for non-negative seconds, the whole minutes, a colon, and the remaining seconds padded to two digits |
| FormatTime.FormatVerbose | src/utils/formatTime.ts:7-18 | "Ns" under a minute, "Mm" on whole minutes, "Mm Ss" otherwise |
| FormatTime.VerboseRoundTrip | src/utils/formatTime.ts:7-18 | the verbose text reads back to the same number of seconds |
| FormatTime.FormatDuration | src/utils/formatTime.ts:20-31 | "M min" under an hour, "Hh" on whole hours, "Hh Mm" otherwise |
| FormatTime.DurationIgnoresSeconds | src/utils/formatTime.ts:21 | times within the same minute render the same |
| FormatTime.UnderAMinute | src/utils/formatTime.ts:20-24 | anything under a minute reads "0 min" |
| FormatTime.DurationRoundTrip | src/utils/formatTime.ts:20-31 | the duration text reads back to the whole minutes, losing only the seconds |
| HistoryStore.SortDesc | src/stores/useHistoryStore.ts:30-32 | the completion times sorted latest first, a permutation of the input |
| HistoryStore.CompletedTimes | src/stores/useHistoryStore.ts:30-31 | exactly the completion times of the completed sessions |
| HistoryStore.DaysOfDescending | src/stores/useHistoryStore.ts:59-66 | day numbers of times sorted latest first are also in descending order |
| HistoryStore.RunAtMeaning | src/stores/useHistoryStore.ts:53-77 | the intended streak: the run from a day back holds every consecutive day, and the day before it has no workout |
| HistoryStore.ScanAsWritten | src/stores/useHistoryStore.ts:58-80 | the code's loop over day gaps: the longest count never falls below any run seen, and the current count never exceeds it |
| HistoryStore.CalculateStreakAsWritten | src/stores/useHistoryStore.ts:29-87 | the streak as the code computes it: zero without completions, `current ≤ longest ≤` the number of completions |
| HistoryStore.StreakAsWrittenCountsOldestRun | src/stores/useHistoryStore.ts:58-80 | for the days 10, 9, 5, 4, 3 the code reports a current streak of 3, while the latest run is 10, 9 |
| HistoryStore.CalculateStreak | src/stores/useHistoryStore.ts:29-87 | the corrected streak: zero without completions, `current ≤ longest ≤` the number of completions, and the latest completion recorded |
| HistoryStore.StreakBroken | src/stores/useHistoryStore.ts:44-51 | more than one day since the latest completion gives both counts 0 |
| HistoryStore.StreakIsLatestRun | src/stores/useHistoryStore.ts:53-80 | otherwise the current streak is the run of consecutive days ending at the latest completion: every day of it has a workout and the day before has none |
| HistoryStore.LastWorkoutIsLatest | src/stores/useHistoryStore.ts:41-85 | the recorded last workout is the latest completion time |
| HistoryStore.AddSession | src/stores/useHistoryStore.ts:95-114 | the session is prepended and counted only if completed; its rounded minutes and its calories are added whatever its status; the streak is recomputed from the new list, with the corrected `current` and the code's own `longest` and last workout date |
| HistoryStore.MergeFeedback | src/stores/useHistoryStore.ts:122-126 | the patch's present keys win, absent ones keep the prior feedback, and the edit time is `now` |
| HistoryStore.UpdateSession | src/stores/useHistoryStore.ts:116-136 | only sessions with the id change, and only their feedback; totals and streak are kept |
| HistoryStore.DropIdAppend | src/stores/useHistoryStore.ts:138-149 | dropping an id distributes over concatenation, so the kept sessions keep their stored order and multiplicity |
| HistoryStore.DropIdSingleton | src/stores/useHistoryStore.ts:138-149 | a single session is kept exactly when its id differs |
| HistoryStore.RemoveSession | src/stores/useHistoryStore.ts:138-149 | drops exactly the sessions with the id, keeping the others in order (the id filter pinned by the two lemmas above), and recomputes the streak (corrected `current`, the code's own `longest` and last workout date), without reducing the totals |
| HistoryStore.RemoveUndoesAdd | src/stores/useHistoryStore.ts:95-149 | removing a session just added under a fresh id restores the list and the streak recomputed from it (the stored one whenever that was current), while the totals keep what the addition counted |
| HistoryStore.SliceTo | src/stores/useHistoryStore.ts:155 | `slice(0, count)`, including the negative-count case |
| HistoryStore.FinishedAppend | src/stores/useHistoryStore.ts:151-156 | selecting finished sessions distributes over concatenation, so they keep their stored order and multiplicity |
| HistoryStore.FinishedSingleton | src/stores/useHistoryStore.ts:151-156 | a single session is selected exactly when it is completed or stopped early |
| HistoryStore.GetRecentSessions | src/stores/useHistoryStore.ts:151-156 | a prefix of the finished sessions (in stored order, by the two lemmas above) of length `count`, or all of them when fewer |
| HistoryStore.GetSessionById | src/stores/useHistoryStore.ts:158-161 | the first session with the id, or none exactly when no session has it |
| HistoryStore.AddedSessionIsFound | src/stores/useHistoryStore.ts:95-161 | a session just added is found by its id |
| HistoryStore.ClearHistory | src/stores/useHistoryStore.ts:178 | the initial history: no sessions, all three totals zero, and an empty streak with no last workout |
| UserStore.SetProfile | src/stores/useUserStore.ts:29 | the profile is replaced and the saved instructions are kept |
| UserStore.UpdateProfile | src/stores/useUserStore.ts:31-34 | for each of the eleven profile keys, a supplied key's value wins and an absent key keeps the old value; no profile stays no profile |
| UserStore.UpdateProfileIdempotent | src/stores/useUserStore.ts:31-34 | an empty update changes nothing, and the same update twice equals once |
| UserStore.AddEquipmentSet | src/stores/useUserStore.ts:36-44 | the set is appended and nothing else changes |
| UserStore.UpdateEquipmentSet | src/stores/useUserStore.ts:46-56 | only the sets with the id change, in place; in those, for each of the five keys, a supplied value wins and an absent key keeps the old value; the rest of the profile and the saved instructions are unchanged |
| UserStore.DropSetAppend | src/stores/useUserStore.ts:58-66 | dropping an id distributes over concatenation, so the kept sets keep their order and multiplicity |
| UserStore.DropSetSingleton | src/stores/useUserStore.ts:58-66 | a single set is kept exactly when its id differs |
| UserStore.DeleteEquipmentSet | src/stores/useUserStore.ts:58-66 | exactly the sets with the id are removed, the rest kept in order by the two lemmas above; the rest of the profile is unchanged |
| UserStore.DeleteUndoesAdd | src/stores/useUserStore.ts:36-66 | deleting a set just added under a fresh id restores the profile |
| UserStore.SetDefaultEquipmentSet | src/stores/useUserStore.ts:68-79 | afterwards a set is the default exactly when its id matches; nothing else about any set, the rest of the profile or the saved instructions changes |
| UserStore.SetDefaultIdempotent | src/stores/useUserStore.ts:68-79 | choosing the same default twice equals choosing it once |
| UserStore.CompleteOnboarding | src/stores/useUserStore.ts:81-86 | only the onboarding flag changes, to true |
| UserStore.ResetOnboarding | src/stores/useUserStore.ts:88-93 | only the onboarding flag changes, to false |
| UserStore.ResetUndoesComplete | src/stores/useUserStore.ts:81-93 | resetting undoes completing for a profile that had not finished |
| UserStore.AddCustomInstruction | src/stores/useUserStore.ts:95-106 | blank or already-saved text changes nothing; otherwise the trimmed text goes first, at most 20 are kept, and the rest keep their order |
| UserStore.AddCustomInstructionKeepsInvariant | src/stores/useUserStore.ts:95-106 | the saved list stays free of duplicates, at most 20 long, and made of trimmed non-empty text |
| UserStore.ClearCustomInstructions | src/stores/useUserStore.ts:108 | the saved list is emptied and the profile kept |
| WeightStore.SortByDate | src/stores/useWeightStore.ts:23-25 | entries ordered latest first, a permutation of the input |
| WeightStore.SortSortedIsIdentity | src/stores/useWeightStore.ts:23-25 | sorting a list already in order leaves it unchanged, because the sort is stable |
| WeightStore.InsertByDate | src/stores/useWeightStore.ts:21-26 | inserting into a list sorted latest first keeps it sorted and adds exactly the new entry |
| WeightStore.AddEntry | src/stores/useWeightStore.ts:21-26 | the result is sorted latest first and holds exactly the old entries and the new one |
| WeightStore.AddToSortedInserts | src/stores/useWeightStore.ts:21-26 | on a sorted list, adding inserts the entry ahead of every entry not newer than it |
| WeightStore.MergeEntry | src/stores/useWeightStore.ts:28-33 | for each of the five entry keys, a supplied value wins and an absent key keeps the old value |
| WeightStore.UpdateEntry | src/stores/useWeightStore.ts:28-33 | only entries with the id change, in place, each merged as MergeEntry states |
| WeightStore.UpdateWithoutDateKeepsOrder | src/stores/useWeightStore.ts:28-33 | an edit that leaves the dates alone keeps the list sorted |
| WeightStore.UpdateDateCanUnsort | src/stores/useWeightStore.ts:28-33 | an edit of a date is not re-sorted, so the list can fall out of order |
| WeightStore.RemoveEntry | src/stores/useWeightStore.ts:35-38 | exactly the entries with the id are dropped, and a date-sorted list stays sorted |
| WeightStore.RemoveEntryAppend | src/stores/useWeightStore.ts:35-38 | removal distributes over concatenation, so the kept entries keep their stored order and multiplicity |
| WeightStore.RemoveEntrySingleton | src/stores/useWeightStore.ts:35-38 | a single entry is kept exactly when its id differs |
| WeightStore.GetEntriesInRange | src/stores/useWeightStore.ts:40-48 | exactly the entries dated from start to end inclusive, and a date-sorted list stays sorted |
| WeightStore.RangeAppend | src/stores/useWeightStore.ts:40-48 | the range query distributes over concatenation, so the selected entries keep their stored order and multiplicity |
| WeightStore.RangeSingleton | src/stores/useWeightStore.ts:40-48 | a single entry is selected exactly when its date is in the range |
| WeightStore.GetLatestEntry | src/stores/useWeightStore.ts:50-53 | the first entry, present exactly when there is one, and the newest when the list is sorted |
| WeightStore.LatestAfterAddIsNewest | src/stores/useWeightStore.ts:21-53 | after an addition, the latest entry is at least as new as every entry, the added one included |
| Uuid.ByteHex | src/utils/uuid.ts:20 | two lower-case hex digits, high nibble first, that read back to the byte |
| Uuid.Hex | src/utils/uuid.ts:20 | two digits per byte, in order |
| Uuid.Stamp | src/utils/uuid.ts:17-18 | byte 6 gets version nibble 4 and byte 8 gets variant bits 10; their other bits and every other byte are kept |
| Uuid.FromBytes | src/utils/uuid.ts:12-22 | the identifier from 16 random bytes is 36 characters long |
| Uuid.ParseHexRoundTrip | src/utils/uuid.ts:20 | the hex rendering of any bytes is all hex digits and reads back to those bytes |
| Uuid.FromBytesShape | src/utils/uuid.ts:21 | 36 characters: hyphens at 8, 13, 18 and 23, and lower-case hex digits everywhere else |
| Uuid.FromBytesVersionAndVariant | src/utils/uuid.ts:17-21 | the version digit is '4' and the variant digit is 8, 9, a or b |
| Uuid.FromBytesRoundTrip | src/utils/uuid.ts:13-21 | the stamped bytes read back from the identifier, so only the six stamped bits are lost |
| Constants.CatalogueIsKeyed | src/utils/constants.ts:1-32 | equipment ids are pairwise distinct, and so are names |
| Constants.NamesHaveNoComma | src/utils/constants.ts:1-32 | no equipment name contains a comma |
| Constants.NamesAreNonEmpty | src/utils/constants.ts:1-32 | every equipment name is non-empty |
| Constants.CategoriesAreDeclared | src/utils/constants.ts:1-39 | every equipment entry belongs to a declared category |
| Constants.PresetsUseKnownIds | src/utils/constants.ts:41-86 | every id a preset names is in the catalogue |
| Constants.DurationsIncrease | src/utils/constants.ts:88-163 | both duration pickers list values in increasing order |
| Constants.DifficultyTablesAreTotal | src/utils/constants.ts:112-122 | the three difficulty levels get three different colours, and beginner and advanced are labelled by name |
| Constants.NameOfId | src/utils/constants.ts:1-32 | the name of the entry with the id, or none exactly when no entry has it |
| Constants.IdOfName | src/utils/constants.ts:1-32 | the id of the entry with the name, or none exactly when no entry has it |
| Constants.LookupsFindEntry | src/utils/constants.ts:1-32 | in a table with distinct ids and names, each entry's name leads to its id and its id to its name |
| Constants.CatalogueLookupsInvert | src/utils/constants.ts:1-32 | the catalogue's two lookups invert each other on every entry |
| FeedbackScreens.RpeColor | app/workout/complete.tsx:11-16 | four colour bands: up to 3, up to 6, up to 8, above 8 |
| FeedbackScreens.RpeLabel | app/workout/complete.tsx:18-24 | five word bands of two values each |
| FeedbackScreens.ScaleIsMonotone | app/workout/complete.tsx:11-24 | a harder rating never gets a milder colour or word |
| FeedbackScreens.LabelsRefineColours | app/workout/edit-feedback.tsx:11-24 | every word but "Easy" lies inside one colour band, and "Maximum" is exactly the red band |
| FeedbackScreens.ChoicesReachEveryBand | app/workout/complete.tsx:158 | the ten buttons show exactly the four colours and five words |
| FeedbackScreens.ToggleRpe | app/workout/complete.tsx:169 | pressing a button selects it, or clears the rating when it was already selected |
| FeedbackScreens.ToggleTwice | app/workout/edit-feedback.tsx:113 | pressing the same button twice restores the rating, unless another one was selected |
| FeedbackScreens.DraftPatch | app/workout/complete.tsx:43-46 | both keys are sent: the rating, and the trimmed notes or nothing when they are blank |
| FeedbackScreens.DraftReplacesFeedback | app/workout/edit-feedback.tsx:46-54 | whatever was stored, the merged feedback is exactly the draft with the edit time |
| FeedbackScreens.FoundAfterUpdate | src/stores/useHistoryStore.ts:116-161 | after an update, the session is found again with the merged feedback and is otherwise unchanged |
| FeedbackScreens.CompleteDone | app/workout/complete.tsx:41-50 | the timer is reset; the history is written exactly when there is a session and a rating or non-blank notes |
| FeedbackScreens.DoneSavesDraft | app/workout/complete.tsx:41-50 | after "Done" the stored feedback holds exactly the entered rating and trimmed notes |
| FeedbackScreens.CompleteViewHistory | app/workout/complete.tsx:52-55 | the timer is reset and the draft discarded |
| FeedbackScreens.HeadlineOf | app/workout/complete.tsx:67-88 | the trophy and "Workout Complete!" exactly for a completed run; otherwise the percent reached |
| FeedbackScreens.TrophyOnlyForFinishedRuns | app/workout/complete.tsx:67-88 | a run to the end earns the trophy, and a stopped run never does |
| FeedbackScreens.InitialDraft | app/workout/edit-feedback.tsx:33-43 | opens with the stored rating and the stored notes, or empty |
| FeedbackScreens.EditSave | app/workout/edit-feedback.tsx:45-53 | writes exactly when the route has a non-empty session id, even for an empty draft |
| FeedbackScreens.OpenAndSaveKeepsFeedback | app/workout/edit-feedback.tsx:33-53 | opening and saving untouched keeps the rating and notes; only the edit time moves |
| FeedbackScreens.EmptyDraftOnlyClearsOnEdit | app/workout/complete.tsx:41-50 | an empty draft leaves the history alone on "Done", but wipes the rating and notes on "Save Changes" |
| EquipmentScreens.SplitOn | app/modals/edit-equipment-set.tsx:32 | `split(',')`: at least one piece, none containing the separator |
| EquipmentScreens.JoinSplit | app/modals/edit-equipment-set.tsx:32 | joining the pieces with the separator gives the string back |
| EquipmentScreens.SplitJoin | app/modals/edit-equipment-set.tsx:32 | splitting a join of separator-free pieces gives the pieces back |
| EquipmentScreens.DisplayName | app/modals/edit-equipment-set.tsx:56-58 | a known id shows its catalogue name, which leads back to it; anything else shows the id itself |
| EquipmentScreens.NamesOf | app/modals/edit-equipment-set.tsx:56-58 | one display name per selected id, in order |
| EquipmentScreens.EquipmentIdsOf | app/modals/edit-equipment-set.tsx:26-30 | only known ids result; nothing is dropped exactly when every name is known |
| EquipmentScreens.NamesRoundTrip | app/modals/edit-equipment-set.tsx:26-58 | known names, taken to ids and back, are unchanged |
| EquipmentScreens.IdsRoundTrip | app/modals/edit-equipment-set.tsx:26-58 | known ids, taken to names and back, are unchanged |
| EquipmentScreens.IdsFromParam | app/modals/edit-equipment-set.tsx:32-33 | the route's equipment list yields only known ids, and none from an empty list |
| EquipmentScreens.ReopenedIds | app/modals/edit-equipment-set.tsx:32-58 | the names of known ids, joined with commas and read back, give the ids |
| EquipmentScreens.ReopenedNames | app/modals/edit-equipment-set.tsx:32-33 | known names joined with commas and read back give ids naming the same names |
| EquipmentScreens.ParamsOf | app/modals/edit-equipment-set.tsx:13-19 | the five string parameters the editor reads: the set's id and name, its notes or "", "true" exactly for a default set, and equipment names joined so that splitting on commas gives them back when none contains a comma |
| EquipmentScreens.OpenEditor | app/modals/edit-equipment-set.tsx:32-38 | the modal opens with the ids read from the route, its name and notes, and the box checked exactly for "true" |
| EquipmentScreens.ToggleItem | app/modals/edit-equipment-set.tsx:40-46 | the tapped id flips membership, every other id keeps it, nothing else changes |
| EquipmentScreens.ApplyPresetToEditor | app/modals/edit-equipment-set.tsx:48-51 | a preset replaces the selection and keeps the name |
| EquipmentScreens.EditorPatch | app/modals/edit-equipment-set.tsx:60-64 | the update: the name (or "My Equipment" when empty), the selected ids' display names, the trimmed notes or nothing |
| EquipmentScreens.SaveEditor | app/modals/edit-equipment-set.tsx:53-71 | without an id or profile nothing changes; the saved instructions are kept |
| EquipmentScreens.SaveEffect | app/modals/edit-equipment-set.tsx:53-71 | the sets with the id get the editor's name, names and notes; default flags change only when the box was newly checked, and then exactly the edited set is default |
| EquipmentScreens.OpenAndSaveKeepsSet | app/modals/edit-equipment-set.tsx:26-71 | opening a set with a unique id and catalogue names and saving it untouched leaves the profile as it was |
| EquipmentScreens.TogglePick | app/onboarding/equipment.tsx:21-27 | the tapped id flips membership and the set name is kept |
| EquipmentScreens.ApplyPresetToPicker | app/onboarding/equipment.tsx:29-33 | a preset sets both the selection and the set name |
| EquipmentScreens.OnboardingNext | app/onboarding/equipment.tsx:35-50 | the profile gets exactly one set: fresh id, default, the picker's name (or "My Equipment"), the selection's display names; nothing else changes |
| EquipmentScreens.OnboardingSetIsTheDefault | app/onboarding/equipment.tsx:35-50 | the single set is the default, as the set-default action would make it |
| EquipmentScreens.PresetSurvivesToEditor | app/onboarding/equipment.tsx:29-50 | a preset chosen in onboarding reopens in the edit modal with exactly its ids, its name and the default box checked |
| EquipmentScreens.PresetIdsAreKnown | src/utils/constants.ts:41-86 | every preset id is a catalogue id |
| Onboarding.OpenGoals | app/onboarding/goals.tsx:18-19 | opens with no suggestion chosen and the stored goals, or empty, as the text |
| Onboarding.ToggleSuggestion | app/onboarding/goals.tsx:21-27 | the tapped suggestion flips membership and the text is kept |
| Onboarding.GoalParts | app/onboarding/goals.tsx:30-35 | the chosen suggestions, then the trimmed text when it is not blank, with empty strings dropped |
| Onboarding.CombinedGoals | app/onboarding/goals.tsx:30-40 | the parts joined by ". ", or "General fitness" exactly when there are none; never empty |
| Onboarding.EnabledGoalsAreTheUsers | app/onboarding/goals.tsx:30-40 | when "Continue" is enabled the fallback is never used: the goals start with the first suggestion, or are the trimmed text alone, and end with the trimmed text |
| Onboarding.GoalsNext | app/onboarding/goals.tsx:37-45 | a whole new profile with the combined goals, onboarding unfinished; id, creation time, sets, duration and unit are carried over or defaulted; age, weight, goal weight and training notes are dropped |
| Onboarding.RevisitKeepsGoals | app/onboarding/goals.tsx:18-45 | returning and continuing at once keeps trimmed stored goals |
| Onboarding.SuggestionsAreNonEmpty | src/utils/constants.ts:101-110 | every suggestion chip is non-empty, so any choice enables "Continue" |
| Onboarding.ToggleAbility | app/onboarding/training.tsx:42-48 | the tapped ability flips membership and nothing else changes |
| Onboarding.TogglePreference | app/onboarding/training.tsx:50-56 | the tapped preference flips membership and nothing else changes |
| Onboarding.TrainingParts | app/onboarding/training.tsx:59-63 | up to three non-empty sentences, present exactly when they have content, in the order abilities, preferences, text |
| Onboarding.TrainingNotes | app/onboarding/training.tsx:58-65 | nothing exactly when nothing was chosen or typed; otherwise the sentences joined, opening with the abilities and closing with the trimmed text |
| Onboarding.TrainingNext | app/onboarding/training.tsx:67-69 | sets the training notes, clearing them when empty; nothing else changes; without a profile nothing happens |
| Onboarding.TrainingSkip | app/onboarding/training.tsx:74-76 | skipping leaves the profile unchanged |
| Onboarding.ContinueEmptyClearsNotes | app/onboarding/training.tsx:58-76 | "Continue" with nothing chosen clears stored notes, while "Skip" keeps them |
| Onboarding.SingleSentenceNotes | app/onboarding/training.tsx:58-65 | typed text alone, or abilities alone, read back as that one sentence |
| Common.TrimmedOrNone | app/workout/complete.tsx:45 | `s.trim() \|\| undefined`: nothing exactly when the text is blank, otherwise the non-empty trimmed text |
| Common.Trim | app/workout/review.tsx:74 | `trim()`: a slice of the input with only whitespace removed at either end, and no whitespace left at either end |
| Common.TrimIdempotent | app/workout/review.tsx:74 | trimming twice is trimming once |
| Common.Toggle | app/onboarding/equipment.tsx:21-27 | the value is present afterwards exactly when it was absent before, every other element is kept, and an absent value is appended at the end |
| Common.ToggleKeepsNoDuplicates | app/onboarding/equipment.tsx:21-27 | toggling keeps a list free of duplicates, and toggling an absent value twice restores the list |
| Common.RoundDiv | src/stores/useHistoryStore.ts:98 | `Math.round(num / den)`: the integer nearest the quotient, with halves rounded up |

## Left out

- Persistence (`persist`/AsyncStorage), HTTP requests, routing and navigation, audio playback, haptics, animations, keep-awake, `setInterval`/`setTimeout` scheduling, and rendering are left out. Their effects are modelled only as returned values or cues.
- The prompt text, the JSON extraction from the model's reply (regex and brace search), and the metadata and summary HTTP calls are left out. The model's parsed response, and the outcome of each call, are inputs.
- Time is an integer: dates and ISO strings are integers, and a streak day is the UTC day number. Local midnight and daylight-saving shifts are not modelled.
- Floating point is not modelled: `Math.round` of a float quotient is exact half-up rounding, and progress-bar widths are reals.
- Timer.PercentOf: the source divides 0 by 0 on an empty timeline, which gives NaN; the model gives 0.
- Timer.GoToPrevious: an index past the end of the timeline makes the source throw; the model leaves the timer unchanged.
- Timer.StopTimer: the stop time and completion time are the `now` parameter, not the clock.
- The `transition` status and its countdown exist in the store but are never entered by the screens; they are modelled only as the two store actions.
- `formatCompactNumber`, `formatDate` and the motivational quotes are left out; they are display-only.
- Common.Trim: JavaScript's `trim` removes every Unicode space; the model removes space, tab, line feed, carriage return, vertical tab and form feed only.
- FormatTime.ClockRoundTrip: negative seconds are not round-tripped. The source renders them with a negative remainder, which `FormatTime.JsRem60` states.
- HistoryStore.CompletedTimes: a completed session without a completion time is skipped, where the source would sort it by an invalid date.
- HistoryStore.AddSession: the stored `current` streak is the corrected one (`HistoryStore.CalculateStreak`), as the Findings table intends, and not the oldest-run value the code's `calculateStreak` stores; `longest` and `lastWorkoutDate` are stated equal to the code's own values.
- HistoryStore.RemoveSession: the same corrected `current` streak is stored, with `longest` and `lastWorkoutDate` equal to the code's own values.
- HistoryStore.RemoveUndoesAdd: the streak it restores is the corrected one that the two actions above store.
- ManualEntry.Step: the `catch` branch of `handleSave` is not modelled, because building the session and adding it cannot fail in the model.
- HistoryStore.SortDesc: the tie order between equal times is not stated, because no property depends on it.
- The workout-summary setters of the history store are left out; they only hold a text produced by an HTTP call.
- `useWorkoutStore` is left out; it only holds the current workout and its flattening for the review screen.
- Uuid.FromBytes: only the `getRandomValues` path is modelled. The `randomUUID` and `Math.random` branches are left out because they call into code that is not part of this model.
- The item ids that `flattenWorkout` draws from `uuid()` are left out, because nothing in the core reads them. The generator's ids come from the `mint` parameter.
- Onboarding.GoalsNext: `createdAt` is an integer here, so the source's `profile?.createdAt || now` keeps the stored value. An ISO string is always truthy, so the source does the same.
- EquipmentScreens.OpenEditor: a missing route parameter is modelled as the empty string.
- EquipmentScreens.EquipmentIdsOf: a set stored with a name outside the catalogue (the raw-id fallback of `DisplayName`) loses that name when reopened; the contract states the loss as a shorter result.
- The count of selected items shown under the equipment pickers and the category grouping of the catalogue are display-only and left out.
- The onboarding info step and the profile screen's other editors are not part of this model.

## Findings

| source | as written | input that shows it | evidently intended | confidence | as-written member | corrected member |
|---|---|---|---|---|---|---|
| src/stores/useHistoryStore.ts:58-80 | every one-day gap sets `currentStreak` to the running count, and the guard `i < length - 1 \|\| daysSinceLastWorkout <= 1` always holds there, so `current` ends up as the length of the oldest run of two or more days | completion days 10, 9, 5, 4, 3, seen on day 10 | the run ending at the latest completion: 2 (days 10 and 9) | not executed | HistoryStore.StreakAsWrittenCountsOldestRun | HistoryStore.StreakIsLatestRun |

=== FILE: common.dfy ===
/** Small shared vocabulary: optional values, results, and the handful of
    JavaScript string and array idioms the app's screens and stores rely on
    (`trim`, `join`, `includes`/`filter` toggles, decimal rendering,
    `Math.round` of a quotient). */
module Common {

  /** A value that may be absent (`undefined` / `null` in the app). */
  datatype Option<+T> = None | Some(value: T) {
    function GetOr(default: T): T {
      match this
      case Some(v) => v
      case None => default
    }
  }

  /** Either a value or an error message. */
  datatype Result<+R, +E> = Ok(value: R) | Err(error: E)

  // ---------------------------------------------------------------------
  // Whitespace and String.prototype.trim
  // ---------------------------------------------------------------------

  /** The whitespace characters `trim` removes (the ASCII subset). */
  predicate IsSpace(c: char) {
    c == ' ' || c == '\t' || c == '\n' || c == '\r' || c == '\U{000B}' || c == '\U{000C}'
  }

  predicate AllSpace(s: string) {
    forall k :: 0 <= k < |s| ==> IsSpace(s[k])
  }

  /** Index of the first non-space character, or |s| if there is none. */
  function FirstNonSpace(s: string): (i: nat)
    ensures i <= |s|
    ensures AllSpace(s[..i])
    ensures i < |s| ==> !IsSpace(s[i])
  {
    if |s| == 0 then 0
    else if IsSpace(s[0]) then
      var j := FirstNonSpace(s[1..]);
      assert s[..j + 1] == [s[0]] + s[1..][..j];
      j + 1
    else 0
  }

  /** One past the index of the last non-space character, or 0. */
  function LastNonSpaceEnd(s: string): (j: nat)
    ensures j <= |s|
    ensures AllSpace(s[j..])
    ensures j > 0 ==> !IsSpace(s[j - 1])
  {
    if |s| == 0 then 0
    else if IsSpace(s[|s| - 1]) then
      var j := LastNonSpaceEnd(s[..|s| - 1]);
      assert s[j..] == s[..|s| - 1][j..] + [s[|s| - 1]];
      j
    else |s|
  }

  /** One key of a spread update: a supplied key's value wins, an absent
      key keeps the old value. */
  predicate KeyApplied<T(==)>(update: Option<T>, before: T, after: T) {
    && (update.Some? ==> after == update.value)
    && (update.None? ==> after == before)
  }

  /** `s.trim()`: the slice of `s` between its leading and trailing whitespace. */
  function Trim(s: string): (t: string)
    ensures |t| <= |s|
    ensures |t| > 0 ==> !IsSpace(t[0]) && !IsSpace(t[|t| - 1])
    ensures exists i, j :: 0 <= i <= j <= |s| && t == s[i..j] && AllSpace(s[..i]) && AllSpace(s[j..])
  {
    var i := FirstNonSpace(s);
    var rest := s[i..];
    var j := LastNonSpaceEnd(rest);
    assert s[..i + j] == s[..i] + rest[..j];
    assert s[i + j..] == rest[j..];
    assert i < |s| ==> rest[0] == s[i];
    assert rest[..j] == s[i..i + j];
    rest[..j]
  }

  /** A string is blank when trimming leaves nothing (`!s.trim()`). */
  predicate IsBlank(s: string) {
    Trim(s) == ""
  }

  lemma BlankIffAllSpace(s: string)
    ensures IsBlank(s) <==> AllSpace(s)
  {
    var i := FirstNonSpace(s);
    if !AllSpace(s) {
      var rest := s[i..];
      assert !IsSpace(rest[0]);
    }
  }

  /** `s.trim() || undefined`: the trimmed text, or nothing when blank. */
  function TrimmedOrNone(s: string): (r: Option<string>)
    ensures r.None? <==> AllSpace(s)
    ensures r.Some? ==> r.value == Trim(s) && |r.value| > 0
  {
    BlankIffAllSpace(s);
    if Trim(s) == "" then None else Some(Trim(s))
  }

  /** Non-empty, with no whitespace at either end: what `trim` leaves of a
      string that is not blank. */
  predicate Trimmed(s: string) {
    |s| > 0 && !IsSpace(s[0]) && !IsSpace(s[|s| - 1])
  }

  /** A trimmed string trims to itself, and so is kept by `trim() || undefined`. */
  lemma TrimOfTrimmed(s: string)
    requires Trimmed(s)
    ensures Trim(s) == s
    ensures TrimmedOrNone(s) == Some(s)
  {
    var i, j :| 0 <= i <= j <= |s| && Trim(s) == s[i..j] && AllSpace(s[..i]) && AllSpace(s[j..]);
    if i > 0 {
      assert s[..i][0] == s[0];
    }
    if j < |s| {
      assert s[j..][|s| - 1 - j] == s[|s| - 1];
    }
    BlankIffAllSpace(s);
  }

  /** Trimming twice is trimming once. */
  lemma TrimIdempotent(s: string)
    ensures Trim(Trim(s)) == Trim(s)
  {
    if |Trim(s)| > 0 {
      TrimOfTrimmed(Trim(s));
    }
  }

  // ---------------------------------------------------------------------
  // Array.prototype.join and toggled selections
  // ---------------------------------------------------------------------

  /** `parts.join(sep)`. */
  function Join(parts: seq<string>, sep: string): string {
    if |parts| == 0 then ""
    else if |parts| == 1 then parts[0]
    else parts[0] + sep + Join(parts[1..], sep)
  }

  /** `.filter(Boolean)` on strings: drops the empty ones. */
  function NonEmpty(parts: seq<string>): (r: seq<string>)
    ensures forall x :: x in r <==> x in parts && x != ""
    ensures |r| <= |parts|
    ensures (forall k :: 0 <= k < |parts| ==> parts[k] != "") ==> r == parts
  {
    if |parts| == 0 then []
    else
      assert forall x :: x in parts <==> x == parts[0] || x in parts[1..];
      if parts[0] == "" then NonEmpty(parts[1..]) else [parts[0]] + NonEmpty(parts[1..])
  }

  predicate EndsWith(s: string, t: string) {
    |t| <= |s| && s[|s| - |t|..] == t
  }

  /** A join starts with the first part and ends with the last. */
  lemma {:induction false} JoinEnds(parts: seq<string>, sep: string)
    requires |parts| >= 1
    ensures parts[0] <= Join(parts, sep)
    ensures EndsWith(Join(parts, sep), parts[|parts| - 1])
  {
    if |parts| > 1 {
      JoinEnds(parts[1..], sep);
      var rest := Join(parts[1..], sep);
      var whole := parts[0] + sep + rest;
      assert whole[..|parts[0]|] == parts[0];
      assert whole[|whole| - |rest|..] == rest;
      assert parts[1..][|parts[1..]| - 1] == parts[|parts| - 1];
    }
  }

  /** `xs.filter(e => e !== x)`. */
  function Without<T(==)>(xs: seq<T>, x: T): (r: seq<T>)
    ensures x !in r
    ensures forall k :: 0 <= k < |r| ==> r[k] in xs
    ensures forall k :: 0 <= k < |xs| && xs[k] != x ==> xs[k] in r
    ensures |r| <= |xs|
    ensures x !in xs ==> r == xs
  {
    if |xs| == 0 then []
    else if xs[0] == x then Without(xs[1..], x)
    else [xs[0]] + Without(xs[1..], x)
  }

  /** The chip toggle used throughout the screens: remove the item if it is
      selected, otherwise append it at the end. */
  function Toggle<T(==)>(xs: seq<T>, x: T): (r: seq<T>)
    ensures x in r <==> x !in xs
    ensures forall k :: 0 <= k < |r| && r[k] != x ==> r[k] in xs
    ensures forall k :: 0 <= k < |xs| && xs[k] != x ==> xs[k] in r
    ensures x !in xs ==> r == xs + [x]
  {
    if x in xs then Without(xs, x) else xs + [x]
  }

  predicate NoDuplicates<T(==)>(xs: seq<T>) {
    forall i, j :: 0 <= i < j < |xs| ==> xs[i] != xs[j]
  }

  lemma {:induction false} WithoutKeepsNoDuplicates<T>(xs: seq<T>, x: T)
    requires NoDuplicates(xs)
    ensures NoDuplicates(Without(xs, x))
  {
    if |xs| > 0 {
      WithoutKeepsNoDuplicates(xs[1..], x);
      if xs[0] != x {
        assert xs[0] !in xs[1..];
        assert xs[0] !in Without(xs[1..], x);
      }
    }
  }

  /** Toggling keeps a selection free of duplicates, and toggling an
      unselected item twice restores the selection. */
  lemma ToggleKeepsNoDuplicates<T>(xs: seq<T>, x: T)
    requires NoDuplicates(xs)
    ensures NoDuplicates(Toggle(xs, x))
    ensures x !in xs ==> Toggle(Toggle(xs, x), x) == xs
  {
    if x in xs {
      WithoutKeepsNoDuplicates(xs, x);
    } else {
      WithoutAppended(xs, x);
    }
  }

  lemma {:induction false} WithoutAppended<T>(xs: seq<T>, x: T)
    requires x !in xs
    ensures Without(xs + [x], x) == xs
  {
    if |xs| == 0 {
      assert [x][1..] == [];
    } else {
      assert (xs + [x])[1..] == xs[1..] + [x];
      WithoutAppended(xs[1..], x);
    }
  }

  // ---------------------------------------------------------------------
  // Decimal rendering (Number.prototype.toString for integers)
  // ---------------------------------------------------------------------

  function DigitChar(d: nat): (c: char)
    requires d < 10
    ensures '0' <= c <= '9'
  {
    "0123456789"[d]
  }

  function DigitValue(c: char): nat
    requires '0' <= c <= '9'
  {
    (c as int - '0' as int) as nat
  }

  predicate IsDigits(s: string) {
    forall k :: 0 <= k < |s| ==> '0' <= s[k] <= '9'
  }

  /** Decimal digits of `n`, most significant first, without leading zeros. */
  function NatToString(n: nat): (s: string)
    ensures |s| >= 1 && IsDigits(s)
    ensures |s| > 1 ==> s[0] != '0'
    ensures n < 10 ==> |s| == 1
    ensures n >= 10 ==> |s| >= 2
  {
    if n < 10 then [DigitChar(n)]
    else NatToString(n / 10) + [DigitChar(n % 10)]
  }

  /** Reads a string of decimal digits back as a number. */
  function ParseDigits(s: string): nat
    requires IsDigits(s)
  {
    if |s| == 0 then 0
    else 10 * ParseDigits(s[..|s| - 1]) + DigitValue(s[|s| - 1])
  }

  lemma DigitRoundTrip(d: nat)
    requires d < 10
    ensures DigitValue(DigitChar(d)) == d
  {
  }

  lemma {:induction false} ParseNatToString(n: nat)
    ensures ParseDigits(NatToString(n)) == n
  {
    if n >= 10 {
      var s := NatToString(n);
      assert s[..|s| - 1] == NatToString(n / 10);
      ParseNatToString(n / 10);
      DigitRoundTrip(n % 10);
    } else {
      DigitRoundTrip(n);
    }
  }

  /** An integer's decimal text, with a leading '-' when negative. */
  function IntToString(i: int): string {
    if i < 0 then "-" + NatToString(-i) else NatToString(i)
  }

  /** `String(n).padStart(2, '0')` for a number below 100. */
  function PadTwo(n: nat): (s: string)
    requires n < 100
    ensures |s| == 2 && IsDigits(s)
    ensures ParseDigits(s) == n
  {
    ParseNatToString(n);
    if n < 10 then
      DigitRoundTrip(n);
      "0" + NatToString(n)
    else NatToString(n)
  }

  // ---------------------------------------------------------------------
  // Math.round of a quotient
  // ---------------------------------------------------------------------

  /** `Math.round(num / den)` computed exactly: the nearest integer, halves
      rounded up (towards +infinity, as `Math.round` does). */
  function RoundDiv(num: int, den: int): (r: int)
    requires den > 0
    ensures 2 * den * r <= 2 * num + den < 2 * den * (r + 1)
  {
    (2 * num + den) / (2 * den)
  }

  lemma MulMonotone(a: int, x: int, y: int)
    requires a >= 0 && x <= y
    ensures a * x <= a * y
  {
  }

  /** Rounding seconds to whole minutes is off by at most half a minute. */
  lemma RoundMinutes(seconds: int)
    ensures 60 * RoundDiv(seconds, 60) - 30 <= seconds < 60 * RoundDiv(seconds, 60) + 30
  {
    var r := RoundDiv(seconds, 60);
    assert 120 * r <= 2 * seconds + 60 < 120 * (r + 1);
  }

  /** A rounded quotient of a numerator between 0 and `k` denominators lies
      between 0 and `k`. */
  lemma RoundDivBetween(num: int, den: int, k: int)
    requires den > 0 && 0 <= num <= k * den
    ensures 0 <= RoundDiv(num, den) <= k
  {
    var r := RoundDiv(num, den);
    if r > k {
      MulMonotone(2 * den, k + 1, r);
    }
    if r < 0 {
      MulMonotone(2 * den, r + 1, 0);
    }
  }

  /** Rounding an exact multiple gives the multiplier back. */
  lemma RoundDivExact(k: int, den: int)
    requires den > 0
    ensures RoundDiv(k * den, den) == k
  {
    var r := RoundDiv(k * den, den);
    if r > k {
      MulMonotone(2 * den, k + 1, r);
    }
    if r < k {
      MulMonotone(2 * den, r + 1, k);
    }
  }
}

=== FILE: constants.dfy ===
/** The app's fixed tables: the equipment catalogue and its categories,
    the equipment presets, duration choices, goal suggestions, difficulty
    colours and labels, and the manual-entry chip lists. Also the
    id-to-name and name-to-id lookups the equipment screens build on them. */
module Constants {
  import opened Common
  import opened WorkoutTypes

  datatype EquipmentItem = EquipmentItem(id: string, name: string, category: string, icon: string)

  const AllEquipment: seq<EquipmentItem> := [
    EquipmentItem("dumbbells", "Dumbbells", "weights", "barbell-outline"),
    EquipmentItem("kettlebell", "Kettlebell", "weights", "fitness-outline"),
    EquipmentItem("barbell", "Barbell", "weights", "barbell"),
    EquipmentItem("medicine_ball", "Medicine Ball", "weights", "basketball-outline"),
    EquipmentItem("weight_plates", "Weight Plates", "weights", "ellipse-outline"),
    EquipmentItem("cable_machine", "Cable Machine", "machines", "git-network-outline"),
    EquipmentItem("rowing_machine", "Rowing Machine", "machines", "boat-outline"),
    EquipmentItem("stationary_bike", "Stationary Bike", "machines", "bicycle-outline"),
    EquipmentItem("treadmill", "Treadmill", "machines", "walk-outline"),
    EquipmentItem("elliptical", "Elliptical", "machines", "footsteps-outline"),
    EquipmentItem("pull_up_bar", "Pull-up Bar", "bodyweight", "remove-outline"),
    EquipmentItem("dip_bars", "Dip Bars", "bodyweight", "remove-outline"),
    EquipmentItem("bench", "Bench", "bodyweight", "bed-outline"),
    EquipmentItem("box_platform", "Box/Platform", "bodyweight", "cube-outline"),
    EquipmentItem("yoga_mat", "Yoga Mat", "accessories", "albums-outline"),
    EquipmentItem("resistance_bands", "Resistance Bands", "accessories", "git-merge-outline"),
    EquipmentItem("jump_rope", "Jump Rope", "accessories", "pulse-outline"),
    EquipmentItem("foam_roller", "Foam Roller", "accessories", "ellipse-outline"),
    EquipmentItem("ab_wheel", "Ab Wheel", "accessories", "radio-button-on-outline"),
    EquipmentItem("trx_suspension", "TRX/Suspension", "accessories", "swap-vertical-outline"),
    EquipmentItem("gymnastic_rings", "Gymnastic Rings", "accessories", "infinite-outline"),
    EquipmentItem("weight_vest", "Weight Vest", "accessories", "body-outline"),
    EquipmentItem("hangboard", "Hangboard", "accessories", "hand-left-outline")
  ]

  datatype Category = Category(id: string, name: string)

  const EquipmentCategories: seq<Category> := [
    Category("weights", "Free Weights"),
    Category("machines", "Machines"),
    Category("bodyweight", "Bodyweight"),
    Category("accessories", "Accessories")
  ]

  /** A preset, under its key in the presets object (in declaration order). */
  datatype Preset = Preset(key: string, name: string, description: string, equipment: seq<string>)

  const EquipmentPresets: seq<Preset> := [
    Preset("bodyweight", "Bodyweight Only", "No equipment needed", []),
    Preset("minimal", "Minimal Home", "Just the basics", ["yoga_mat", "resistance_bands"]),
    Preset("home_basic", "Basic Home Gym", "Common home equipment",
      ["dumbbells", "yoga_mat", "resistance_bands", "pull_up_bar"]),
    Preset("home_complete", "Complete Home Gym", "Well-equipped home gym",
      ["dumbbells", "kettlebell", "pull_up_bar", "bench", "yoga_mat", "resistance_bands", "jump_rope", "foam_roller"]),
    Preset("gym", "Full Gym", "Commercial gym access",
      ["barbell", "dumbbells", "kettlebell", "cable_machine", "bench", "pull_up_bar", "medicine_ball",
       "rowing_machine", "treadmill"])
  ]

  datatype DurationOption = DurationOption(value: int, caption: string, description: string)

  const DurationOptions: seq<DurationOption> := [
    DurationOption(5, "5 min", "Quick burst"),
    DurationOption(10, "10 min", "Quick burst"),
    DurationOption(15, "15 min", "Short & sweet"),
    DurationOption(20, "20 min", "Focused session"),
    DurationOption(25, "25 min", "Solid workout"),
    DurationOption(30, "30 min", "Standard"),
    DurationOption(45, "45 min", "Extended"),
    DurationOption(60, "60 min", "Full session")
  ]

  /** Minutes at and above which warm-up and cool-down default to on. */
  const WarmupCooldownThreshold: int := 20

  const GoalSuggestions: seq<string> := [
    "Build muscle and strength",
    "Lose fat and get lean",
    "Improve cardiovascular endurance",
    "Increase flexibility and mobility",
    "General fitness and health",
    "Train for sports performance",
    "Build functional strength",
    "Rehabilitation and injury prevention"
  ]

  function DifficultyColor(d: Difficulty): string {
    match d
    case Beginner => "#22C55E"
    case Intermediate => "#EAB308"
    case Advanced => "#EF4444"
  }

  function DifficultyLabel(d: Difficulty): string {
    match d
    case Beginner => "Beginner"
    case Intermediate => "Intermediate"
    case Advanced => "Advanced"
  }

  const FocusAreas: seq<string> := [
    "strength", "cardio", "flexibility", "core", "upper body", "lower body", "full body", "HIIT",
    "endurance", "balance", "mobility"
  ]

  const MuscleGroups: seq<string> := [
    "chest", "back", "shoulders", "biceps", "triceps", "core", "quads", "hamstrings", "glutes",
    "calves", "forearms", "lats"
  ]

  datatype ManualDuration = ManualDuration(value: int, caption: string)

  const ManualDurationOptions: seq<ManualDuration> := [
    ManualDuration(15, "15 min"),
    ManualDuration(30, "30 min"),
    ManualDuration(45, "45 min"),
    ManualDuration(60, "60 min"),
    ManualDuration(90, "90 min"),
    ManualDuration(120, "2 hr")
  ]

  // ---------------------------------------------------------------------
  // Table facts
  // ---------------------------------------------------------------------

  /** Distinct ids and distinct names: either one identifies an entry. */
  predicate Keyed(items: seq<EquipmentItem>) {
    forall i, j :: 0 <= i < j < |items| ==> items[i].id != items[j].id && items[i].name != items[j].name
  }

  lemma CatalogueIsKeyed()
    ensures Keyed(AllEquipment)
  {
    CatalogueIdsDiffer();
    CatalogueNamesDiffer();
  }

  lemma CatalogueIdsDiffer()
    ensures forall i, j :: 0 <= i < j < |AllEquipment| ==> AllEquipment[i].id != AllEquipment[j].id
  {
  }

  lemma CatalogueNamesDiffer()
    ensures forall i, j :: 0 <= i < j < |AllEquipment| ==> AllEquipment[i].name != AllEquipment[j].name
  {
  }

  predicate NoComma(s: string) {
    forall c :: 0 <= c < |s| ==> s[c] != ','
  }

  /** No equipment name contains a comma, so a comma-joined list of names
      splits back into the same names. */
  lemma NamesHaveNoComma()
    ensures forall k :: 0 <= k < |AllEquipment| ==> NoComma(AllEquipment[k].name)
  {
    forall k | 0 <= k < |AllEquipment|
      ensures NoComma(AllEquipment[k].name)
    {
      if k < 3 {
        NoCommaWeights(k);
      } else if k < 6 {
        NoCommaWeightsRest(k);
      } else if k < 9 {
        NoCommaMachines(k);
      } else if k < 12 {
        NoCommaMachinesRest(k);
      } else if k < 15 {
        NoCommaBodyweight(k);
      } else if k < 18 {
        NoCommaBodyweightRest(k);
      } else if k < 21 {
        NoCommaAccessories(k);
      } else {
        NoCommaAccessoriesRest(k);
      }
    }
  }

  // The catalogue is checked three names at a time: one lemma over all
  // twenty-three literal names asks the solver to unfold every string at
  // once and runs past the verifier's resource limit on some solver seeds,
  // while groups of three stay small.

  lemma NoCommaWeights(k: nat)
    requires 0 <= k < 3
    ensures NoComma(AllEquipment[k].name)
  {
    if k == 0 {
      assert NoComma(AllEquipment[0].name);
    } else if k == 1 {
      assert NoComma(AllEquipment[1].name);
    } else if k == 2 {
      assert NoComma(AllEquipment[2].name);
    }
  }

  lemma NoCommaWeightsRest(k: nat)
    requires 3 <= k < 6
    ensures NoComma(AllEquipment[k].name)
  {
    if k == 3 {
      assert NoComma(AllEquipment[3].name);
    } else if k == 4 {
      assert NoComma(AllEquipment[4].name);
    } else if k == 5 {
      assert NoComma(AllEquipment[5].name);
    }
  }

  lemma NoCommaMachines(k: nat)
    requires 6 <= k < 9
    ensures NoComma(AllEquipment[k].name)
  {
    if k == 6 {
      assert NoComma(AllEquipment[6].name);
    } else if k == 7 {
      assert NoComma(AllEquipment[7].name);
    } else if k == 8 {
      assert NoComma(AllEquipment[8].name);
    }
  }

  lemma NoCommaMachinesRest(k: nat)
    requires 9 <= k < 12
    ensures NoComma(AllEquipment[k].name)
  {
    if k == 9 {
      assert NoComma(AllEquipment[9].name);
    } else if k == 10 {
      assert NoComma(AllEquipment[10].name);
    } else if k == 11 {
      assert NoComma(AllEquipment[11].name);
    }
  }

  lemma NoCommaBodyweight(k: nat)
    requires 12 <= k < 15
    ensures NoComma(AllEquipment[k].name)
  {
    if k == 12 {
      assert NoComma(AllEquipment[12].name);
    } else if k == 13 {
      assert NoComma(AllEquipment[13].name);
    } else if k == 14 {
      assert NoComma(AllEquipment[14].name);
    }
  }

  lemma NoCommaBodyweightRest(k: nat)
    requires 15 <= k < 18
    ensures NoComma(AllEquipment[k].name)
  {
    if k == 15 {
      assert NoComma(AllEquipment[15].name);
    } else if k == 16 {
      assert NoComma(AllEquipment[16].name);
    } else if k == 17 {
      assert NoComma(AllEquipment[17].name);
    }
  }

  lemma NoCommaAccessories(k: nat)
    requires 18 <= k < 21
    ensures NoComma(AllEquipment[k].name)
  {
    if k == 18 {
      assert NoComma(AllEquipment[18].name);
    } else if k == 19 {
      assert NoComma(AllEquipment[19].name);
    } else if k == 20 {
      assert NoComma(AllEquipment[20].name);
    }
  }

  lemma NoCommaAccessoriesRest(k: nat)
    requires 21 <= k < 23
    ensures NoComma(AllEquipment[k].name)
  {
    if k == 21 {
      assert NoComma(AllEquipment[21].name);
    } else if k == 22 {
      assert NoComma(AllEquipment[22].name);
    }
  }

  /** Every catalogue name is non-empty, so `name || id` picks the name. */
  lemma NamesAreNonEmpty()
    ensures forall k :: 0 <= k < |AllEquipment| ==> |AllEquipment[k].name| > 0
  {
  }

  /** The catalogue's ids, in order. The list is written out so that
      membership of a literal id is immediate; `IdListsMatchTables` proves
      it equal, entry by entry, to the ids of the table above. */
  const CatalogueIds: seq<string> := [
    "dumbbells", "kettlebell", "barbell", "medicine_ball", "weight_plates", "cable_machine",
    "rowing_machine", "stationary_bike", "treadmill", "elliptical", "pull_up_bar", "dip_bars", "bench",
    "box_platform", "yoga_mat", "resistance_bands", "jump_rope", "foam_roller", "ab_wheel",
    "trx_suspension", "gymnastic_rings", "weight_vest", "hangboard"
  ]

  /** The category ids, in order, tied to the category table in the same
      way. */
  const CategoryIds: seq<string> := ["weights", "machines", "bodyweight", "accessories"]

  lemma IdListsMatchTables()
    ensures |CatalogueIds| == |AllEquipment|
    ensures forall k :: 0 <= k < |AllEquipment| ==> CatalogueIds[k] == AllEquipment[k].id
    ensures |CategoryIds| == |EquipmentCategories|
    ensures forall k :: 0 <= k < |EquipmentCategories| ==> CategoryIds[k] == EquipmentCategories[k].id
  {
  }

  /** Every catalogue entry belongs to a declared category. */
  lemma CategoriesAreDeclared()
    ensures forall k :: 0 <= k < |AllEquipment| ==> AllEquipment[k].category in CategoryIds
  {
  }

  /** Every id a preset names is in the catalogue. */
  lemma PresetsUseKnownIds()
    ensures forall p, k :: 0 <= p < |EquipmentPresets| && 0 <= k < |EquipmentPresets[p].equipment| ==>
      EquipmentPresets[p].equipment[k] in CatalogueIds
  {
  }

  /** Both duration pickers list their values in increasing order. */
  lemma DurationsIncrease()
    ensures forall i, j :: 0 <= i < j < |DurationOptions| ==> DurationOptions[i].value < DurationOptions[j].value
    ensures forall i, j :: 0 <= i < j < |ManualDurationOptions| ==>
      ManualDurationOptions[i].value < ManualDurationOptions[j].value
  {
  }

  /** The difficulty colour and label tables cover the three levels with
      three different colours. */
  lemma DifficultyTablesAreTotal()
    ensures DifficultyColor(Beginner) != DifficultyColor(Intermediate)
    ensures DifficultyColor(Intermediate) != DifficultyColor(Advanced)
    ensures DifficultyColor(Beginner) != DifficultyColor(Advanced)
    ensures DifficultyLabel(Beginner) == "Beginner" && DifficultyLabel(Advanced) == "Advanced"
  {
  }

  // ---------------------------------------------------------------------
  // Lookups between ids and names
  // ---------------------------------------------------------------------

  /** `ALL_EQUIPMENT.find(e => e.id === id)?.name`. */
  function NameOfId(items: seq<EquipmentItem>, id: string): (r: Option<string>)
    ensures r.None? <==> forall k :: 0 <= k < |items| ==> items[k].id != id
    ensures r.Some? ==> exists k :: 0 <= k < |items| && items[k].id == id && items[k].name == r.value
  {
    if |items| == 0 then None
    else if items[0].id == id then Some(items[0].name)
    else
      var r := NameOfId(items[1..], id);
      assert forall k :: 0 < k < |items| ==> items[k] == items[1..][k - 1];
      r
  }

  /** `ALL_EQUIPMENT.find(e => e.name === name)?.id`. */
  function IdOfName(items: seq<EquipmentItem>, name: string): (r: Option<string>)
    ensures r.None? <==> forall k :: 0 <= k < |items| ==> items[k].name != name
    ensures r.Some? ==> exists k :: 0 <= k < |items| && items[k].name == name && items[k].id == r.value
  {
    if |items| == 0 then None
    else if items[0].name == name then Some(items[0].id)
    else
      var r := IdOfName(items[1..], name);
      assert forall k :: 0 < k < |items| ==> items[k] == items[1..][k - 1];
      r
  }

  /** In a table with distinct ids and distinct names, each entry's name
      leads to its id and its id to its name. */
  lemma {:induction false} LookupsFindEntry(items: seq<EquipmentItem>, k: nat)
    requires Keyed(items) && k < |items|
    ensures IdOfName(items, items[k].name) == Some(items[k].id)
    ensures NameOfId(items, items[k].id) == Some(items[k].name)
  {
    if k > 0 {
      var tail := items[1..];
      assert forall i, j :: 0 <= i < j < |tail| ==> tail[i] == items[i + 1] && tail[j] == items[j + 1];
      LookupsFindEntry(tail, k - 1);
    }
  }

  /** The catalogue's lookups invert one another on every entry. */
  lemma CatalogueLookupsInvert(k: nat)
    requires k < |AllEquipment|
    ensures IdOfName(AllEquipment, AllEquipment[k].name) == Some(AllEquipment[k].id)
    ensures NameOfId(AllEquipment, AllEquipment[k].id) == Some(AllEquipment[k].name)
  {
    CatalogueIsKeyed();
    LookupsFindEntry(AllEquipment, k);
  }
}

=== FILE: equipment_screens.dfy ===
/** The two screens that pick equipment: the onboarding step that creates
    the first equipment set, and the modal that edits a saved set. The
    screens select catalogue ids; a saved set stores display names. The
    profile screen opens the modal with the set's names joined by commas,
    and the modal maps them back to ids. */
module EquipmentScreens {
  import opened Common
  import opened WorkoutTypes
  import opened Constants
  import opened UserStore

  // ---------------------------------------------------------------------
  // Splitting the comma-joined list
  // ---------------------------------------------------------------------

  /** `s.split(c)` for a one-character separator: the pieces between the
      separators, empty ones included, so `""` gives `[""]`. */
  function SplitOn(s: string, c: char): (r: seq<string>)
    ensures |r| >= 1
    ensures forall k :: 0 <= k < |r| ==> c !in r[k]
  {
    if |s| == 0 then [""]
    else
      var rest := SplitOn(s[1..], c);
      if s[0] == c then [""] + rest
      else [[s[0]] + rest[0]] + rest[1..]
  }

  /** Joining the pieces with the separator gives back the string. */
  lemma {:induction false} JoinSplit(s: string, c: char)
    ensures Join(SplitOn(s, c), [c]) == s
  {
    if |s| > 0 {
      JoinSplit(s[1..], c);
      var rest := SplitOn(s[1..], c);
      if s[0] == c {
        assert ([""] + rest)[1..] == rest;
      } else {
        var parts := [[s[0]] + rest[0]] + rest[1..];
        assert parts[1..] == rest[1..];
        if |rest| > 1 {
          assert Join(rest, [c]) == rest[0] + [c] + Join(rest[1..], [c]);
        }
        assert s == [s[0]] + s[1..];
      }
    }
  }

  /** Splitting `p + t` when `p` holds no separator: `p` is glued to the
      front of the first piece of `t`. */
  lemma {:induction false} SplitPrefix(p: string, t: string, c: char)
    requires c !in p
    ensures SplitOn(p + t, c) == [p + SplitOn(t, c)[0]] + SplitOn(t, c)[1..]
  {
    if |p| == 0 {
      assert p + t == t;
      assert p + SplitOn(t, c)[0] == SplitOn(t, c)[0];
      assert [SplitOn(t, c)[0]] + SplitOn(t, c)[1..] == SplitOn(t, c);
    } else {
      assert (p + t)[0] == p[0];
      assert (p + t)[1..] == p[1..] + t;
      SplitPrefix(p[1..], t, c);
      assert [p[0]] + (p[1..] + SplitOn(t, c)[0]) == p + SplitOn(t, c)[0];
    }
  }

  /** Splitting pieces that hold no separator, once joined, gives them back. */
  lemma {:induction false} SplitJoin(parts: seq<string>, c: char)
    requires |parts| >= 1
    requires forall k :: 0 <= k < |parts| ==> c !in parts[k]
    ensures SplitOn(Join(parts, [c]), c) == parts
  {
    if |parts| == 1 {
      SplitPrefix(parts[0], "", c);
      assert parts[0] + "" == parts[0];
    } else {
      SplitJoin(parts[1..], c);
      var tail := [c] + Join(parts[1..], [c]);
      assert Join(parts, [c]) == parts[0] + tail;
      SplitPrefix(parts[0], tail, c);
      assert tail[0] == c && tail[1..] == Join(parts[1..], [c]);
      assert SplitOn(tail, c) == [""] + parts[1..];
      assert parts[0] + "" == parts[0];
      assert parts == [parts[0]] + parts[1..];
    }
  }

  // ---------------------------------------------------------------------
  // Ids and display names
  // ---------------------------------------------------------------------
  // The lookups are stated over any catalogue `items`; the screens pass
  // the app's catalogue, which `CatalogueWellFormed` shows qualifies.

  predicate IsIdIn(items: seq<EquipmentItem>, id: string) {
    exists i :: 0 <= i < |items| && items[i].id == id
  }

  predicate IsNameIn(items: seq<EquipmentItem>, name: string) {
    exists i :: 0 <= i < |items| && items[i].name == name
  }

  /** Keyed by id and by name, with non-empty names free of commas. */
  predicate WellFormed(items: seq<EquipmentItem>) {
    && Keyed(items)
    && (forall k :: 0 <= k < |items| ==> items[k].name != "")
    && (forall k :: 0 <= k < |items| ==> ',' !in items[k].name)
  }

  lemma CatalogueWellFormed()
    ensures WellFormed(AllEquipment)
  {
    CatalogueIsKeyed();
    NamesAreNonEmpty();
    NamesHaveNoComma();
    forall k | 0 <= k < |AllEquipment|
      ensures ',' !in AllEquipment[k].name
    {
      assert NoComma(AllEquipment[k].name);
    }
  }

  /** A known id has a non-empty name, which leads back to the id. */
  lemma NameOfKnownId(items: seq<EquipmentItem>, id: string)
    ensures WellFormed(items) && IsIdIn(items, id) ==> (
      var found := NameOfId(items, id);
      && found.Some? && found.value != ""
      && IsNameIn(items, found.value)
      && IdOfName(items, found.value) == Some(id))
  {
    if WellFormed(items) && IsIdIn(items, id) {
      var i :| 0 <= i < |items| && items[i].id == id;
      LookupsFindEntry(items, i);
    }
  }

  /** `ALL_EQUIPMENT.find(e => e.id === id)?.name || id`: the display name
      of a known id, or the id itself for anything else. */
  function DisplayName(items: seq<EquipmentItem>, id: string): (n: string)
    ensures WellFormed(items) && IsIdIn(items, id) ==> IsNameIn(items, n) && IdOfName(items, n) == Some(id)
    ensures !IsIdIn(items, id) ==> n == id
  {
    NameOfKnownId(items, id);
    var found := NameOfId(items, id);
    if found.Some? && found.value != "" then found.value else id
  }

  /** The names a set stores for the selected ids, in selection order. */
  function NamesOf(items: seq<EquipmentItem>, ids: seq<string>): (r: seq<string>)
    ensures |r| == |ids|
    ensures forall k :: 0 <= k < |ids| ==> r[k] == DisplayName(items, ids[k])
  {
    if |ids| == 0 then [] else [DisplayName(items, ids[0])] + NamesOf(items, ids[1..])
  }

  /** `getEquipmentIds`: the id of each name, dropping names the catalogue
      does not know. Nothing is lost exactly when every name is known. */
  function EquipmentIdsOf(items: seq<EquipmentItem>, names: seq<string>): (r: seq<string>)
    ensures forall k :: 0 <= k < |r| ==> IsIdIn(items, r[k])
    ensures (forall k :: 0 <= k < |names| ==> IsNameIn(items, names[k])) ==> |r| == |names|
    ensures (exists k :: 0 <= k < |names| && !IsNameIn(items, names[k])) ==> |r| < |names|
  {
    if |names| == 0 then []
    else
      var rest := EquipmentIdsOf(items, names[1..]);
      assert forall k :: 0 < k < |names| ==> names[k] == names[1..][k - 1];
      match IdOfName(items, names[0])
      case Some(id) => [id] + rest
      case None => rest
  }

  /** Names to ids and back gives the known names unchanged. */
  lemma {:induction false} NamesRoundTrip(items: seq<EquipmentItem>, names: seq<string>)
    requires WellFormed(items)
    requires forall k :: 0 <= k < |names| ==> IsNameIn(items, names[k])
    ensures NamesOf(items, EquipmentIdsOf(items, names)) == names
  {
    if |names| > 0 {
      assert forall k :: 0 <= k < |names[1..]| ==> names[1..][k] == names[k + 1];
      NamesRoundTrip(items, names[1..]);
      NamesStep(items, names);
    }
  }

  lemma NamesStep(items: seq<EquipmentItem>, names: seq<string>)
    requires WellFormed(items) && |names| > 0 && IsNameIn(items, names[0])
    requires NamesOf(items, EquipmentIdsOf(items, names[1..])) == names[1..]
    ensures NamesOf(items, EquipmentIdsOf(items, names)) == names
  {
    KnownNameLeadsBack(items, names[0]);
    assert names == [names[0]] + names[1..];
  }

  /** A known name leads to an id whose display name is that name. */
  lemma KnownNameLeadsBack(items: seq<EquipmentItem>, name: string)
    requires WellFormed(items) && IsNameIn(items, name)
    ensures IdOfName(items, name).Some? && DisplayName(items, IdOfName(items, name).value) == name
  {
    var i :| 0 <= i < |items| && items[i].name == name;
    LookupsFindEntry(items, i);
    assert IsIdIn(items, items[i].id);
  }

  /** Ids to names and back gives the known ids unchanged. */
  lemma {:induction false} IdsRoundTrip(items: seq<EquipmentItem>, ids: seq<string>)
    requires WellFormed(items)
    requires forall k :: 0 <= k < |ids| ==> IsIdIn(items, ids[k])
    ensures EquipmentIdsOf(items, NamesOf(items, ids)) == ids
  {
    if |ids| > 0 {
      IdsRoundTrip(items, ids[1..]);
      var names := NamesOf(items, ids);
      assert names[1..] == NamesOf(items, ids[1..]);
      assert ids == [ids[0]] + ids[1..];
    }
  }

  /** The modal's reading of the `equipment` parameter: the comma-separated
      names, empty pieces dropped, mapped to ids. */
  function IdsFromParam(items: seq<EquipmentItem>, equipment: string): (r: seq<string>)
    ensures forall k :: 0 <= k < |r| ==> IsIdIn(items, r[k])
    ensures equipment == "" ==> r == []
  {
    if equipment == "" then [] else EquipmentIdsOf(items, NonEmpty(SplitOn(equipment, ',')))
  }

  /** Joining known names with commas and reading them back gives the ids
      they name. */
  lemma ReopenedNames(items: seq<EquipmentItem>, names: seq<string>)
    requires WellFormed(items)
    requires forall k :: 0 <= k < |names| ==> IsNameIn(items, names[k])
    ensures NamesOf(items, IdsFromParam(items, Join(names, ","))) == names
  {
    if |names| == 0 {
      assert Join(names, ",") == "";
    } else {
      forall k | 0 <= k < |names|
        ensures ',' !in names[k] && names[k] != ""
      {
        var i :| 0 <= i < |items| && items[i].name == names[k];
      }
      SplitJoin(names, ',');
      assert |Join(names, ",")| >= |names[0]|;
      NamesRoundTrip(items, names);
    }
  }

  /** Reading back the names of known ids gives the ids. */
  lemma ReopenedIds(items: seq<EquipmentItem>, ids: seq<string>)
    requires WellFormed(items)
    requires forall k :: 0 <= k < |ids| ==> IsIdIn(items, ids[k])
    ensures IdsFromParam(items, Join(NamesOf(items, ids), ",")) == ids
  {
    var names := NamesOf(items, ids);
    ReopenedNames(items, names);
    var reopened := IdsFromParam(items, Join(names, ","));
    IdsRoundTrip(items, reopened);
    IdsRoundTrip(items, ids);
  }

  // ---------------------------------------------------------------------
  // The edit modal
  // ---------------------------------------------------------------------

  /** The route parameters, all strings; a missing one is `""`. */
  datatype SetParams = SetParams(id: string, name: string, equipment: string, notes: string, isDefault: string)

  /** What the profile screen passes when it opens the modal for a set. */
  function ParamsOf(s: EquipmentSet): (p: SetParams)
    ensures p.id == s.id && p.name == s.name
    ensures p.isDefault == "true" <==> s.isDefault == Some(true)
    ensures p.notes == s.notes.GetOr("")
    ensures |s.equipment| >= 1 && (forall k :: 0 <= k < |s.equipment| ==> ',' !in s.equipment[k]) ==>
      SplitOn(p.equipment, ',') == s.equipment
  {
    var params := SetParams(s.id, s.name, Join(s.equipment, ","), s.notes.GetOr(""),
      if s.isDefault == Some(true) then "true" else "false");
    if |s.equipment| >= 1 && (forall k :: 0 <= k < |s.equipment| ==> ',' !in s.equipment[k]) then
      SplitJoin(s.equipment, ',');
      params
    else params
  }

  /** The modal's local state. */
  datatype SetEditor = SetEditor(selected: seq<string>, name: string, notes: string, isDefault: bool)

  function OpenEditor(p: SetParams): (e: SetEditor)
    ensures e.isDefault <==> p.isDefault == "true"
    ensures e.name == p.name && e.notes == p.notes
    ensures e.selected == IdsFromParam(AllEquipment, p.equipment)
  {
    SetEditor(IdsFromParam(AllEquipment, p.equipment), p.name, p.notes, p.isDefault == "true")
  }

  /** Tapping an item: adds it at the end, or removes it if selected. */
  function ToggleItem(e: SetEditor, id: string): (r: SetEditor)
    ensures id in r.selected <==> id !in e.selected
    ensures forall x :: x != id ==> (x in r.selected <==> x in e.selected)
    ensures r.(selected := e.selected) == e
  {
    var t := Toggle(e.selected, id);
    assert forall x :: x != id && x in t ==> x in e.selected;
    assert forall x :: x != id && x in e.selected ==> x in t;
    e.(selected := t)
  }

  /** A preset replaces the whole selection; the name is kept. */
  function ApplyPresetToEditor(e: SetEditor, preset: Preset): (r: SetEditor)
    ensures r.selected == preset.equipment
    ensures r.(selected := e.selected) == e
  {
    e.(selected := preset.equipment)
  }

  /** Whether saving also makes the set the default: only when the box is
      checked now and was not checked on opening. Unchecking it does not
      take the default away. */
  predicate DefaultChanges(p: SetParams, e: SetEditor) {
    e.isDefault && p.isDefault != "true"
  }

  /** The update the modal sends: the name (or "My Equipment" when
      empty), the selected ids as display names, and the trimmed notes. */
  function EditorPatch(e: SetEditor): (u: SetPatch)
    ensures u.id.None? && u.isDefault.None?
    ensures u.name.Some? && u.name.value != ""
    ensures e.name != "" ==> u.name.value == e.name
    ensures u.equipment == Some(NamesOf(AllEquipment, e.selected))
    ensures u.notes == Some(TrimmedOrNone(e.notes))
  {
    SetPatch(None, Some(if e.name == "" then "My Equipment" else e.name), Some(NamesOf(AllEquipment, e.selected)),
      Some(TrimmedOrNone(e.notes)), None)
  }

  /** "Save Changes" (`handleSave`): nothing without an id; otherwise
      updates the set and, if the box was newly checked, makes it the
      default. Closing the modal is not modelled. */
  function SaveEditor(st: UserState, p: SetParams, e: SetEditor): (r: UserState)
    ensures p.id == "" || st.profile.None? ==> r == st
    ensures r.savedCustomInstructions == st.savedCustomInstructions
    ensures st.profile.Some? ==> r.profile.Some?
  {
    if p.id == "" then st
    else
      var updated := UpdateEquipmentSet(st, p.id, EditorPatch(e));
      if DefaultChanges(p, e) then SetDefaultEquipmentSet(updated, p.id) else updated
  }

  /** What saving does to each set: the sets with the id get the editor's
      name, names and notes; the default flags change only when the box
      was newly checked, and then exactly the edited set is the default. */
  lemma SaveEffect(st: UserState, p: SetParams, e: SetEditor)
    requires p.id != "" && st.profile.Some?
    ensures var before := st.profile.value.equipmentSets;
      var after := SaveEditor(st, p, e).profile.value.equipmentSets;
      && |after| == |before|
      && (forall k :: 0 <= k < |before| && before[k].id == p.id ==>
            after[k].name == EditorPatch(e).name.value
            && after[k].equipment == NamesOf(AllEquipment, e.selected)
            && after[k].notes == TrimmedOrNone(e.notes))
      && (forall k :: 0 <= k < |before| && before[k].id != p.id ==>
            after[k].(isDefault := before[k].isDefault) == before[k])
      && (DefaultChanges(p, e) ==> forall k :: 0 <= k < |before| ==> after[k].isDefault == Some(before[k].id == p.id))
      && (!DefaultChanges(p, e) ==> forall k :: 0 <= k < |before| ==> after[k].isDefault == before[k].isDefault)
  {
    var before := st.profile.value.equipmentSets;
    var merged := MergeMatching(before, p.id, EditorPatch(e));
    assert UpdateEquipmentSet(st, p.id, EditorPatch(e)).profile.value.equipmentSets == merged;
    if DefaultChanges(p, e) {
      var marked := MarkDefault(merged, p.id);
      assert SaveEditor(st, p, e).profile.value.equipmentSets == marked;
    }
  }

  /** A set whose fields the modal would store unchanged. */
  predicate RoundTrips(s: EquipmentSet) {
    && s.id != ""
    && s.name != ""
    && (s.notes.None? || Trimmed(s.notes.value))
    && (forall k :: 0 <= k < |s.equipment| ==> IsNameIn(AllEquipment, s.equipment[k]))
  }

  /** Opening a set from the profile and saving it untouched leaves the
      profile as it was, when the set's id is its own and its names are
      catalogue names. */
  lemma OpenAndSaveKeepsSet(st: UserState, k: nat)
    requires st.profile.Some? && k < |st.profile.value.equipmentSets|
    requires RoundTrips(st.profile.value.equipmentSets[k])
    requires forall j :: 0 <= j < |st.profile.value.equipmentSets| && j != k ==>
      st.profile.value.equipmentSets[j].id != st.profile.value.equipmentSets[k].id
    ensures var p := ParamsOf(st.profile.value.equipmentSets[k]);
      SaveEditor(st, p, OpenEditor(p)) == st
  {
    var before := st.profile.value.equipmentSets;
    var s := before[k];
    var p := ParamsOf(s);
    var e := OpenEditor(p);
    CatalogueWellFormed();
    ReopenedNames(AllEquipment, s.equipment);
    if s.notes.Some? {
      TrimOfTrimmed(s.notes.value);
    } else {
      BlankIffAllSpace("");
    }
    assert MergeSet(s, EditorPatch(e)) == s;
    var merged := MergeMatching(before, s.id, EditorPatch(e));
    assert merged == before;
  }

  // ---------------------------------------------------------------------
  // The onboarding step
  // ---------------------------------------------------------------------

  /** The step's local state: the selected ids and the set's name. */
  datatype Picker = Picker(selected: seq<string>, setName: string)

  const FreshPicker := Picker([], "My Equipment")

  function TogglePick(pk: Picker, id: string): (r: Picker)
    ensures id in r.selected <==> id !in pk.selected
    ensures r.setName == pk.setName
  {
    pk.(selected := Toggle(pk.selected, id))
  }

  /** Here a preset also names the set after itself. */
  function ApplyPresetToPicker(pk: Picker, preset: Preset): (r: Picker)
    ensures r == Picker(preset.equipment, preset.name)
  {
    Picker(preset.equipment, preset.name)
  }

  /** "Continue" (`handleNext`): replaces the profile's equipment sets with
      a single default set under the fresh id `newId`. Moving on to the
      next step is not modelled. */
  function OnboardingNext(st: UserState, pk: Picker, newId: string): (r: UserState)
    ensures st.profile.None? ==> r == st
    ensures st.profile.Some? ==> r.profile.Some? && |r.profile.value.equipmentSets| == 1
    ensures st.profile.Some? ==> (
      var s := r.profile.value.equipmentSets[0];
      && s.id == newId && s.isDefault == Some(true) && s.notes.None?
      && s.name != "" && (pk.setName != "" ==> s.name == pk.setName)
      && s.equipment == NamesOf(AllEquipment, pk.selected))
    ensures st.profile.Some? ==>
      r.profile.value.(equipmentSets := st.profile.value.equipmentSets) == st.profile.value
  {
    var s := EquipmentSet(newId, if pk.setName == "" then "My Equipment" else pk.setName, NamesOf(AllEquipment, pk.selected), None, Some(true));
    UpdateProfile(st, NoProfileChanges.(equipmentSets := Some([s])))
  }

  /** The only set after onboarding is the default one, as the set-default
      action would make it. */
  lemma OnboardingSetIsTheDefault(st: UserState, pk: Picker, newId: string)
    requires st.profile.Some?
    ensures SetDefaultEquipmentSet(OnboardingNext(st, pk, newId), newId) == OnboardingNext(st, pk, newId)
  {
    var r := OnboardingNext(st, pk, newId);
    assert MarkDefault(r.profile.value.equipmentSets, newId) == r.profile.value.equipmentSets;
  }

  /** A preset chosen during onboarding reappears in the edit modal: the
      stored set opens with exactly the preset's ids selected, the preset's
      name and the default box checked. */
  lemma PresetSurvivesToEditor(st: UserState, i: nat, newId: string)
    requires st.profile.Some? && i < |EquipmentPresets|
    ensures var r := OnboardingNext(st, ApplyPresetToPicker(FreshPicker, EquipmentPresets[i]), newId);
      var e := OpenEditor(ParamsOf(r.profile.value.equipmentSets[0]));
      && e.selected == EquipmentPresets[i].equipment
      && e.name == EquipmentPresets[i].name
      && e.isDefault
  {
    var ids := EquipmentPresets[i].equipment;
    PresetIdsAreKnown(i);
    CatalogueWellFormed();
    ReopenedIds(AllEquipment, ids);
  }

  /** Every id in a preset is a catalogue id. */
  lemma PresetIdsAreKnown(i: nat)
    requires i < |EquipmentPresets|
    ensures forall k :: 0 <= k < |EquipmentPresets[i].equipment| ==> IsIdIn(AllEquipment, EquipmentPresets[i].equipment[k])
  {
    var ids := EquipmentPresets[i].equipment;
    PresetsUseKnownIds();
    IdListsMatchTables();
    forall k | 0 <= k < |ids|
      ensures IsIdIn(AllEquipment, ids[k])
    {
      var j :| 0 <= j < |CatalogueIds| && CatalogueIds[j] == ids[k];
      assert AllEquipment[j].id == ids[k];
    }
  }
}

=== FILE: feedback_screens.dfy ===
/** The two screens where the user rates a workout: the completion screen
    shown when the timer ends or is stopped, and the edit screen reached
    from the history. Both offer the ten-point effort (RPE) scale and a
    notes box, and both write through the history store's `updateSession`. */
module FeedbackScreens {
  import opened Common
  import opened WorkoutTypes
  import opened Timer
  import opened HistoryStore

  // ---------------------------------------------------------------------
  // The effort scale
  // ---------------------------------------------------------------------

  /** The theme colours the scale uses. */
  datatype Tone = Success | Warning | Accent | Error

  /** The buttons offered, 1 to 10. */
  const RpeChoices: seq<int> := [1, 2, 3, 4, 5, 6, 7, 8, 9, 10]

  /** `getRpeColor`: four bands, green up to 3, amber up to 6, the accent
      colour up to 8, red above. */
  function RpeColor(value: int): (t: Tone)
    ensures t == Success <==> value <= 3
    ensures t == Warning <==> 3 < value <= 6
    ensures t == Accent <==> 6 < value <= 8
    ensures t == Error <==> 8 < value
  {
    if value <= 3 then Success
    else if value <= 6 then Warning
    else if value <= 8 then Accent
    else Error
  }

  /** `getRpeLabel`: five bands of two values each on the 1-10 scale. */
  function RpeLabel(value: int): (s: string)
    ensures s == "Very Easy" <==> value <= 2
    ensures s == "Easy" <==> 2 < value <= 4
    ensures s == "Moderate" <==> 4 < value <= 6
    ensures s == "Hard" <==> 6 < value <= 8
    ensures s == "Maximum" <==> 8 < value
  {
    if value <= 2 then "Very Easy"
    else if value <= 4 then "Easy"
    else if value <= 6 then "Moderate"
    else if value <= 8 then "Hard"
    else "Maximum"
  }

  function ToneRank(t: Tone): nat {
    match t
    case Success => 0
    case Warning => 1
    case Accent => 2
    case Error => 3
  }

  function LabelRank(s: string): nat {
    if s == "Very Easy" then 0
    else if s == "Easy" then 1
    else if s == "Moderate" then 2
    else if s == "Hard" then 3
    else 4
  }

  /** A harder rating never gets a milder colour or a milder word. */
  lemma ScaleIsMonotone(v: int, w: int)
    requires v <= w
    ensures ToneRank(RpeColor(v)) <= ToneRank(RpeColor(w))
    ensures LabelRank(RpeLabel(v)) <= LabelRank(RpeLabel(w))
  {
  }

  /** The word and the colour agree: every word but "Easy" sits inside one
      colour band, and "Maximum" is exactly the red band. */
  lemma LabelsRefineColours(v: int)
    ensures RpeLabel(v) == "Very Easy" ==> RpeColor(v) == Success
    ensures RpeLabel(v) == "Moderate" ==> RpeColor(v) == Warning
    ensures RpeLabel(v) == "Hard" ==> RpeColor(v) == Accent
    ensures RpeLabel(v) == "Maximum" <==> RpeColor(v) == Error
  {
  }

  /** The ten buttons show exactly the four colours and the five words. */
  lemma ChoicesReachEveryBand()
    ensures (set k | 0 <= k < |RpeChoices| :: RpeColor(RpeChoices[k])) == {Success, Warning, Accent, Error}
    ensures (set k | 0 <= k < |RpeChoices| :: RpeLabel(RpeChoices[k])) ==
      {"Very Easy", "Easy", "Moderate", "Hard", "Maximum"}
  {
    assert RpeColor(RpeChoices[0]) == Success && RpeColor(RpeChoices[3]) == Warning;
    assert RpeColor(RpeChoices[6]) == Accent && RpeColor(RpeChoices[8]) == Error;
    assert RpeLabel(RpeChoices[0]) == "Very Easy" && RpeLabel(RpeChoices[2]) == "Easy";
    assert RpeLabel(RpeChoices[4]) == "Moderate" && RpeLabel(RpeChoices[6]) == "Hard";
    assert RpeLabel(RpeChoices[8]) == "Maximum";
  }

  /** Pressing a button: selects it, or clears the rating when it was the
      one already selected. */
  function ToggleRpe(rpe: Option<int>, value: int): (r: Option<int>)
    ensures r.None? <==> rpe == Some(value)
    ensures r.Some? ==> r.value == value
  {
    if rpe == Some(value) then None else Some(value)
  }

  /** Pressing the same button twice restores the rating, unless a
      different button was selected before. */
  lemma ToggleTwice(rpe: Option<int>, value: int)
    ensures rpe.None? || rpe == Some(value) ==> ToggleRpe(ToggleRpe(rpe, value), value) == rpe
    ensures rpe.Some? && rpe != Some(value) ==> ToggleRpe(ToggleRpe(rpe, value), value) == None
  {
  }

  // ---------------------------------------------------------------------
  // What the screens write
  // ---------------------------------------------------------------------

  /** The screen's local state: the selected rating and the notes text. */
  datatype Draft = Draft(rpe: Option<int>, notes: string)

  /** `{ rpe, notes: notes.trim() || undefined }`: both keys are always
      present, so both overwrite what was stored, even when undefined. */
  function DraftPatch(d: Draft): (p: FeedbackPatch)
    ensures p.rpe == Some(d.rpe)
    ensures p.notes.Some?
    ensures p.notes.value.None? <==> AllSpace(d.notes)
    ensures p.notes.value.Some? ==> p.notes.value.value == Trim(d.notes)
  {
    FeedbackPatch(Some(d.rpe), Some(TrimmedOrNone(d.notes)))
  }

  /** Whatever was stored before, the merged feedback is the draft. */
  lemma DraftReplacesFeedback(prior: Option<Feedback>, d: Draft, now: int)
    ensures MergeFeedback(prior, DraftPatch(d), now) == Feedback(d.rpe, TrimmedOrNone(d.notes), Some(now))
  {
  }

  /** The first session with the id is found again after an update, carrying
      the merged feedback and otherwise unchanged. */
  lemma FoundAfterUpdate(h: History, id: string, patch: FeedbackPatch, now: int)
    requires GetSessionById(h, id).Some?
    ensures GetSessionById(UpdateSession(h, id, patch, now), id) ==
      Some(GetSessionById(h, id).value.(feedback := Some(MergeFeedback(GetSessionById(h, id).value.feedback, patch, now))))
  {
    FindAfterUpdateIn(h.sessions, id, patch, now);
  }

  lemma {:induction false} FindAfterUpdateIn(sessions: seq<WorkoutSession>, id: string, patch: FeedbackPatch, now: int)
    ensures var found := FindId(sessions, id);
      FindId(UpdateFeedbackIn(sessions, id, patch, now), id)
      == if found.Some? then Some(found.value.(feedback := Some(MergeFeedback(found.value.feedback, patch, now)))) else None
  {
    if |sessions| > 0 {
      var u := UpdateFeedbackIn(sessions, id, patch, now);
      assert u[1..] == UpdateFeedbackIn(sessions[1..], id, patch, now);
      if sessions[0].id != id {
        FindAfterUpdateIn(sessions[1..], id, patch, now);
      }
    }
  }

  // ---------------------------------------------------------------------
  // The completion screen
  // ---------------------------------------------------------------------

  /** Whether "Done" writes anything: only with a session and a rating or
      some non-blank notes. */
  predicate DoneWrites(session: Option<WorkoutSession>, d: Draft) {
    session.Some? && (d.rpe.Some? || !AllSpace(d.notes))
  }

  /** "Done" (`handleDone`): saves the feedback when there is some, then
      resets the timer store; the navigation home is not modelled. */
  function CompleteDone(t: TimerState, h: History, d: Draft, now: int): (r: (TimerState, History))
    ensures r.0 == Reset(t)
    ensures !DoneWrites(t.session, d) ==> r.1 == h
    ensures DoneWrites(t.session, d) ==> r.1 == UpdateSession(h, t.session.value.id, DraftPatch(d), now)
  {
    BlankIffAllSpace(d.notes);
    if t.session.Some? && (d.rpe.Some? || Trim(d.notes) != "") then
      (Reset(t), UpdateSession(h, t.session.value.id, DraftPatch(d), now))
    else
      (Reset(t), h)
  }

  /** After "Done" with a rating or notes, the session in the history holds
      exactly the entered rating and the trimmed notes. */
  lemma DoneSavesDraft(t: TimerState, h: History, d: Draft, now: int)
    requires DoneWrites(t.session, d)
    requires GetSessionById(h, t.session.value.id).Some?
    ensures var found := GetSessionById(CompleteDone(t, h, d, now).1, t.session.value.id);
      found.Some? && found.value.feedback == Some(Feedback(d.rpe, TrimmedOrNone(d.notes), Some(now)))
  {
    var id := t.session.value.id;
    FoundAfterUpdate(h, id, DraftPatch(d), now);
    DraftReplacesFeedback(GetSessionById(h, id).value.feedback, d, now);
  }

  /** "View History" (`handleViewHistory`): resets the timer store and
      discards the draft. */
  function CompleteViewHistory(t: TimerState, h: History): (r: (TimerState, History))
    ensures r.0 == Reset(t) && r.1 == h
  {
    (Reset(t), h)
  }

  /** The header: a trophy and "Workout Complete!" for a finished session,
      otherwise "Great Effort!" with the share of the workout done. */
  datatype Headline = Headline(trophy: bool, title: string, subtitle: string)

  function HeadlineOf(s: WorkoutSession): (hl: Headline)
    ensures hl.trophy <==> s.status == WorkoutStatus.Completed
    ensures hl.trophy <==> hl.title == "Workout Complete!"
    ensures !hl.trophy ==> hl.subtitle == "You completed " + IntToString(s.percentComplete) + "% of your workout."
  {
    if s.status == WorkoutStatus.Completed then
      Headline(true, "Workout Complete!", "You crushed it! Keep up the momentum.")
    else
      Headline(false, "Great Effort!", "You completed " + IntToString(s.percentComplete) + "% of your workout.")
  }

  /** A run to the end earns the trophy; a stopped run never does. */
  lemma TrophyOnlyForFinishedRuns(ss: WorkoutSession, s: TimerState, now: int, count: int, elapsed: int)
    ensures HeadlineOf(CompletedSession(ss, now, count, elapsed)).trophy
    ensures !HeadlineOf(StoppedSession(ss, now, s)).trophy
  {
  }

  // ---------------------------------------------------------------------
  // The edit screen
  // ---------------------------------------------------------------------

  /** The draft the edit screen opens with: the stored rating, and the
      stored notes or the empty string. */
  function InitialDraft(session: Option<WorkoutSession>): (d: Draft)
    ensures session.None? || session.value.feedback.None? ==> d == Draft(None, "")
    ensures session.Some? && session.value.feedback.Some? ==>
      d.rpe == session.value.feedback.value.rpe && d.notes == session.value.feedback.value.notes.GetOr("")
  {
    if session.Some? && session.value.feedback.Some? then
      Draft(session.value.feedback.value.rpe, session.value.feedback.value.notes.GetOr(""))
    else Draft(None, "")
  }

  /** "Save Changes" (`handleSave`): writes whenever the route carries a
      non-empty session id, even when the draft is empty; that clears the
      stored rating and notes. Going back is not modelled. */
  function EditSave(h: History, sessionId: Option<string>, d: Draft, now: int): (r: History)
    ensures sessionId.None? || sessionId == Some("") ==> r == h
    ensures sessionId.Some? && sessionId.value != "" ==> r == UpdateSession(h, sessionId.value, DraftPatch(d), now)
  {
    if sessionId.Some? && sessionId.value != "" then UpdateSession(h, sessionId.value, DraftPatch(d), now) else h
  }

  /** Feedback as the screens store it: notes absent or already trimmed. */
  predicate TidyFeedback(f: Feedback) {
    f.notes.None? || Trimmed(f.notes.value)
  }

  /** Opening a session's feedback and saving it untouched keeps the rating
      and notes; only the edit time moves. */
  lemma OpenAndSaveKeepsFeedback(h: History, id: string, now: int)
    requires id != ""
    requires GetSessionById(h, id).Some?
    requires GetSessionById(h, id).value.feedback.Some?
    requires TidyFeedback(GetSessionById(h, id).value.feedback.value)
    ensures var before := GetSessionById(h, id).value.feedback.value;
      var after := GetSessionById(EditSave(h, Some(id), InitialDraft(GetSessionById(h, id)), now), id);
      && after.Some?
      && after.value.feedback == Some(before.(updatedAt := Some(now)))
  {
    var s := GetSessionById(h, id).value;
    var d := InitialDraft(Some(s));
    FoundAfterUpdate(h, id, DraftPatch(d), now);
    DraftReplacesFeedback(s.feedback, d, now);
    TidyDraftKeepsNotes(s.feedback.value);
  }

  /** The draft opened from tidy feedback saves the same notes back. */
  lemma TidyDraftKeepsNotes(f: Feedback)
    requires TidyFeedback(f)
    ensures TrimmedOrNone(f.notes.GetOr("")) == f.notes
  {
    if f.notes.Some? {
      TrimOfTrimmed(f.notes.value);
    } else {
      assert AllSpace("");
    }
  }

  /** The two screens differ on an empty draft: "Done" leaves the history
      alone, while "Save Changes" wipes the stored rating and notes. */
  lemma EmptyDraftOnlyClearsOnEdit(t: TimerState, h: History, now: int)
    requires t.session.Some? && t.session.value.id != ""
    requires GetSessionById(h, t.session.value.id).Some?
    ensures CompleteDone(t, h, Draft(None, ""), now).1 == h
    ensures var after := GetSessionById(EditSave(h, Some(t.session.value.id), Draft(None, ""), now), t.session.value.id);
      after.Some? && after.value.feedback == Some(Feedback(None, None, Some(now)))
  {
    var id := t.session.value.id;
    FoundAfterUpdate(h, id, DraftPatch(Draft(None, "")), now);
    DraftReplacesFeedback(GetSessionById(h, id).value.feedback, Draft(None, ""), now);
  }
}

=== FILE: flatten.dfy ===
/** The flattener: turns the nested workout (warm-up, circuits x rounds,
    cool-down) into the ordered timeline the timer walks through. */
module Flatten {
  import opened Common
  import opened WorkoutTypes

  // ---------------------------------------------------------------------
  // Building blocks, in the order the flattener emits them
  // ---------------------------------------------------------------------

  function ExerciseItem(e: Exercise, kind: ItemKind): TimerItem {
    TimerItem(e.name, e.duration, kind)
  }

  /** One `warmup_exercise` item per exercise, carrying its position. */
  function WarmupItems(es: seq<Exercise>): seq<TimerItem> {
    seq(|es|, i requires 0 <= i < |es| => ExerciseItem(es[i], WarmupExercise(es[i], i)))
  }

  /** One `cooldown_exercise` item per exercise, carrying its position. */
  function CooldownItems(es: seq<Exercise>): seq<TimerItem> {
    seq(|es|, i requires 0 <= i < |es| => ExerciseItem(es[i], CooldownExercise(es[i], i)))
  }

  function ExerciseRestItem(c: Circuit, ci: int, round: int): TimerItem {
    TimerItem("Rest", c.restBetweenExercises, ExerciseRest(ci, round))
  }

  function RoundRestItem(c: Circuit, ci: int, round: int): TimerItem {
    TimerItem("Round " + IntToString(round + 1) + " Complete", c.restBetweenRounds, RoundRest(ci, round))
  }

  function CircuitRestItem(w: GeneratedWorkout, ci: int): TimerItem {
    TimerItem("Circuit " + IntToString(ci) + " Complete", w.restBetweenCircuits, CircuitRest(ci - 1))
  }

  /** The items of one round, from exercise `j` on: each exercise, followed by
      an exercise rest unless it is the last one or the rest is not positive. */
  function RoundFrom(c: Circuit, ci: int, round: int, j: nat): seq<TimerItem>
    decreases |c.exercises| - j
  {
    if j >= |c.exercises| then []
    else
      [ExerciseItem(c.exercises[j], CircuitExercise(c.exercises[j], ci, round, j))]
      + ExerciseRestAfter(c, ci, round, j)
      + RoundFrom(c, ci, round, j + 1)
  }

  /** The exercise rest after exercise `j`: present unless `j` is the last
      exercise or the rest is not positive. */
  function ExerciseRestAfter(c: Circuit, ci: int, round: int, j: int): seq<TimerItem> {
    if j < |c.exercises| - 1 && c.restBetweenExercises > 0 then [ExerciseRestItem(c, ci, round)] else []
  }

  /** The round rest after round `round`: present unless it is the last round
      or the rest is not positive. */
  function RoundRestAfter(c: Circuit, ci: int, round: int): seq<TimerItem> {
    if round < c.rounds - 1 && c.restBetweenRounds > 0 then [RoundRestItem(c, ci, round)] else []
  }

  /** The circuit rest before circuit `ci`: present unless it is the first
      circuit or the rest is not positive. */
  function CircuitRestBefore(w: GeneratedWorkout, ci: int): seq<TimerItem> {
    if ci > 0 && w.restBetweenCircuits > 0 then [CircuitRestItem(w, ci)] else []
  }

  /** The rounds `round`, `round + 1`, ..., `rounds - 1` of a circuit, with a
      round rest after each one except the last when the rest is positive. */
  function RoundsFrom(c: Circuit, ci: int, round: nat): seq<TimerItem>
    decreases c.rounds - round
  {
    if round >= c.rounds then []
    else
      RoundFrom(c, ci, round, 0)
      + RoundRestAfter(c, ci, round)
      + RoundsFrom(c, ci, round + 1)
  }

  /** The circuits from index `ci` on, each preceded (except the first) by a
      circuit rest when `restBetweenCircuits` is positive. */
  function CircuitsFrom(w: GeneratedWorkout, ci: nat): seq<TimerItem>
    decreases |w.circuits| - ci
  {
    if ci >= |w.circuits| then []
    else
      CircuitRestBefore(w, ci)
      + RoundsFrom(w.circuits[ci], ci, 0)
      + CircuitsFrom(w, ci + 1)
  }

  function TimelineOf(w: GeneratedWorkout): seq<TimerItem> {
    (if |w.warmUp.exercises| > 0 then WarmupItems(w.warmUp.exercises) else [])
    + CircuitsFrom(w, 0)
    + (if |w.coolDown.exercises| > 0 then CooldownItems(w.coolDown.exercises) else [])
  }

  // ---------------------------------------------------------------------
  // flattenWorkout
  // ---------------------------------------------------------------------

  /** `flattenWorkout`: warm-up items first (in order, each tagged with its
      position and carrying its exercise's duration), cool-down items last,
      every rest item of positive duration, and totals that agree with the
      items. */
  function FlattenWorkout(w: GeneratedWorkout): (f: FlattenedWorkout)
    ensures f.workoutId == w.id
    ensures f.totalItems == |f.items|
    ensures f.totalDuration == SumDurations(f.items)
    ensures |f.items| >= |w.warmUp.exercises| + |w.coolDown.exercises|
    ensures forall i :: 0 <= i < |w.warmUp.exercises| ==>
      f.items[i] == TimerItem(w.warmUp.exercises[i].name, w.warmUp.exercises[i].duration,
                              WarmupExercise(w.warmUp.exercises[i], i))
    ensures forall i :: 0 <= i < |w.coolDown.exercises| ==>
      f.items[|f.items| - |w.coolDown.exercises| + i]
        == TimerItem(w.coolDown.exercises[i].name, w.coolDown.exercises[i].duration,
                     CooldownExercise(w.coolDown.exercises[i], i))
    ensures forall k :: 0 <= k < |f.items| ==> WellFormedItem(f.items[k])
  {
    var items := TimelineOf(w);
    TimelineWellFormed(w);
    FlattenedWorkout(w.id, items, SumDurations(items), |items|)
  }

  /** An item is well formed when an exercise item takes its name and
      duration from its exercise and a rest item lasts a positive time. */
  predicate WellFormedItem(t: TimerItem) {
    match t.kind.ExerciseOf()
    case Some(e) => t.name == e.name && t.duration == e.duration
    case None => t.duration > 0
  }

  predicate AllWellFormed(items: seq<TimerItem>) {
    forall k :: 0 <= k < |items| ==> WellFormedItem(items[k])
  }

  lemma AllWellFormedAppend(a: seq<TimerItem>, b: seq<TimerItem>)
    requires AllWellFormed(a) && AllWellFormed(b)
    ensures AllWellFormed(a + b)
  {
    forall k | 0 <= k < |a + b|
      ensures WellFormedItem((a + b)[k])
    {
      if k < |a| {
        assert (a + b)[k] == a[k];
      } else {
        assert (a + b)[k] == b[k - |a|];
      }
    }
  }

  lemma {:induction false} RoundFromWellFormed(c: Circuit, ci: int, round: int, j: nat)
    ensures AllWellFormed(RoundFrom(c, ci, round, j))
    decreases |c.exercises| - j
  {
    if j < |c.exercises| {
      var e := c.exercises[j];
      RoundFromWellFormed(c, ci, round, j + 1);
      var head := [ExerciseItem(e, CircuitExercise(e, ci, round, j))] + ExerciseRestAfter(c, ci, round, j);
      assert AllWellFormed(head);
      AllWellFormedAppend(head, RoundFrom(c, ci, round, j + 1));
    }
  }

  lemma {:induction false} RoundsFromWellFormed(c: Circuit, ci: int, round: nat)
    ensures AllWellFormed(RoundsFrom(c, ci, round))
    decreases c.rounds - round
  {
    if round < c.rounds {
      RoundFromWellFormed(c, ci, round, 0);
      RoundsFromWellFormed(c, ci, round + 1);
      var rest := RoundRestAfter(c, ci, round);
      assert AllWellFormed(rest);
      AllWellFormedAppend(RoundFrom(c, ci, round, 0), rest);
      AllWellFormedAppend(RoundFrom(c, ci, round, 0) + rest, RoundsFrom(c, ci, round + 1));
    }
  }

  lemma {:induction false} CircuitsFromWellFormed(w: GeneratedWorkout, ci: nat)
    ensures AllWellFormed(CircuitsFrom(w, ci))
    decreases |w.circuits| - ci
  {
    if ci < |w.circuits| {
      var pre := CircuitRestBefore(w, ci);
      assert AllWellFormed(pre);
      RoundsFromWellFormed(w.circuits[ci], ci, 0);
      CircuitsFromWellFormed(w, ci + 1);
      AllWellFormedAppend(pre, RoundsFrom(w.circuits[ci], ci, 0));
      AllWellFormedAppend(pre + RoundsFrom(w.circuits[ci], ci, 0), CircuitsFrom(w, ci + 1));
    }
  }

  lemma TimelineWellFormed(w: GeneratedWorkout)
    ensures AllWellFormed(TimelineOf(w))
  {
    var warm := if |w.warmUp.exercises| > 0 then WarmupItems(w.warmUp.exercises) else [];
    var cool := if |w.coolDown.exercises| > 0 then CooldownItems(w.coolDown.exercises) else [];
    CircuitsFromWellFormed(w, 0);
    AllWellFormedAppend(warm, CircuitsFrom(w, 0));
    AllWellFormedAppend(warm + CircuitsFrom(w, 0), cool);
  }

  // ---------------------------------------------------------------------
  // Labels and the rest classification
  // ---------------------------------------------------------------------

  /** `getItemTypeLabel`: a non-empty label for every tag (the default
      branch of the source's switch is unreachable). */
  function ItemTypeLabel(t: TimerItemType): (text: string)
    ensures text != ""
  {
    match t
    case WarmupExerciseType => "WARM UP"
    case CircuitExerciseType => "WORK"
    case CooldownExerciseType => "COOL DOWN"
    case ExerciseRestType => "REST"
    case RoundRestType => "ROUND REST"
    case CircuitRestType => "CIRCUIT REST"
  }

  /** Distinct tags get distinct labels. */
  lemma ItemTypeLabelInjective(a: TimerItemType, b: TimerItemType)
    requires ItemTypeLabel(a) == ItemTypeLabel(b)
    ensures a == b
  {
  }

  /** `isRestItem`. */
  predicate IsRestItem(t: TimerItemType) {
    t == ExerciseRestType || t == RoundRestType || t == CircuitRestType
  }

  /** An item is a rest exactly when it carries no exercise. */
  lemma RestIffNoExercise(k: ItemKind)
    ensures IsRestItem(k.Type()) <==> k.ExerciseOf().None?
  {
  }
}

=== FILE: flatten_props.dfy ===
/** What the flattened timeline looks like: the shape of one round, how many
    rests of each kind are emitted, and the closed-form total duration. */
module FlattenProperties {
  import opened Common
  import opened WorkoutTypes
  import opened Flatten

  /** The positive part of a rest length: zero or negative rests emit nothing. */
  function Pos(x: int): nat {
    if x > 0 then x else 0
  }

  // ---------------------------------------------------------------------
  // Shape of one round
  // ---------------------------------------------------------------------

  function CircuitExerciseItem(c: Circuit, ci: int, round: int, j: int): TimerItem
    requires 0 <= j < |c.exercises|
  {
    ExerciseItem(c.exercises[j], CircuitExercise(c.exercises[j], ci, round, j))
  }

  /** The item at slot `k` of an interleaved round starting at exercise `j0`. */
  function InterleavedSlot(c: Circuit, ci: int, round: int, j0: nat, k: nat): TimerItem
    requires j0 + k / 2 < |c.exercises|
  {
    if k % 2 == 0 then CircuitExerciseItem(c, ci, round, j0 + k / 2) else ExerciseRestItem(c, ci, round)
  }

  lemma {:induction false} RoundFromInterleaved(c: Circuit, ci: int, round: int, j0: nat)
    requires c.restBetweenExercises > 0 && j0 < |c.exercises|
    ensures |RoundFrom(c, ci, round, j0)| == 2 * (|c.exercises| - j0) - 1
    ensures forall k :: 0 <= k < |RoundFrom(c, ci, round, j0)| ==>
      j0 + k / 2 < |c.exercises| && RoundFrom(c, ci, round, j0)[k] == InterleavedSlot(c, ci, round, j0, k)
    decreases |c.exercises| - j0
  {
    var r := RoundFrom(c, ci, round, j0);
    var tail := RoundFrom(c, ci, round, j0 + 1);
    if j0 < |c.exercises| - 1 {
      RoundFromInterleaved(c, ci, round, j0 + 1);
      assert r == [CircuitExerciseItem(c, ci, round, j0), ExerciseRestItem(c, ci, round)] + tail;
      forall k | 2 <= k < |r|
        ensures j0 + k / 2 < |c.exercises| && r[k] == InterleavedSlot(c, ci, round, j0, k)
      {
        assert r[k] == tail[k - 2];
        assert (k - 2) / 2 == k / 2 - 1 && (k - 2) % 2 == k % 2;
      }
    } else {
      assert tail == [];
      assert r == [CircuitExerciseItem(c, ci, round, j0)];
    }
  }

  lemma {:induction false} RoundFromPlain(c: Circuit, ci: int, round: int, j0: nat)
    requires c.restBetweenExercises <= 0 && j0 <= |c.exercises|
    ensures |RoundFrom(c, ci, round, j0)| == |c.exercises| - j0
    ensures forall j :: j0 <= j < |c.exercises| ==>
      RoundFrom(c, ci, round, j0)[j - j0] == CircuitExerciseItem(c, ci, round, j)
    decreases |c.exercises| - j0
  {
    if j0 < |c.exercises| {
      RoundFromPlain(c, ci, round, j0 + 1);
      var tail := RoundFrom(c, ci, round, j0 + 1);
      assert RoundFrom(c, ci, round, j0) == [CircuitExerciseItem(c, ci, round, j0)] + tail;
    }
  }

  /** One round emits every exercise of the circuit in order, tagged with
      (circuit, round, position); when `restBetweenExercises` is positive an
      exercise rest sits between consecutive exercises (and not after the
      last), otherwise the exercises follow each other directly. */
  lemma RoundShape(c: Circuit, ci: int, round: int)
    ensures c.restBetweenExercises > 0 && |c.exercises| > 0 ==>
      && |RoundFrom(c, ci, round, 0)| == 2 * |c.exercises| - 1
      && (forall j :: 0 <= j < |c.exercises| ==>
            RoundFrom(c, ci, round, 0)[2 * j] == CircuitExerciseItem(c, ci, round, j))
      && (forall j :: 0 <= j < |c.exercises| - 1 ==>
            RoundFrom(c, ci, round, 0)[2 * j + 1] == ExerciseRestItem(c, ci, round))
    ensures c.restBetweenExercises <= 0 ==>
      && |RoundFrom(c, ci, round, 0)| == |c.exercises|
      && (forall j :: 0 <= j < |c.exercises| ==>
            RoundFrom(c, ci, round, 0)[j] == CircuitExerciseItem(c, ci, round, j))
  {
    var r := RoundFrom(c, ci, round, 0);
    if c.restBetweenExercises > 0 && |c.exercises| > 0 {
      RoundFromInterleaved(c, ci, round, 0);
      forall j | 0 <= j < |c.exercises|
        ensures r[2 * j] == CircuitExerciseItem(c, ci, round, j)
      {
        assert (2 * j) / 2 == j && (2 * j) % 2 == 0;
        assert r[2 * j] == InterleavedSlot(c, ci, round, 0, 2 * j);
      }
      forall j | 0 <= j < |c.exercises| - 1
        ensures r[2 * j + 1] == ExerciseRestItem(c, ci, round)
      {
        assert (2 * j + 1) / 2 == j && (2 * j + 1) % 2 == 1;
        assert r[2 * j + 1] == InterleavedSlot(c, ci, round, 0, 2 * j + 1);
      }
    }
    if c.restBetweenExercises <= 0 {
      RoundFromPlain(c, ci, round, 0);
    }
  }

  // ---------------------------------------------------------------------
  // Counting rests and exercises
  // ---------------------------------------------------------------------

  lemma {:induction false} RoundFromCounts(c: Circuit, ci: int, round: int, j: nat)
    requires j <= |c.exercises|
    ensures CountType(RoundFrom(c, ci, round, j), CircuitExerciseType) == |c.exercises| - j
    ensures CountType(RoundFrom(c, ci, round, j), ExerciseRestType)
      == if c.restBetweenExercises > 0 && j < |c.exercises| then |c.exercises| - 1 - j else 0
    ensures CountType(RoundFrom(c, ci, round, j), RoundRestType) == 0
    ensures CountType(RoundFrom(c, ci, round, j), CircuitRestType) == 0
    decreases |c.exercises| - j
  {
    if j < |c.exercises| {
      var head := [CircuitExerciseItem(c, ci, round, j)];
      var rest := ExerciseRestAfter(c, ci, round, j);
      var later := RoundFrom(c, ci, round, j + 1);
      assert RoundFrom(c, ci, round, j) == head + rest + later;
      RoundFromCounts(c, ci, round, j + 1);
      CountType3(head, rest, later, CircuitExerciseType);
      CountType3(head, rest, later, ExerciseRestType);
      CountType3(head, rest, later, RoundRestType);
      CountType3(head, rest, later, CircuitRestType);
    }
  }

  lemma CountType3(a: seq<TimerItem>, b: seq<TimerItem>, c: seq<TimerItem>, t: TimerItemType)
    ensures CountType(a + b + c, t) == CountType(a, t) + CountType(b, t) + CountType(c, t)
  {
    CountTypeAppend(a, b, t);
    CountTypeAppend(a + b, c, t);
  }

  lemma MulStep(a: int, b: int)
    ensures (a + 1) * b == b + a * b
  {
  }

  /** Count of `exercise_rest` items a circuit emits per round. */
  function RestsPerRound(c: Circuit): nat {
    if c.restBetweenExercises > 0 && |c.exercises| > 0 then |c.exercises| - 1 else 0
  }

  lemma RoundsFromCounts(c: Circuit, ci: int, round: nat)
    requires round <= c.rounds
    ensures CountType(RoundsFrom(c, ci, round), CircuitExerciseType) == (c.rounds - round) * |c.exercises|
    ensures CountType(RoundsFrom(c, ci, round), ExerciseRestType) == (c.rounds - round) * RestsPerRound(c)
    ensures CountType(RoundsFrom(c, ci, round), RoundRestType)
      == if c.restBetweenRounds > 0 && round < c.rounds then c.rounds - 1 - round else 0
    ensures CountType(RoundsFrom(c, ci, round), CircuitRestType) == 0
  {
    RoundsFromExercises(c, ci, round);
    RoundsFromExerciseRests(c, ci, round);
    TimesIsProduct(c.rounds - round, |c.exercises|);
    TimesIsProduct(c.rounds - round, RestsPerRound(c));
    RoundsFromRoundRests(c, ci, round);
    RoundsFromNoCircuitRest(c, ci, round);
  }

  /** Items of type `t` in one round of a circuit. */
  function PerRound(c: Circuit, t: TimerItemType): nat {
    if t == CircuitExerciseType then |c.exercises|
    else if t == ExerciseRestType then RestsPerRound(c)
    else 0
  }

  /** One round, its round rest, and the rounds after it, counted by type. */
  lemma RoundsFromCountStep(c: Circuit, ci: int, round: nat, t: TimerItemType)
    requires round < c.rounds
    requires t == CircuitExerciseType || t == ExerciseRestType || t == RoundRestType || t == CircuitRestType
    ensures CountType(RoundsFrom(c, ci, round), t)
      == PerRound(c, t)
       + (if t == RoundRestType && round + 1 < c.rounds && c.restBetweenRounds > 0 then 1 else 0)
       + CountType(RoundsFrom(c, ci, round + 1), t)
  {
    RoundsFromSplit(c, ci, round, t);
    RoundCount(c, ci, round, t);
    RoundRestCount(c, ci, round, t);
  }

  lemma RoundCount(c: Circuit, ci: int, round: nat, t: TimerItemType)
    requires t == CircuitExerciseType || t == ExerciseRestType || t == RoundRestType || t == CircuitRestType
    ensures CountType(RoundFrom(c, ci, round, 0), t) == PerRound(c, t)
  {
    RoundFromCounts(c, ci, round, 0);
  }

  lemma RoundRestCount(c: Circuit, ci: int, round: nat, t: TimerItemType)
    ensures CountType(RoundRestAfter(c, ci, round), t)
      == if t == RoundRestType && round + 1 < c.rounds && c.restBetweenRounds > 0 then 1 else 0
  {
    var rest := RoundRestAfter(c, ci, round);
    if rest != [] {
      CountTypeSingleton(rest[0], t);
    }
  }

  lemma CountTypeSingleton(x: TimerItem, t: TimerItemType)
    ensures CountType([x], t) == if x.kind.Type() == t then 1 else 0
  {
    assert [x][1..] == [];
  }

  lemma {:induction false} RoundsFromExercises(c: Circuit, ci: int, round: nat)
    requires round <= c.rounds
    ensures CountType(RoundsFrom(c, ci, round), CircuitExerciseType) == Times(c.rounds - round, |c.exercises|)
    decreases c.rounds - round
  {
    if round < c.rounds {
      RoundsFromCountStep(c, ci, round, CircuitExerciseType);
      RoundsFromExercises(c, ci, round + 1);
    }
  }

  lemma {:induction false} RoundsFromExerciseRests(c: Circuit, ci: int, round: nat)
    requires round <= c.rounds
    ensures CountType(RoundsFrom(c, ci, round), ExerciseRestType) == Times(c.rounds - round, RestsPerRound(c))
    decreases c.rounds - round
  {
    if round < c.rounds {
      RoundsFromCountStep(c, ci, round, ExerciseRestType);
      RoundsFromExerciseRests(c, ci, round + 1);
    }
  }

  lemma {:induction false} RoundsFromRoundRests(c: Circuit, ci: int, round: nat)
    requires round <= c.rounds
    ensures CountType(RoundsFrom(c, ci, round), RoundRestType)
      == if c.restBetweenRounds > 0 && round < c.rounds then c.rounds - 1 - round else 0
    decreases c.rounds - round
  {
    if round < c.rounds {
      RoundsFromCountStep(c, ci, round, RoundRestType);
      RoundsFromRoundRests(c, ci, round + 1);
    }
  }

  lemma {:induction false} RoundsFromNoCircuitRest(c: Circuit, ci: int, round: nat)
    requires round <= c.rounds
    ensures CountType(RoundsFrom(c, ci, round), CircuitRestType) == 0
    decreases c.rounds - round
  {
    if round < c.rounds {
      RoundsFromCountStep(c, ci, round, CircuitRestType);
      RoundsFromNoCircuitRest(c, ci, round + 1);
    }
  }

  /** `k * b` as repeated addition, so that the inductions below stay
      within linear arithmetic. */
  function Times(k: nat, b: int): int {
    if k == 0 then 0 else b + Times(k - 1, b)
  }

  lemma {:induction false} TimesIsProduct(k: nat, b: int)
    ensures Times(k, b) == k * b
  {
    if k > 0 {
      TimesIsProduct(k - 1, b);
    }
  }

  lemma RoundsFromSplit(c: Circuit, ci: int, round: nat, t: TimerItemType)
    requires round < c.rounds
    ensures CountType(RoundsFrom(c, ci, round), t)
      == CountType(RoundFrom(c, ci, round, 0), t) + CountType(RoundRestAfter(c, ci, round), t)
       + CountType(RoundsFrom(c, ci, round + 1), t)
  {
    var body := RoundFrom(c, ci, round, 0);
    var rest := RoundRestAfter(c, ci, round);
    CountTypeAppend(body, rest, t);
    CountTypeAppend(body + rest, RoundsFrom(c, ci, round + 1), t);
  }

  /** Rest placement inside one circuit: `rounds` copies of every exercise,
      `E - 1` exercise rests per round when that rest is positive, and
      `rounds - 1` round rests when that rest is positive (none when
      `rounds <= 1`). A circuit never emits a circuit rest itself. */
  lemma CircuitCounts(c: Circuit, ci: int)
    requires c.rounds >= 0
    ensures CountType(RoundsFrom(c, ci, 0), CircuitExerciseType) == c.rounds * |c.exercises|
    ensures CountType(RoundsFrom(c, ci, 0), ExerciseRestType) == c.rounds * RestsPerRound(c)
    ensures CountType(RoundsFrom(c, ci, 0), RoundRestType)
      == if c.restBetweenRounds > 0 && c.rounds >= 1 then c.rounds - 1 else 0
    ensures CountType(RoundsFrom(c, ci, 0), CircuitRestType) == 0
  {
    RoundsFromCounts(c, ci, 0);
  }

  lemma CircuitsFromSplit(w: GeneratedWorkout, ci: nat, t: TimerItemType)
    requires ci < |w.circuits|
    ensures CountType(CircuitsFrom(w, ci), t)
      == CountType(CircuitRestBefore(w, ci), t) + CountType(RoundsFrom(w.circuits[ci], ci, 0), t)
       + CountType(CircuitsFrom(w, ci + 1), t)
  {
    var pre := CircuitRestBefore(w, ci);
    var body := RoundsFrom(w.circuits[ci], ci, 0);
    CountTypeAppend(pre, body, t);
    CountTypeAppend(pre + body, CircuitsFrom(w, ci + 1), t);
  }

  lemma CircuitNoCircuitRest(c: Circuit, ci: int)
    ensures CountType(RoundsFrom(c, ci, 0), CircuitRestType) == 0
  {
    if c.rounds > 0 {
      RoundsFromNoCircuitRest(c, ci, 0);
    }
  }

  lemma {:induction false} CircuitsFromCircuitRests(w: GeneratedWorkout, ci: nat)
    requires ci <= |w.circuits|
    ensures CountType(CircuitsFrom(w, ci), CircuitRestType)
      == if w.restBetweenCircuits > 0 then CircuitRestsFrom(|w.circuits|, ci) else 0
    decreases |w.circuits| - ci
  {
    if ci < |w.circuits| {
      CircuitsFromRestStep(w, ci);
      CircuitsFromCircuitRests(w, ci + 1);
    }
  }

  /** A circuit's own items hold no circuit rest; only the rest before it can. */
  lemma CircuitsFromRestStep(w: GeneratedWorkout, ci: nat)
    requires ci < |w.circuits|
    ensures CountType(CircuitsFrom(w, ci), CircuitRestType)
      == (if ci > 0 && w.restBetweenCircuits > 0 then 1 else 0) + CountType(CircuitsFrom(w, ci + 1), CircuitRestType)
  {
    var pre := CircuitRestBefore(w, ci);
    CircuitsFromSplit(w, ci, CircuitRestType);
    CircuitNoCircuitRest(w.circuits[ci], ci);
    if pre != [] {
      CountTypeSingleton(pre[0], CircuitRestType);
    }
  }

  /** Number of circuit rests emitted from circuit `ci` on, when the rest is
      positive: one before every circuit except the first. */
  function CircuitRestsFrom(n: nat, ci: nat): nat {
    if ci >= n then 0 else if ci == 0 then n - 1 else n - ci
  }

  /** A circuit rest sits between consecutive circuits only: `n - 1` of them
      for `n >= 1` circuits when `restBetweenCircuits` is positive, none
      otherwise. */
  lemma TimelineCircuitRests(w: GeneratedWorkout)
    ensures CountType(FlattenWorkout(w).items, CircuitRestType)
      == if w.restBetweenCircuits > 0 && |w.circuits| > 0 then |w.circuits| - 1 else 0
  {
    var warm := if |w.warmUp.exercises| > 0 then WarmupItems(w.warmUp.exercises) else [];
    var cool := if |w.coolDown.exercises| > 0 then CooldownItems(w.coolDown.exercises) else [];
    CircuitsFromCircuitRests(w, 0);
    assert CountType(warm, CircuitRestType) == 0 by { NoRestInExerciseItems(warm); }
    assert CountType(cool, CircuitRestType) == 0 by { NoRestInExerciseItems(cool); }
    CountTypeAppend(warm, CircuitsFrom(w, 0), CircuitRestType);
    CountTypeAppend(warm + CircuitsFrom(w, 0), cool, CircuitRestType);
  }

  lemma {:induction false} NoRestInExerciseItems(items: seq<TimerItem>)
    requires forall k :: 0 <= k < |items| ==> items[k].kind.ExerciseOf().Some?
    ensures CountType(items, CircuitRestType) == 0
  {
    if |items| > 0 {
      NoRestInExerciseItems(items[1..]);
    }
  }

  // ---------------------------------------------------------------------
  // Durations
  // ---------------------------------------------------------------------

  lemma {:induction false} SumDurationsMatchesExercises(items: seq<TimerItem>, es: seq<Exercise>)
    requires |items| == |es|
    requires forall i :: 0 <= i < |es| ==> items[i].duration == es[i].duration
    ensures SumDurations(items) == SumExerciseDurations(es)
  {
    if |es| > 0 {
      SumDurationsMatchesExercises(items[1..], es[1..]);
      SumDurationsAppend([items[0]], items[1..]);
      assert [items[0]] + items[1..] == items;
      assert SumDurations([items[0]]) == items[0].duration by {
        assert [items[0]][..0] == [];
      }
    }
  }

  /** A warm-up or cool-down run lasts the sum of its exercises' durations. */
  lemma SectionItemsDuration(es: seq<Exercise>)
    ensures SumDurations(WarmupItems(es)) == SumExerciseDurations(es)
    ensures SumDurations(CooldownItems(es)) == SumExerciseDurations(es)
  {
    SumDurationsMatchesExercises(WarmupItems(es), es);
    SumDurationsMatchesExercises(CooldownItems(es), es);
  }

  lemma SumDurationsSingleton(t: TimerItem)
    ensures SumDurations([t]) == t.duration
  {
    assert [t][..0] == [];
  }

  lemma SumDurations3(a: seq<TimerItem>, b: seq<TimerItem>, c: seq<TimerItem>)
    ensures SumDurations(a + b + c) == SumDurations(a) + SumDurations(b) + SumDurations(c)
  {
    SumDurationsAppend(a, b);
    SumDurationsAppend(a + b, c);
  }

  lemma {:induction false} RoundFromDuration(c: Circuit, ci: int, round: int, j: nat)
    requires j < |c.exercises|
    ensures SumDurations(RoundFrom(c, ci, round, j))
      == SumExerciseDurations(c.exercises[j..]) + Times(|c.exercises| - 1 - j, Pos(c.restBetweenExercises))
    decreases |c.exercises| - j
  {
    var head := [CircuitExerciseItem(c, ci, round, j)];
    var rest := ExerciseRestAfter(c, ci, round, j);
    var later := RoundFrom(c, ci, round, j + 1);
    assert RoundFrom(c, ci, round, j) == head + rest + later;
    SumDurations3(head, rest, later);
    SumDurationsSingleton(head[0]);
    if rest != [] {
      SumDurationsSingleton(rest[0]);
    }
    assert c.exercises[j..][1..] == c.exercises[j + 1..];
    if j + 1 < |c.exercises| {
      RoundFromDuration(c, ci, round, j + 1);
    } else {
      assert c.exercises[j + 1..] == [];
    }
  }

  /** Duration of one round of a circuit with at least one exercise. */
  function RoundDuration(c: Circuit): int
    requires |c.exercises| > 0
  {
    SumExerciseDurations(c.exercises) + Times(|c.exercises| - 1, Pos(c.restBetweenExercises))
  }

  lemma RoundsFromSumSplit(c: Circuit, ci: int, round: nat)
    requires round < c.rounds
    ensures SumDurations(RoundsFrom(c, ci, round))
      == SumDurations(RoundFrom(c, ci, round, 0)) + SumDurations(RoundRestAfter(c, ci, round))
       + SumDurations(RoundsFrom(c, ci, round + 1))
  {
    SumDurations3(RoundFrom(c, ci, round, 0), RoundRestAfter(c, ci, round), RoundsFrom(c, ci, round + 1));
  }

  /** One round of a circuit, its round rest, and the rounds after it. */
  lemma RoundsFromStep(c: Circuit, ci: int, round: nat)
    requires |c.exercises| > 0 && round < c.rounds
    ensures SumDurations(RoundsFrom(c, ci, round))
      == RoundDuration(c)
       + (if round + 1 < c.rounds then Pos(c.restBetweenRounds) + SumDurations(RoundsFrom(c, ci, round + 1)) else 0)
  {
    var rest := RoundRestAfter(c, ci, round);
    RoundsFromSumSplit(c, ci, round);
    assert SumDurations(RoundFrom(c, ci, round, 0)) == RoundDuration(c) by {
      RoundFromDuration(c, ci, round, 0);
      assert c.exercises[0..] == c.exercises;
    }
    if rest != [] {
      SumDurationsSingleton(rest[0]);
    }
    if round + 1 >= c.rounds {
      assert RoundsFrom(c, ci, round + 1) == [];
    }
  }

  /** Length of `k` rounds of length `d` with a rest of `p` between
      consecutive rounds. */
  function RoundsLength(k: nat, d: int, p: int): int {
    if k == 0 then 0 else if k == 1 then d else d + p + RoundsLength(k - 1, d, p)
  }

  lemma {:induction false} RoundsLengthIsProduct(k: nat, d: int, p: int)
    requires k >= 1
    ensures RoundsLength(k, d, p) == k * d + (k - 1) * p
  {
    if k > 1 {
      RoundsLengthIsProduct(k - 1, d, p);
    }
  }

  lemma {:induction false} RoundsFromDuration(c: Circuit, ci: int, round: nat)
    requires |c.exercises| > 0 && round < c.rounds
    ensures SumDurations(RoundsFrom(c, ci, round))
      == RoundsLength(c.rounds - round, RoundDuration(c), Pos(c.restBetweenRounds))
    decreases c.rounds - round
  {
    RoundsFromStep(c, ci, round);
    if round + 1 < c.rounds {
      RoundsFromDuration(c, ci, round + 1);
    }
  }

  /** The timeline of a circuit with at least one exercise and one round lasts
      (exercise total + (E - 1) x exercise rest) x rounds + (rounds - 1) x
      round rest, counting non-positive rests as zero. */
  lemma CircuitDuration(c: Circuit, ci: int)
    requires |c.exercises| > 0 && c.rounds >= 1
    ensures SumDurations(RoundsFrom(c, ci, 0))
      == (SumExerciseDurations(c.exercises) + (|c.exercises| - 1) * Pos(c.restBetweenExercises)) * c.rounds
       + (c.rounds - 1) * Pos(c.restBetweenRounds)
  {
    RoundsFromDuration(c, ci, 0);
    CircuitLength(c);
  }

  lemma CircuitLength(c: Circuit)
    requires |c.exercises| > 0 && c.rounds >= 1
    ensures RoundsLength(c.rounds, RoundDuration(c), Pos(c.restBetweenRounds))
      == (SumExerciseDurations(c.exercises) + (|c.exercises| - 1) * Pos(c.restBetweenExercises)) * c.rounds
       + (c.rounds - 1) * Pos(c.restBetweenRounds)
  {
    var round := SumExerciseDurations(c.exercises) + (|c.exercises| - 1) * Pos(c.restBetweenExercises);
    assert RoundDuration(c) == round by {
      TimesIsProduct(|c.exercises| - 1, Pos(c.restBetweenExercises));
    }
    RoundsLengthIsProduct(c.rounds, round, Pos(c.restBetweenRounds));
  }

  /** Sum over circuits `ci..` of the length of each circuit's own items. */
  function CircuitBodiesFrom(w: GeneratedWorkout, ci: nat): int
    decreases |w.circuits| - ci
  {
    if ci >= |w.circuits| then 0
    else SumDurations(RoundsFrom(w.circuits[ci], ci, 0)) + CircuitBodiesFrom(w, ci + 1)
  }

  lemma CircuitRestsStep(n: nat, ci: nat, r: nat)
    requires ci < n
    ensures CircuitRestsFrom(n, ci) * r == (if ci > 0 then r else 0) + CircuitRestsFrom(n, ci + 1) * r
  {
    if ci > 0 {
      MulStep(CircuitRestsFrom(n, ci + 1), r);
    }
  }

  lemma CircuitsFromSumSplit(w: GeneratedWorkout, ci: nat)
    requires ci < |w.circuits|
    ensures SumDurations(CircuitsFrom(w, ci))
      == SumDurations(CircuitRestBefore(w, ci)) + SumDurations(RoundsFrom(w.circuits[ci], ci, 0))
       + SumDurations(CircuitsFrom(w, ci + 1))
  {
    SumDurations3(CircuitRestBefore(w, ci), RoundsFrom(w.circuits[ci], ci, 0), CircuitsFrom(w, ci + 1));
  }

  lemma {:induction false} CircuitsFromDuration(w: GeneratedWorkout, ci: nat)
    requires ci <= |w.circuits|
    ensures SumDurations(CircuitsFrom(w, ci))
      == CircuitBodiesFrom(w, ci) + CircuitRestsFrom(|w.circuits|, ci) * Pos(w.restBetweenCircuits)
    decreases |w.circuits| - ci
  {
    if ci < |w.circuits| {
      var pre := CircuitRestBefore(w, ci);
      CircuitsFromSumSplit(w, ci);
      if pre != [] {
        SumDurationsSingleton(pre[0]);
      }
      CircuitsFromDuration(w, ci + 1);
      CircuitRestsStep(|w.circuits|, ci, Pos(w.restBetweenCircuits));
      assert SumDurations(pre) == if ci > 0 then Pos(w.restBetweenCircuits) else 0;
    }
  }

  /** The flattened total: warm-up + every circuit's own items + one circuit
      rest between consecutive circuits + cool-down. */
  lemma FlattenTotal(w: GeneratedWorkout)
    ensures FlattenWorkout(w).totalDuration
      == SumExerciseDurations(w.warmUp.exercises)
       + CircuitBodiesFrom(w, 0)
       + CircuitRestsFrom(|w.circuits|, 0) * Pos(w.restBetweenCircuits)
       + SumExerciseDurations(w.coolDown.exercises)
  {
    var warm := if |w.warmUp.exercises| > 0 then WarmupItems(w.warmUp.exercises) else [];
    var cool := if |w.coolDown.exercises| > 0 then CooldownItems(w.coolDown.exercises) else [];
    SectionItemsDuration(w.warmUp.exercises);
    SectionItemsDuration(w.coolDown.exercises);
    CircuitsFromDuration(w, 0);
    SumDurations3(warm, CircuitsFrom(w, 0), cool);
    assert FlattenWorkout(w).items == warm + CircuitsFrom(w, 0) + cool;
  }
}

=== FILE: format_time.dfy ===
/** The time formatters: the clock form `m:ss`, the verbose form `1m 5s`
    and the coarse duration form `1h 5m`, each with a parser that reads the
    text back, proving that nothing but the intended truncation is lost. */
module FormatTime {
  import opened Common

  // ---------------------------------------------------------------------
  // JavaScript arithmetic on seconds
  // ---------------------------------------------------------------------

  /** `Math.floor(seconds / 60)`. Dafny's `/` with a positive divisor
      already rounds towards minus infinity. */
  function FloorMinutes(seconds: int): (m: int)
    ensures 60 * m <= seconds < 60 * m + 60
  {
    seconds / 60
  }

  /** `seconds % 60`: JavaScript's remainder takes the sign of the dividend. */
  function JsRem60(seconds: int): (r: int)
    ensures seconds >= 0 ==> 0 <= r < 60 && r == seconds - 60 * FloorMinutes(seconds)
    ensures seconds < 0 ==> -60 < r <= 0
    ensures (seconds - r) % 60 == 0
  {
    if seconds >= 0 then seconds % 60 else -((-seconds) % 60)
  }

  /** `text.padStart(2, '0')`. */
  function PadStart2(text: string): (r: string)
    ensures |text| >= 2 ==> r == text
    ensures |r| >= 2
  {
    if |text| >= 2 then text else if |text| == 1 then "0" + text else "00"
  }

  // ---------------------------------------------------------------------
  // formatTime: m:ss
  // ---------------------------------------------------------------------

  /** `formatTime`. */
  function FormatClock(seconds: int): (t: string)
    ensures seconds >= 0 ==> t == NatToString(seconds / 60) + ":" + PadTwo(seconds % 60)
  {
    var secs := JsRem60(seconds);
    var shown := IntToString(secs);
    if seconds >= 0 then
      assert PadStart2(shown) == PadTwo(secs) by {
        if secs < 10 {
          assert PadStart2(shown) == PadStart2("0" + shown);
        }
      }
      IntToString(FloorMinutes(seconds)) + ":" + PadStart2(shown)
    else
      IntToString(FloorMinutes(seconds)) + ":" + PadStart2(shown)
  }

  /** Reads `m:ss` back: unbounded minutes, two-digit seconds below 60. */
  function ParseClock(t: string): (r: Option<nat>)
  {
    if |t| >= 4 && t[|t| - 3] == ':' && IsDigits(t[..|t| - 3]) && IsDigits(t[|t| - 2..])
       && ParseDigits(t[|t| - 2..]) < 60
    then Some(60 * ParseDigits(t[..|t| - 3]) + ParseDigits(t[|t| - 2..]))
    else None
  }

  /** The clock form loses nothing for non-negative seconds; in particular
      minutes are not capped at 59. */
  lemma ClockRoundTrip(seconds: nat)
    ensures ParseClock(FormatClock(seconds)) == Some(seconds)
  {
    ClockParts(seconds / 60, seconds % 60);
  }

  lemma ClockParts(mins: nat, secs: nat)
    requires secs < 60
    ensures ParseClock(NatToString(mins) + ":" + PadTwo(secs)) == Some(60 * mins + secs)
  {
    ParseNatToString(mins);
    ParseClockOf(NatToString(mins), PadTwo(secs), mins, secs);
  }

  /** A clock text splits at the colon three places from the end. */
  lemma ParseClockOf(m: string, ss: string, mins: nat, secs: nat)
    requires IsDigits(m) && |m| >= 1 && IsDigits(ss) && |ss| == 2
    requires ParseDigits(m) == mins && ParseDigits(ss) == secs && secs < 60
    ensures ParseClock(m + ":" + ss) == Some(60 * mins + secs)
  {
    var t := m + ":" + ss;
    assert t[..|t| - 3] == m;
    assert t[|t| - 2..] == ss;
  }

  lemma ClockInjective(a: nat, b: nat)
    requires FormatClock(a) == FormatClock(b)
    ensures a == b
  {
    ClockRoundTrip(a);
    ClockRoundTrip(b);
  }

  // ---------------------------------------------------------------------
  // formatTimeVerbose: 45s, 2m, 2m 5s
  // ---------------------------------------------------------------------

  /** `formatTimeVerbose`. */
  function FormatVerbose(seconds: int): (t: string)
    ensures 0 <= seconds < 60 ==> t == NatToString(seconds) + "s"
    ensures seconds >= 60 && seconds % 60 == 0 ==> t == NatToString(seconds / 60) + "m"
    ensures seconds >= 60 && seconds % 60 != 0 ==>
      t == NatToString(seconds / 60) + "m " + NatToString(seconds % 60) + "s"
  {
    var mins := FloorMinutes(seconds);
    var secs := JsRem60(seconds);
    if mins == 0 then IntToString(secs) + "s"
    else if secs == 0 then IntToString(mins) + "m"
    else IntToString(mins) + "m " + IntToString(secs) + "s"
  }

  /** Index of the first occurrence of `c` in `s`, or `|s|`. */
  function IndexOf(s: string, c: char): (i: nat)
    ensures i <= |s|
    ensures forall k :: 0 <= k < i ==> s[k] != c
    ensures i < |s| ==> s[i] == c
  {
    if |s| == 0 then 0 else if s[0] == c then 0 else 1 + IndexOf(s[1..], c)
  }

  lemma IndexOfAfterDigits(digits: string, c: char, rest: string)
    requires IsDigits(digits) && !('0' <= c <= '9')
    ensures IndexOf(digits + [c] + rest, c) == |digits|
  {
    var s := digits + [c] + rest;
    assert s[|digits|] == c;
    assert forall k :: 0 <= k < |digits| ==> s[k] == digits[k];
  }

  /** Splits `A<unit1> B` into the numbers A and B, when both are digits. */
  function SplitPair(body: string, unit1: char): (r: Option<(nat, nat)>)
  {
    var i := IndexOf(body, unit1);
    if i + 1 < |body| && body[i + 1] == ' ' && IsDigits(body[..i]) && IsDigits(body[i + 2..])
    then Some((ParseDigits(body[..i]), ParseDigits(body[i + 2..])))
    else None
  }

  lemma SplitPairOf(A: string, unit1: char, B: string)
    requires IsDigits(A) && IsDigits(B) && !('0' <= unit1 <= '9')
    ensures SplitPair(A + [unit1, ' '] + B, unit1) == Some((ParseDigits(A), ParseDigits(B)))
  {
    var body := A + [unit1, ' '] + B;
    assert body == A + [unit1] + (" " + B);
    IndexOfAfterDigits(A, unit1, " " + B);
    assert body[..|A|] == A;
    assert body[|A| + 2..] == B;
  }

  /** Reads the verbose form back into seconds. */
  function ParseVerbose(t: string): (r: Option<nat>)
  {
    if |t| >= 2 && t[|t| - 1] == 'm' && IsDigits(t[..|t| - 1]) then Some(60 * ParseDigits(t[..|t| - 1]))
    else if |t| >= 2 && t[|t| - 1] == 's' then
      var body := t[..|t| - 1];
      if IsDigits(body) then Some(ParseDigits(body))
      else
        match SplitPair(body, 'm')
        case Some(p) => Some(60 * p.0 + p.1)
        case None => None
    else None
  }

  lemma VerboseRoundTrip(seconds: nat)
    ensures ParseVerbose(FormatVerbose(seconds)) == Some(seconds)
  {
    var mins, secs := seconds / 60, seconds % 60;
    assert 60 * mins + secs == seconds;
    if seconds < 60 {
      VerboseSecondsOnly(seconds);
    } else if secs == 0 {
      VerboseMinutesOnly(mins);
    } else {
      VerboseBoth(mins, secs);
    }
  }

  lemma VerboseSecondsOnly(secs: nat)
    ensures ParseVerbose(NatToString(secs) + "s") == Some(secs)
  {
    var t := NatToString(secs) + "s";
    assert t[..|t| - 1] == NatToString(secs);
    ParseNatToString(secs);
  }

  lemma VerboseMinutesOnly(mins: nat)
    ensures ParseVerbose(NatToString(mins) + "m") == Some(60 * mins)
  {
    var t := NatToString(mins) + "m";
    assert t[..|t| - 1] == NatToString(mins);
    ParseNatToString(mins);
  }

  lemma VerboseBoth(mins: nat, secs: nat)
    ensures ParseVerbose(NatToString(mins) + "m " + NatToString(secs) + "s") == Some(60 * mins + secs)
  {
    ParseNatToString(mins);
    ParseNatToString(secs);
    VerboseOfDigits(NatToString(mins), NatToString(secs), mins, secs);
  }

  lemma VerboseOfDigits(A: string, B: string, mins: nat, secs: nat)
    requires IsDigits(A) && IsDigits(B) && |A| >= 1 && ParseDigits(A) == mins && ParseDigits(B) == secs
    ensures ParseVerbose(A + "m " + B + "s") == Some(60 * mins + secs)
  {
    var body := A + "m " + B;
    SplitPairOf(A, 'm', B);
    NotDigitsAround(A, 'm', B);
    ParseVerboseWithMinutes(body, mins, secs);
  }

  lemma NotDigitsAround(A: string, unit1: char, B: string)
    requires !('0' <= unit1 <= '9')
    ensures !IsDigits(A + [unit1, ' '] + B)
  {
    assert (A + [unit1, ' '] + B)[|A|] == unit1;
  }

  /** A body that is not a bare number is read as minutes and seconds. */
  lemma ParseVerboseWithMinutes(body: string, mins: nat, secs: nat)
    ensures !IsDigits(body) && SplitPair(body, 'm') == Some((mins, secs))
      ==> ParseVerbose(body + "s") == Some(60 * mins + secs)
  {
    var t := body + "s";
    assert t[..|t| - 1] == body;
  }

  // ---------------------------------------------------------------------
  // formatDuration: 25 min, 1h, 1h 5m
  // ---------------------------------------------------------------------

  /** `formatDuration`: whole minutes only. */
  function FormatDuration(seconds: int): (t: string)
    ensures seconds >= 0 && seconds / 60 < 60 ==> t == NatToString(seconds / 60) + " min"
    ensures seconds >= 3600 && (seconds / 60) % 60 == 0 ==> t == NatToString(seconds / 3600) + "h"
    ensures seconds >= 3600 && (seconds / 60) % 60 != 0 ==>
      t == NatToString(seconds / 3600) + "h " + NatToString((seconds / 60) % 60) + "m"
  {
    var mins := FloorMinutes(seconds);
    if mins < 60 then IntToString(mins) + " min"
    else
      var hours := mins / 60;
      var rest := mins % 60;
      assert hours == seconds / 3600;
      if rest == 0 then IntToString(hours) + "h"
      else IntToString(hours) + "h " + IntToString(rest) + "m"
  }

  /** The text depends on the whole minutes only: every second of a minute
      renders the same, so 0 to 59 seconds all read "0 min". */
  lemma DurationIgnoresSeconds(a: int, b: int)
    requires a / 60 == b / 60
    ensures FormatDuration(a) == FormatDuration(b)
  {
  }

  lemma UnderAMinute(seconds: int)
    requires 0 <= seconds < 60
    ensures FormatDuration(seconds) == "0 min"
  {
  }

  /** Reads the duration form back into whole minutes, dispatching on the
      last character: 'n' for "N min", 'h' for "Hh", 'm' for "Hh Mm". */
  function ParseDuration(t: string): (r: Option<nat>)
  {
    if |t| < 2 then None
    else
      var last := t[|t| - 1];
      if last == 'n' then
        if |t| >= 5 && t[|t| - 4] == ' ' && t[|t| - 3] == 'm' && t[|t| - 2] == 'i' && IsDigits(t[..|t| - 4])
        then Some(ParseDigits(t[..|t| - 4]))
        else None
      else if last == 'h' then
        if IsDigits(t[..|t| - 1]) then Some(60 * ParseDigits(t[..|t| - 1])) else None
      else if last == 'm' then
        match SplitPair(t[..|t| - 1], 'h')
        case Some(p) => Some(60 * p.0 + p.1)
        case None => None
      else None
  }

  /** Nothing but the sub-minute remainder is lost. */
  lemma DurationRoundTrip(seconds: nat)
    ensures ParseDuration(FormatDuration(seconds)) == Some(seconds / 60)
  {
    var mins := seconds / 60;
    if mins < 60 {
      DurationMinutesOnly(mins);
    } else if mins % 60 == 0 {
      DurationRoundTripHours(seconds);
    } else {
      DurationRoundTripBoth(seconds);
    }
  }

  lemma DurationRoundTripHours(seconds: nat)
    requires seconds / 60 >= 60 && (seconds / 60) % 60 == 0
    ensures ParseDuration(FormatDuration(seconds)) == Some(seconds / 60)
  {
    assert seconds / 3600 == (seconds / 60) / 60;
    DurationHoursOnly(seconds / 3600);
  }

  lemma DurationRoundTripBoth(seconds: nat)
    requires seconds / 60 >= 60 && (seconds / 60) % 60 != 0
    ensures ParseDuration(FormatDuration(seconds)) == Some(seconds / 60)
  {
    var mins := seconds / 60;
    assert seconds / 3600 == mins / 60;
    DurationBoth(mins / 60, mins % 60);
  }

  lemma DurationMinutesOnly(mins: nat)
    ensures ParseDuration(NatToString(mins) + " min") == Some(mins)
  {
    var t := NatToString(mins) + " min";
    assert t[..|t| - 4] == NatToString(mins);
    assert t[|t| - 4..] == " min";
    ParseNatToString(mins);
  }

  lemma DurationHoursOnly(hours: nat)
    ensures ParseDuration(NatToString(hours) + "h") == Some(60 * hours)
  {
    var t := NatToString(hours) + "h";
    assert t[..|t| - 1] == NatToString(hours);
    ParseNatToString(hours);
  }

  lemma DurationBoth(hours: nat, mins: nat)
    ensures ParseDuration(NatToString(hours) + "h " + NatToString(mins) + "m") == Some(60 * hours + mins)
  {
    ParseNatToString(hours);
    ParseNatToString(mins);
    DurationOfDigits(NatToString(hours), NatToString(mins), hours, mins);
  }

  lemma DurationOfDigits(A: string, B: string, hours: nat, mins: nat)
    requires IsDigits(A) && IsDigits(B) && ParseDigits(A) == hours && ParseDigits(B) == mins
    ensures ParseDuration(A + "h " + B + "m") == Some(60 * hours + mins)
  {
    SplitPairOf(A, 'h', B);
    DurationOfPair(A + "h " + B, (hours, mins));
  }

  lemma DurationOfPair(body: string, p: (nat, nat))
    requires SplitPair(body, 'h') == Some(p)
    ensures ParseDuration(body + "m") == Some(60 * p.0 + p.1)
  {
    var t := body + "m";
    assert t[..|t| - 1] == body;
  }
}

=== FILE: generator.dfy ===
/** The workout generator's local logic: the required-field check on the
    model's parsed JSON and the transformation of that response into a
    `GeneratedWorkout`, including its duration arithmetic and defaults.
    The HTTP call and JSON parsing are outside the model; the parsed
    response is a record together with the set of top-level keys it had.
    Fresh ids come from a caller-supplied `mint`, keyed by position, and
    the creation time is the parameter `now`. */
module Generator {
  import opened Common
  import opened WorkoutTypes
  import opened Flatten
  import opened FlattenProperties

  // ---------------------------------------------------------------------
  // The parsed response
  // ---------------------------------------------------------------------

  /** An exercise as the model returns it. `switchSides` stands for any
      extra key the JSON may carry; the transformation never reads it. */
  datatype LlmExercise = LlmExercise(
    name: string,
    duration: int,
    targetReps: Option<int>,
    repRange: Option<string>,
    description: string,
    muscleGroups: seq<string>,
    equipment: Option<seq<string>>,
    modifications: Option<Modifications>,
    switchSides: Option<bool>)

  datatype LlmSection = LlmSection(exercises: seq<LlmExercise>)

  datatype LlmCircuit = LlmCircuit(
    name: string,
    rounds: int,
    restBetweenRounds: int,
    restBetweenExercises: int,
    exercises: seq<LlmExercise>)

  /** The parsed response. Optional fields the transformation defaults with
      `||` are `Option`s; `keys` is the set of top-level keys present. */
  datatype LlmResponse = LlmResponse(
    keys: set<string>,
    name: string,
    description: string,
    difficulty: Option<Difficulty>,
    estimatedCalories: Option<int>,
    calorieRange: Option<CalorieRange>,
    focusAreas: Option<seq<string>>,
    muscleGroupsTargeted: Option<seq<string>>,
    equipmentRequired: Option<seq<string>>,
    restBetweenCircuits: Option<int>,
    warmUp: Option<LlmSection>,
    circuits: seq<LlmCircuit>,
    coolDown: Option<LlmSection>)

  /** The request parameters the transformation reads. */
  datatype GenerationContext = GenerationContext(
    requestedDuration: int,
    equipmentAvailable: seq<string>,
    includeWarmup: bool,
    includeCooldown: bool)

  // ---------------------------------------------------------------------
  // Required-field check
  // ---------------------------------------------------------------------

  /** The keys that must be present, in the order they are checked. */
  function RequiredFields(includeWarmup: bool, includeCooldown: bool): (fields: seq<string>)
    ensures "name" in fields && "circuits" in fields
    ensures "warmUp" in fields <==> includeWarmup
    ensures "coolDown" in fields <==> includeCooldown
  {
    ["name", "circuits"] + (if includeWarmup then ["warmUp"] else []) + (if includeCooldown then ["coolDown"] else [])
  }

  /** The first field of `fields` missing from `keys`, if any. */
  function FirstMissing(fields: seq<string>, keys: set<string>): (r: Option<nat>)
    ensures r.None? <==> forall i :: 0 <= i < |fields| ==> fields[i] in keys
    ensures r.Some? ==> r.value < |fields| && fields[r.value] !in keys
    ensures r.Some? ==> forall i :: 0 <= i < r.value ==> fields[i] in keys
  {
    if |fields| == 0 then None
    else if fields[0] !in keys then Some(0)
    else
      match FirstMissing(fields[1..], keys)
      case None => None
      case Some(i) => Some(i + 1)
  }

  /** The check in `parseAndValidateResponse`: the first required key that
      is absent is reported as "Missing required field: <key>". */
  function ValidateResponse(llm: LlmResponse, includeWarmup: bool, includeCooldown: bool): (r: Result<LlmResponse, string>)
    ensures r.Ok? <==> forall f :: f in RequiredFields(includeWarmup, includeCooldown) ==> f in llm.keys
    ensures r.Ok? ==> r.value == llm
    ensures r.Err? ==> exists f :: (f in RequiredFields(includeWarmup, includeCooldown) && f !in llm.keys
                                    && r.error == "Missing required field: " + f)
  {
    var fields := RequiredFields(includeWarmup, includeCooldown);
    match FirstMissing(fields, llm.keys)
    case None => Ok(llm)
    case Some(i) => Err("Missing required field: " + fields[i])
  }

  /** Missing `name` is reported before anything else; a missing warm-up is
      an error only when one was requested. */
  lemma ValidationOrder(llm: LlmResponse, includeWarmup: bool, includeCooldown: bool)
    ensures "name" !in llm.keys ==>
      ValidateResponse(llm, includeWarmup, includeCooldown) == Err("Missing required field: name")
    ensures "name" in llm.keys && "circuits" in llm.keys && !includeWarmup && !includeCooldown ==>
      ValidateResponse(llm, includeWarmup, includeCooldown).Ok?
  {
    var fields := RequiredFields(includeWarmup, includeCooldown);
    assert fields[0] == "name";
    if "name" !in llm.keys {
      assert FirstMissing(fields, llm.keys) == Some(0);
      assert ValidateResponse(llm, includeWarmup, includeCooldown) == Err("Missing required field: " + fields[0]);
      assert "Missing required field: " + "name" == "Missing required field: name";
    }
    if !includeWarmup && !includeCooldown {
      assert fields == ["name", "circuits"];
    }
  }

  // ---------------------------------------------------------------------
  // Transformation
  // ---------------------------------------------------------------------

  /** A warm-up or cool-down exercise: name, duration, description and
      muscle groups are copied; nothing else is. */
  function SectionExercise(e: LlmExercise, id: string): (x: Exercise)
    ensures x.name == e.name && x.duration == e.duration && x.switchSides.None?
  {
    Exercise(id, e.name, e.duration, None, None, e.description, e.muscleGroups, None, None, None)
  }

  /** A circuit exercise: every field of the response is copied except
      `switchSides`. */
  function CircuitExerciseOf(e: LlmExercise, id: string): (x: Exercise)
    ensures x.name == e.name && x.duration == e.duration && x.switchSides.None?
    ensures x.targetReps == e.targetReps && x.repRange == e.repRange && x.equipment == e.equipment
  {
    Exercise(id, e.name, e.duration, e.targetReps, e.repRange, e.description, e.muscleGroups,
             e.equipment, None, e.modifications)
  }

  /** A section kept only when present and non-empty; its total is the sum
      of its exercises' durations. */
  function TransformSection(s: Option<LlmSection>, tag: int, mint: seq<int> -> string): (r: Section)
    ensures s.None? || |s.value.exercises| == 0 ==> r == Section([], 0)
    ensures s.Some? && |s.value.exercises| > 0 ==> |r.exercises| == |s.value.exercises|
    ensures s.Some? && |s.value.exercises| > 0 ==> forall i :: 0 <= i < |r.exercises| ==>
      r.exercises[i] == SectionExercise(s.value.exercises[i], mint([tag, i]))
    ensures r.totalDuration == SumExerciseDurations(r.exercises)
  {
    if s.Some? && |s.value.exercises| > 0 then
      var es := s.value.exercises;
      var exercises := seq(|es|, i requires 0 <= i < |es| => SectionExercise(es[i], mint([tag, i])));
      Section(exercises, SumExerciseDurations(exercises))
    else Section([], 0)
  }

  /** `(sum + (E - 1) * restBetweenExercises) * rounds + (rounds - 1) * restBetweenRounds`. */
  function CircuitTotal(exerciseSum: int, count: int, rounds: int, restBetweenRounds: int, restBetweenExercises: int): int {
    (exerciseSum + (count - 1) * restBetweenExercises) * rounds + (rounds - 1) * restBetweenRounds
  }

  function TransformCircuit(c: LlmCircuit, ci: int, mint: seq<int> -> string): (r: Circuit)
    ensures r.name == c.name && r.rounds == c.rounds
    ensures r.restBetweenRounds == c.restBetweenRounds && r.restBetweenExercises == c.restBetweenExercises
    ensures |r.exercises| == |c.exercises|
    ensures forall j :: 0 <= j < |r.exercises| ==>
      r.exercises[j] == CircuitExerciseOf(c.exercises[j], mint([3, ci, j]))
    ensures r.totalDuration
      == CircuitTotal(SumExerciseDurations(r.exercises), |r.exercises|, c.rounds, c.restBetweenRounds, c.restBetweenExercises)
  {
    var es := c.exercises;
    var exercises := seq(|es|, j requires 0 <= j < |es| => CircuitExerciseOf(es[j], mint([3, ci, j])));
    Circuit(mint([2, ci]), c.name, c.rounds, c.restBetweenRounds, c.restBetweenExercises, exercises,
            CircuitTotal(SumExerciseDurations(exercises), |exercises|, c.rounds, c.restBetweenRounds, c.restBetweenExercises))
  }

  /** `llm.restBetweenCircuits || 30`: missing or zero becomes 30. */
  function CircuitRestOf(llm: LlmResponse): (r: int)
    ensures llm.restBetweenCircuits.None? || llm.restBetweenCircuits == Some(0) ==> r == 30
    ensures llm.restBetweenCircuits.Some? && llm.restBetweenCircuits.value != 0 ==> r == llm.restBetweenCircuits.value
    ensures r != 0
  {
    match llm.restBetweenCircuits
    case Some(v) => if v != 0 then v else 30
    case None => 30
  }

  /** `llm.estimatedCalories || fallback`: missing or zero takes the fallback. */
  function CaloriesOr(given: Option<int>, fallback: int): (r: int)
    ensures given.None? || given == Some(0) ==> r == fallback
    ensures given.Some? && given.value != 0 ==> r == given.value
  {
    if given.Some? && given.value != 0 then given.value else fallback
  }

  /** The rest time between circuits that counts towards the total. */
  function CircuitRestTotal(count: int, rest: int): int {
    if count > 1 then (count - 1) * rest else 0
  }

  /** `equipmentAvailable.join(', ') || 'Bodyweight'`. */
  function EquipmentLabel(equipment: seq<string>): (shown: string)
    ensures shown != ""
    ensures Join(equipment, ", ") != "" ==> shown == Join(equipment, ", ")
    ensures Join(equipment, ", ") == "" ==> shown == "Bodyweight"
  {
    var joined := Join(equipment, ", ");
    if joined != "" then joined else "Bodyweight"
  }

  /** `transformToGeneratedWorkout`. */
  function TransformToGeneratedWorkout(llm: LlmResponse, ctx: GenerationContext, now: int, mint: seq<int> -> string): (w: GeneratedWorkout)
    ensures w.id == mint([0]) && w.createdAt == now && w.name == llm.name
    ensures |w.circuits| == |llm.circuits|
    ensures forall i :: 0 <= i < |w.circuits| ==> w.circuits[i] == TransformCircuit(llm.circuits[i], i, mint)
    ensures w.warmUp == TransformSection(llm.warmUp, 1, mint)
    ensures w.coolDown == TransformSection(llm.coolDown, 4, mint)
    ensures w.restBetweenCircuits == CircuitRestOf(llm)
    ensures w.actualDuration
      == w.warmUp.totalDuration + SumCircuitTotals(w.circuits)
       + CircuitRestTotal(|w.circuits|, w.restBetweenCircuits) + w.coolDown.totalDuration
    ensures w.difficulty == llm.difficulty.GetOr(Intermediate)
    ensures w.targetDuration == ctx.requestedDuration * 60
    ensures w.equipmentSetUsed == EquipmentLabel(ctx.equipmentAvailable)
    ensures llm.estimatedCalories.None? || llm.estimatedCalories == Some(0) ==>
      w.estimatedCalories == RoundDiv(w.actualDuration * 8, 60)
    ensures llm.estimatedCalories.Some? && llm.estimatedCalories.value != 0 ==>
      w.estimatedCalories == llm.estimatedCalories.value
    ensures w.calorieRange
      == llm.calorieRange.GetOr(CalorieRange(RoundDiv(w.actualDuration * 5, 60), RoundDiv(w.actualDuration * 12, 60)))
    ensures w.isManual.None?
  {
    var warmUp := TransformSection(llm.warmUp, 1, mint);
    var cs := llm.circuits;
    var circuits := seq(|cs|, i requires 0 <= i < |cs| => TransformCircuit(cs[i], i, mint));
    var coolDown := TransformSection(llm.coolDown, 4, mint);
    var rest := CircuitRestOf(llm);
    var actual := warmUp.totalDuration + SumCircuitTotals(circuits) + CircuitRestTotal(|circuits|, rest) + coolDown.totalDuration;
    GeneratedWorkout(
      mint([0]), now, llm.name, llm.description,
      llm.difficulty.GetOr(Intermediate),
      ctx.requestedDuration * 60,
      actual,
      EquipmentLabel(ctx.equipmentAvailable),
      llm.equipmentRequired.GetOr([]),
      warmUp, circuits, coolDown, rest,
      CaloriesOr(llm.estimatedCalories, RoundDiv(actual * 8, 60)),
      llm.calorieRange.GetOr(CalorieRange(RoundDiv(actual * 5, 60), RoundDiv(actual * 12, 60))),
      llm.focusAreas.GetOr([]),
      llm.muscleGroupsTargeted.GetOr([]),
      None)
  }

  /** `generateWorkout` after the HTTP call: validate, then transform. */
  function GenerateFromResponse(llm: LlmResponse, ctx: GenerationContext, now: int, mint: seq<int> -> string): (r: Result<GeneratedWorkout, string>)
    ensures r.Ok? <==> ValidateResponse(llm, ctx.includeWarmup, ctx.includeCooldown).Ok?
    ensures r.Ok? ==> r.value == TransformToGeneratedWorkout(llm, ctx, now, mint)
  {
    match ValidateResponse(llm, ctx.includeWarmup, ctx.includeCooldown)
    case Err(e) => Err(e)
    case Ok(_) => Ok(TransformToGeneratedWorkout(llm, ctx, now, mint))
  }

  // ---------------------------------------------------------------------
  // Properties
  // ---------------------------------------------------------------------

  /** No generated exercise carries `switchSides`, whatever the response
      said, so side switching never happens in a generated workout. */
  lemma GeneratedNeverSwitchesSides(llm: LlmResponse, ctx: GenerationContext, now: int, mint: seq<int> -> string)
    ensures var w := TransformToGeneratedWorkout(llm, ctx, now, mint);
      && (forall i :: 0 <= i < |w.warmUp.exercises| ==> w.warmUp.exercises[i].switchSides.None?)
      && (forall i :: 0 <= i < |w.coolDown.exercises| ==> w.coolDown.exercises[i].switchSides.None?)
      && (forall i, j :: 0 <= i < |w.circuits| && 0 <= j < |w.circuits[i].exercises| ==>
            w.circuits[i].exercises[j].switchSides.None?)
  {
  }

  /** The shape the duration formula assumes: every circuit has at least one
      exercise and one round, and no rest is negative. */
  predicate WellShaped(llm: LlmResponse) {
    && (forall i :: 0 <= i < |llm.circuits| ==>
          |llm.circuits[i].exercises| >= 1 && llm.circuits[i].rounds >= 1
          && llm.circuits[i].restBetweenRounds >= 0 && llm.circuits[i].restBetweenExercises >= 0)
    && (llm.restBetweenCircuits.None? || llm.restBetweenCircuits.value >= 0)
  }

  lemma {:induction false} CircuitBodiesMatchTotals(w: GeneratedWorkout, ci: nat)
    requires ci <= |w.circuits|
    requires forall i :: ci <= i < |w.circuits| ==>
      SumDurations(RoundsFrom(w.circuits[i], i, 0)) == w.circuits[i].totalDuration
    ensures CircuitBodiesFrom(w, ci) == SumCircuitTotals(w.circuits[ci..])
    decreases |w.circuits| - ci
  {
    if ci < |w.circuits| {
      CircuitBodiesMatchTotals(w, ci + 1);
      assert w.circuits[ci..][1..] == w.circuits[ci + 1..];
    }
  }

  /** A well-shaped circuit's generated total is the length of its slice of
      the timeline. */
  lemma CircuitTotalMatchesTimeline(c: LlmCircuit, ci: int, mint: seq<int> -> string)
    requires |c.exercises| >= 1 && c.rounds >= 1 && c.restBetweenRounds >= 0 && c.restBetweenExercises >= 0
    ensures SumDurations(RoundsFrom(TransformCircuit(c, ci, mint), ci, 0)) == TransformCircuit(c, ci, mint).totalDuration
  {
    CircuitDuration(TransformCircuit(c, ci, mint), ci);
  }

  /** The flattened total in terms of the workout's own fields, once every
      circuit's precomputed total matches its slice of the timeline and the
      rest between circuits is not negative. */
  lemma TimelineTotalFromParts(w: GeneratedWorkout)
    requires forall i :: 0 <= i < |w.circuits| ==>
      SumDurations(RoundsFrom(w.circuits[i], i, 0)) == w.circuits[i].totalDuration
    requires w.restBetweenCircuits >= 0
    ensures FlattenWorkout(w).totalDuration
      == SumExerciseDurations(w.warmUp.exercises) + SumCircuitTotals(w.circuits)
       + CircuitRestTotal(|w.circuits|, w.restBetweenCircuits) + SumExerciseDurations(w.coolDown.exercises)
  {
    FlattenTotal(w);
    CircuitBodiesMatchTotals(w, 0);
    assert w.circuits[0..] == w.circuits;
    CircuitRestArithmetic(|w.circuits|, w.restBetweenCircuits);
  }

  lemma CircuitRestArithmetic(n: nat, rest: int)
    requires rest >= 0
    ensures CircuitRestsFrom(n, 0) * Pos(rest) == CircuitRestTotal(n, rest)
  {
  }

  /** The headline agreement: for a well-shaped response, the duration the
      generator computes is exactly the length of the timeline the
      flattener builds from the generated workout. */
  lemma GeneratedDurationMatchesTimeline(llm: LlmResponse, ctx: GenerationContext, now: int, mint: seq<int> -> string)
    requires WellShaped(llm)
    ensures var w := TransformToGeneratedWorkout(llm, ctx, now, mint);
      FlattenWorkout(w).totalDuration == w.actualDuration
  {
    var w := TransformToGeneratedWorkout(llm, ctx, now, mint);
    forall i | 0 <= i < |w.circuits|
      ensures SumDurations(RoundsFrom(w.circuits[i], i, 0)) == w.circuits[i].totalDuration
    {
      CircuitTotalMatchesTimeline(llm.circuits[i], i, mint);
    }
    TimelineTotalFromParts(w);
  }

  /** Without the shape assumption the two disagree: a circuit with no
      exercises and one round is counted as minus its exercise rest, while
      its timeline is empty. */
  lemma EmptyCircuitUndercounts(mint: seq<int> -> string)
    ensures var llm := LlmResponse({"name", "circuits"}, "W", "", None, None, None, None, None, None,
                                   None, None, [LlmCircuit("C", 1, 0, 10, [])], None);
      var w := TransformToGeneratedWorkout(llm, GenerationContext(20, [], false, false), 0, mint);
      && w.actualDuration == -10
      && FlattenWorkout(w).totalDuration == 0
  {
    var llm := LlmResponse({"name", "circuits"}, "W", "", None, None, None, None, None, None,
                           None, None, [LlmCircuit("C", 1, 0, 10, [])], None);
    var w := TransformToGeneratedWorkout(llm, GenerationContext(20, [], false, false), 0, mint);
    assert SumCircuitTotals(w.circuits) == -10 by {
      assert w.circuits[0].totalDuration == -10;
      assert w.circuits[1..] == [];
    }
    assert RoundFrom(w.circuits[0], 0, 0, 0) == [];
    assert RoundsFrom(w.circuits[0], 0, 1) == [];
    assert RoundsFrom(w.circuits[0], 0, 0) == [];
    assert CircuitsFrom(w, 1) == [];
    assert CircuitsFrom(w, 0) == [];
    assert FlattenWorkout(w).items == [];
  }
}

=== FILE: history_store.dfy ===
/** The workout-history store: the saved sessions (newest first), running
    totals, and the day streak recomputed whenever the list changes.
    Timestamps are integer milliseconds; a calendar day is the timestamp
    divided by the length of a day, and "today" is the caller's `now`. */
module HistoryStore {
  import opened Common
  import opened WorkoutTypes

  const DayMs: int := 1000 * 60 * 60 * 24

  datatype Streak = Streak(current: nat, longest: nat, lastWorkoutDate: Option<int>)

  datatype History = History(
    sessions: seq<WorkoutSession>,
    totalWorkoutsCompleted: int,
    totalMinutesWorked: int,
    totalCaloriesBurned: int,
    streak: Streak)

  /** The empty history a fresh install starts from. */
  const InitialHistory := History([], 0, 0, 0, Streak(0, 0, None))

  /** The day number of a timestamp. */
  function Day(t: int): int {
    t / DayMs
  }

  lemma DayMonotone(a: int, b: int)
    requires a >= b
    ensures Day(a) >= Day(b)
  {
    var qa, ra := a / DayMs, a % DayMs;
    var qb, rb := b / DayMs, b % DayMs;
    assert a == qa * DayMs + ra && b == qb * DayMs + rb;
    if qa < qb {
      MulMonotone(DayMs, qa + 1, qb);
    }
  }

  // ---------------------------------------------------------------------
  // Ordering completion times, newest first
  // ---------------------------------------------------------------------

  predicate Descending(s: seq<int>) {
    forall i, j :: 0 <= i < j < |s| ==> s[i] >= s[j]
  }

  function InsertDesc(x: int, s: seq<int>): (r: seq<int>)
    requires Descending(s)
    ensures Descending(r)
    ensures multiset(r) == multiset(s) + multiset{x}
    ensures |r| == |s| + 1
  {
    if |s| == 0 then [x]
    else if x >= s[0] then [x] + s
    else
      var rest := InsertDesc(x, s[1..]);
      InsertBelowHead(x, s, rest);
      [s[0]] + rest
  }

  /** Inserting below the head of a descending list keeps the head first. */
  lemma InsertBelowHead(x: int, s: seq<int>, rest: seq<int>)
    requires Descending(s) && |s| > 0 && x < s[0]
    requires Descending(rest) && multiset(rest) == multiset(s[1..]) + multiset{x}
    ensures Descending([s[0]] + rest)
    ensures multiset([s[0]] + rest) == multiset(s) + multiset{x}
  {
    assert s == [s[0]] + s[1..];
    forall k | 0 <= k < |rest|
      ensures rest[k] <= s[0]
    {
      assert rest[k] in multiset(rest);
      if rest[k] != x {
        assert rest[k] in multiset(s[1..]);
        var m :| 0 <= m < |s[1..]| && s[1..][m] == rest[k];
        assert s[m + 1] == rest[k];
      }
    }
    var r := [s[0]] + rest;
    forall i, j | 0 <= i < j < |r|
      ensures r[i] >= r[j]
    {
      if i > 0 {
        assert r[i] == rest[i - 1] && r[j] == rest[j - 1];
      }
    }
  }

  /** The sort by completion time, latest first. */
  function SortDesc(s: seq<int>): (r: seq<int>)
    ensures Descending(r)
    ensures multiset(r) == multiset(s)
    ensures |r| == |s|
  {
    if |s| == 0 then []
    else
      assert s == [s[0]] + s[1..];
      InsertDesc(s[0], SortDesc(s[1..]))
  }

  predicate HasCompletion(s: WorkoutSession) {
    s.status == Completed && s.completedAt.Some?
  }

  /** Completion times of the completed sessions, in stored order. A
      completed session without a completion time is skipped. */
  function CompletedTimes(sessions: seq<WorkoutSession>): (ts: seq<int>)
    ensures |ts| <= |sessions|
    ensures forall s :: s in sessions && HasCompletion(s) ==> s.completedAt.value in ts
    ensures forall t :: t in ts ==> exists s :: s in sessions && HasCompletion(s) && s.completedAt == Some(t)
  {
    if |sessions| == 0 then []
    else
      var rest := CompletedTimes(sessions[1..]);
      assert forall s :: s in sessions <==> s == sessions[0] || s in sessions[1..];
      if HasCompletion(sessions[0]) then [sessions[0].completedAt.value] + rest
      else rest
  }

  function DaysOf(ts: seq<int>): (ds: seq<int>)
    ensures |ds| == |ts|
    ensures forall k :: 0 <= k < |ts| ==> ds[k] == Day(ts[k])
  {
    if |ts| == 0 then [] else [Day(ts[0])] + DaysOf(ts[1..])
  }

  lemma DaysOfDescending(ts: seq<int>)
    requires Descending(ts)
    ensures Descending(DaysOf(ts))
  {
    var ds := DaysOf(ts);
    forall i, j | 0 <= i < j < |ds|
      ensures ds[i] >= ds[j]
    {
      DayMonotone(ts[i], ts[j]);
    }
  }

  // ---------------------------------------------------------------------
  // calculateStreak
  // ---------------------------------------------------------------------

  /** The scan over consecutive completion days (newest first), exactly as
      the store's loop runs it: a gap of one day extends the running streak
      and, under the loop's condition, copies it into `current`; a longer gap
      closes it into `longest`; a same-day repeat changes nothing. */
  function ScanAsWritten(d: seq<int>, since: int, i: nat, temp: nat, cur: nat, longest: nat): (r: (nat, nat))
    requires 1 <= i <= |d|
    requires 1 <= temp <= i && 1 <= longest <= i && 1 <= cur <= i
    requires cur <= longest || cur <= temp
    ensures 1 <= r.0 <= r.1 <= |d|
    ensures r.1 >= longest && r.1 >= temp
    decreases |d| - i
  {
    if i == |d| then (cur, if longest >= temp then longest else temp)
    else
      var dayDiff := d[i - 1] - d[i];
      if dayDiff == 1 then
        var cur' := if i < |d| - 1 || since <= 1 then temp + 1 else cur;
        ScanAsWritten(d, since, i + 1, temp + 1, cur', longest)
      else if dayDiff > 1 then
        ScanAsWritten(d, since, i + 1, 1, cur, if longest >= temp then longest else temp)
      else
        ScanAsWritten(d, since, i + 1, temp, cur, longest)
  }

  /** The length of the run of consecutive calendar days that starts at
      `d[i]` and goes back in time; repeats of a day are passed over. */
  function RunAt(d: seq<int>, i: nat): (n: nat)
    requires i < |d|
    ensures 1 <= n <= |d| - i
    decreases |d| - i
  {
    if i == |d| - 1 then 1
    else if d[i] - d[i + 1] == 1 then 1 + RunAt(d, i + 1)
    else if d[i] == d[i + 1] then RunAt(d, i + 1)
    else 1
  }

  /** What the current streak is meant to be: over days newest first, the
      run starting at `d[i]` holds exactly the days d[i], d[i] - 1, ...,
      d[i] - (n - 1), and the day before those has no workout. */
  lemma {:induction false} RunAtMeaning(d: seq<int>, i: nat)
    requires Descending(d) && i < |d|
    ensures forall x :: d[i] - RunAt(d, i) < x <= d[i] ==> x in d[i..]
    ensures d[i] - RunAt(d, i) !in d[i..]
    decreases |d| - i
  {
    if i == |d| - 1 {
      assert d[i..] == [d[i]];
    } else if d[i] - d[i + 1] == 1 || d[i] == d[i + 1] {
      RunAtMeaning(d, i + 1);
      RunExtends(d, i, i + 1);
    } else {
      RunBreaks(d, i);
    }
  }

  /** A day equal to or one after the next keeps the run going. */
  lemma RunExtends(d: seq<int>, i: nat, j: nat)
    requires j == i + 1 && j < |d| && (d[i] - d[j] == 1 || d[i] == d[j])
    requires forall x :: d[j] - RunAt(d, j) < x <= d[j] ==> x in d[j..]
    requires d[j] - RunAt(d, j) !in d[j..]
    ensures forall x :: d[i] - RunAt(d, i) < x <= d[i] ==> x in d[i..]
    ensures d[i] - RunAt(d, i) !in d[i..]
  {
    var tail := d[j..];
    assert d[i..] == [d[i]] + tail;
    var low := d[j] - RunAt(d, j);
    assert d[i] - RunAt(d, i) == low;
    assert low < d[i];
    forall x | low < x <= d[i]
      ensures x in d[i..]
    {
      if x != d[i] {
        assert x in tail;
      }
    }
  }

  /** A gap of more than a day ends the run at `d[i]`. */
  lemma RunBreaks(d: seq<int>, i: nat)
    requires Descending(d) && i + 1 < |d| && d[i] - d[i + 1] != 1 && d[i] != d[i + 1]
    ensures forall x :: d[i] - RunAt(d, i) < x <= d[i] ==> x in d[i..]
    ensures d[i] - RunAt(d, i) !in d[i..]
  {
    assert d[i..] == [d[i]] + d[i + 1..];
    var tail := d[i + 1..];
    forall x | x in tail
      ensures x < d[i] - 1
    {
      var m :| 0 <= m < |tail| && tail[m] == x;
      assert d[i + 1 + m] == x;
    }
  }

  /** Every scan's `longest` is at least the run still open at its start. */
  lemma {:induction false} ScanCoversOpenRun(d: seq<int>, since: int, i: nat, temp: nat, cur: nat, longest: nat)
    requires 1 <= i <= |d|
    requires 1 <= temp <= i && 1 <= longest <= i && 1 <= cur <= i
    requires cur <= longest || cur <= temp
    ensures ScanAsWritten(d, since, i, temp, cur, longest).1 >= temp - 1 + RunAt(d, i - 1)
    decreases |d| - i
  {
    if i < |d| {
      var dayDiff := d[i - 1] - d[i];
      if dayDiff == 1 {
        var cur' := if i < |d| - 1 || since <= 1 then temp + 1 else cur;
        ScanCoversOpenRun(d, since, i + 1, temp + 1, cur', longest);
      } else if dayDiff > 1 {
      } else {
        ScanCoversOpenRun(d, since, i + 1, temp, cur, longest);
      }
    }
  }

  /** `calculateStreak` as written: `current` ends up as the length of the
      OLDEST run of two or more consecutive days, not the latest one. */
  function CalculateStreakAsWritten(sessions: seq<WorkoutSession>, now: int): (s: Streak)
    ensures |CompletedTimes(sessions)| == 0 ==> s == Streak(0, 0, None)
    ensures s.current <= s.longest <= |CompletedTimes(sessions)|
  {
    var times := SortDesc(CompletedTimes(sessions));
    if |times| == 0 then Streak(0, 0, None)
    else
      var days := DaysOf(times);
      var since := Day(now) - days[0];
      if since > 1 then Streak(0, 0, Some(times[0]))
      else
        var r := ScanAsWritten(days, since, 1, 1, 1, 1);
        Streak(if since <= 1 then r.0 else 0, r.1, Some(times[0]))
  }

  /** The scan as written reports 3 for the days 10, 9, 5, 4, 3 seen on day
      10, although day 8 has no workout: the latest run is only 10, 9. */
  lemma StreakAsWrittenCountsOldestRun()
    ensures ScanAsWritten([10, 9, 5, 4, 3], 0, 1, 1, 1, 1).0 == 3
    ensures RunAt([10, 9, 5, 4, 3], 0) == 2
    ensures 10 - 2 !in [10, 9, 5, 4, 3]
  {
  }

  /** `calculateStreak` with the current streak taken from the run that
      starts at the latest completion day. */
  function CalculateStreak(sessions: seq<WorkoutSession>, now: int): (s: Streak)
    ensures |CompletedTimes(sessions)| == 0 ==> s == Streak(0, 0, None)
    ensures s.current <= s.longest <= |CompletedTimes(sessions)|
    ensures |CompletedTimes(sessions)| > 0 ==> s.lastWorkoutDate.Some?
    ensures s.longest == CalculateStreakAsWritten(sessions, now).longest
    ensures s.lastWorkoutDate == CalculateStreakAsWritten(sessions, now).lastWorkoutDate
  {
    var times := SortDesc(CompletedTimes(sessions));
    if |times| == 0 then Streak(0, 0, None)
    else
      var days := DaysOf(times);
      var since := Day(now) - days[0];
      if since > 1 then Streak(0, 0, Some(times[0]))
      else
        var r := ScanAsWritten(days, since, 1, 1, 1, 1);
        ScanCoversOpenRun(days, since, 1, 1, 1, 1);
        Streak(RunAt(days, 0), r.1, Some(times[0]))
  }

  /** The completion days, newest first, that the streak is computed from. */
  function LatestDays(sessions: seq<WorkoutSession>): seq<int> {
    DaysOf(SortDesc(CompletedTimes(sessions)))
  }

  /** The streak is broken, both counts zero, once the latest completion
      is more than one day before today. */
  lemma StreakBroken(sessions: seq<WorkoutSession>, now: int)
    requires |LatestDays(sessions)| > 0 && Day(now) - LatestDays(sessions)[0] > 1
    ensures CalculateStreak(sessions, now).current == 0
    ensures CalculateStreak(sessions, now).longest == 0
  {
  }

  /** Otherwise the current streak is the run of consecutive days ending at
      the latest completion: every day back to `current - 1` days before it
      has a workout and the one before has none. */
  lemma StreakIsLatestRun(sessions: seq<WorkoutSession>, now: int)
    requires |LatestDays(sessions)| > 0 && Day(now) - LatestDays(sessions)[0] <= 1
    ensures 1 <= CalculateStreak(sessions, now).current
    ensures forall x :: LatestDays(sessions)[0] - CalculateStreak(sessions, now).current < x <= LatestDays(sessions)[0] ==>
      x in LatestDays(sessions)
    ensures LatestDays(sessions)[0] - CalculateStreak(sessions, now).current !in LatestDays(sessions)
  {
    var days := LatestDays(sessions);
    DaysOfDescending(SortDesc(CompletedTimes(sessions)));
    assert CalculateStreak(sessions, now).current == RunAt(days, 0);
    RunFromLatest(days);
  }

  /** `RunAtMeaning` for the run starting at the latest day. */
  lemma RunFromLatest(d: seq<int>)
    requires Descending(d) && |d| > 0
    ensures forall x :: d[0] - RunAt(d, 0) < x <= d[0] ==> x in d
    ensures d[0] - RunAt(d, 0) !in d
  {
    RunAtMeaning(d, 0);
    assert d[0..] == d;
  }

  /** The latest completion time is the greatest of them all. */
  lemma LastWorkoutIsLatest(sessions: seq<WorkoutSession>, now: int)
    requires |CompletedTimes(sessions)| > 0
    ensures CalculateStreak(sessions, now).lastWorkoutDate.Some?
    ensures forall t :: t in CompletedTimes(sessions) ==> t <= CalculateStreak(sessions, now).lastWorkoutDate.value
  {
    var ts := CompletedTimes(sessions);
    var times := SortDesc(ts);
    forall t | t in ts
      ensures t <= times[0]
    {
      assert t in multiset(ts);
      assert t in multiset(times);
      var k :| 0 <= k < |times| && times[k] == t;
    }
  }

  // ---------------------------------------------------------------------
  // Store operations
  // ---------------------------------------------------------------------

  /** `addSession`: prepends the session, counts it when it completed,
      adds its rounded minutes and its calories whatever its status, and
      recomputes the streak. */
  function AddSession(h: History, session: WorkoutSession, now: int): (r: History)
    ensures r.sessions == [session] + h.sessions
    ensures session.status == Completed ==> r.totalWorkoutsCompleted == h.totalWorkoutsCompleted + 1
    ensures session.status != Completed ==> r.totalWorkoutsCompleted == h.totalWorkoutsCompleted
    ensures var added := r.totalMinutesWorked - h.totalMinutesWorked;
      60 * added - 30 <= session.actualDurationWorked < 60 * added + 30
    ensures r.totalCaloriesBurned == h.totalCaloriesBurned + session.estimatedCaloriesBurned
    ensures r.streak == CalculateStreak(r.sessions, now)
    ensures r.streak.longest == CalculateStreakAsWritten(r.sessions, now).longest
    ensures r.streak.lastWorkoutDate == CalculateStreakAsWritten(r.sessions, now).lastWorkoutDate
  {
    var newSessions := [session] + h.sessions;
    RoundMinutes(session.actualDurationWorked);
    History(
      newSessions,
      if session.status == Completed then h.totalWorkoutsCompleted + 1 else h.totalWorkoutsCompleted,
      h.totalMinutesWorked + RoundDiv(session.actualDurationWorked, 60),
      h.totalCaloriesBurned + session.estimatedCaloriesBurned,
      CalculateStreak(newSessions, now))
  }

  /** The keys a screen passes to `updateSession`. An absent key is `None`;
      a key present with the value `undefined` is `Some(None)`, and it still
      overwrites the stored value when spread. */
  datatype FeedbackPatch = FeedbackPatch(rpe: Option<Option<int>>, notes: Option<Option<string>>)

  /** `{...prior, ...patch, updatedAt: now}`. */
  function MergeFeedback(prior: Option<Feedback>, patch: FeedbackPatch, now: int): (f: Feedback)
    ensures f.updatedAt == Some(now)
    ensures patch.rpe.Some? ==> f.rpe == patch.rpe.value
    ensures patch.rpe.None? ==> f.rpe == (if prior.Some? then prior.value.rpe else None)
    ensures patch.notes.Some? ==> f.notes == patch.notes.value
    ensures patch.notes.None? ==> f.notes == (if prior.Some? then prior.value.notes else None)
  {
    var base := prior.GetOr(Feedback(None, None, None));
    Feedback(
      if patch.rpe.Some? then patch.rpe.value else base.rpe,
      if patch.notes.Some? then patch.notes.value else base.notes,
      Some(now))
  }

  function UpdateFeedbackIn(sessions: seq<WorkoutSession>, id: string, patch: FeedbackPatch, now: int): (r: seq<WorkoutSession>)
    ensures |r| == |sessions|
    ensures forall k :: 0 <= k < |sessions| && sessions[k].id != id ==> r[k] == sessions[k]
    ensures forall k :: 0 <= k < |sessions| && sessions[k].id == id ==>
      r[k] == sessions[k].(feedback := Some(MergeFeedback(sessions[k].feedback, patch, now)))
  {
    if |sessions| == 0 then []
    else
      var s := sessions[0];
      var s' := if s.id == id then s.(feedback := Some(MergeFeedback(s.feedback, patch, now))) else s;
      [s'] + UpdateFeedbackIn(sessions[1..], id, patch, now)
  }

  /** `updateSession`: only the matching sessions change, and only their
      feedback; the totals and the streak are left as they were. */
  function UpdateSession(h: History, id: string, patch: FeedbackPatch, now: int): (r: History)
    ensures |r.sessions| == |h.sessions|
    ensures forall k :: 0 <= k < |h.sessions| && h.sessions[k].id != id ==> r.sessions[k] == h.sessions[k]
    ensures forall k :: 0 <= k < |h.sessions| && h.sessions[k].id == id ==>
      r.sessions[k] == h.sessions[k].(feedback := Some(MergeFeedback(h.sessions[k].feedback, patch, now)))
    ensures r.(sessions := h.sessions) == h
  {
    h.(sessions := UpdateFeedbackIn(h.sessions, id, patch, now))
  }

  /** `sessions.filter(s => s.id !== id)`. */
  function DropId(sessions: seq<WorkoutSession>, id: string): (r: seq<WorkoutSession>)
    ensures forall s :: s in r <==> s in sessions && s.id != id
    ensures |r| <= |sessions|
    ensures (forall k :: 0 <= k < |sessions| ==> sessions[k].id != id) ==> r == sessions
  {
    if |sessions| == 0 then []
    else
      assert forall s :: s in sessions <==> s == sessions[0] || s in sessions[1..];
      if sessions[0].id == id then DropId(sessions[1..], id)
      else [sessions[0]] + DropId(sessions[1..], id)
  }

  /** Dropping distributes over concatenation, so the kept sessions stay
      in their stored order with their multiplicity. */
  lemma {:induction false} DropIdAppend(a: seq<WorkoutSession>, b: seq<WorkoutSession>, id: string)
    ensures DropId(a + b, id) == DropId(a, id) + DropId(b, id)
  {
    if |a| == 0 {
      assert a + b == b;
    } else {
      assert (a + b)[0] == a[0];
      assert (a + b)[1..] == a[1..] + b;
      DropIdAppend(a[1..], b, id);
    }
  }

  /** A single session is kept exactly when its id differs. */
  lemma DropIdSingleton(x: WorkoutSession, id: string)
    ensures DropId([x], id) == if x.id == id then [] else [x]
  {
  }

  /** `removeSession`: drops every session with the id and recomputes the
      streak; the totals are NOT reduced. */
  function RemoveSession(h: History, id: string, now: int): (r: History)
    ensures forall s :: s in r.sessions <==> s in h.sessions && s.id != id
    ensures r.sessions == DropId(h.sessions, id)
    ensures r.totalWorkoutsCompleted == h.totalWorkoutsCompleted
    ensures r.totalMinutesWorked == h.totalMinutesWorked
    ensures r.totalCaloriesBurned == h.totalCaloriesBurned
    ensures r.streak == CalculateStreak(r.sessions, now)
    ensures r.streak.longest == CalculateStreakAsWritten(r.sessions, now).longest
    ensures r.streak.lastWorkoutDate == CalculateStreakAsWritten(r.sessions, now).lastWorkoutDate
  {
    var newSessions := DropId(h.sessions, id);
    h.(sessions := newSessions, streak := CalculateStreak(newSessions, now))
  }

  /** Removing a session just added with a fresh id gives back the old list
      and the streak recomputed from it (the stored one, when it was
      current), while the totals keep what the addition counted. */
  lemma RemoveUndoesAdd(h: History, session: WorkoutSession, now: int)
    requires forall k :: 0 <= k < |h.sessions| ==> h.sessions[k].id != session.id
    ensures RemoveSession(AddSession(h, session, now), session.id, now).sessions == h.sessions
    ensures RemoveSession(AddSession(h, session, now), session.id, now).streak == CalculateStreak(h.sessions, now)
    ensures h.streak == CalculateStreak(h.sessions, now) ==>
      RemoveSession(AddSession(h, session, now), session.id, now).streak == h.streak
    ensures RemoveSession(AddSession(h, session, now), session.id, now).totalCaloriesBurned
      == h.totalCaloriesBurned + session.estimatedCaloriesBurned
  {
    var added := [session] + h.sessions;
    assert added[1..] == h.sessions;
  }

  predicate Finished(s: WorkoutSession) {
    s.status == Completed || s.status == StoppedEarly
  }

  function FinishedSessions(sessions: seq<WorkoutSession>): (r: seq<WorkoutSession>)
    ensures |r| <= |sessions|
    ensures forall s :: s in r <==> s in sessions && Finished(s)
  {
    if |sessions| == 0 then []
    else
      assert forall s :: s in sessions <==> s == sessions[0] || s in sessions[1..];
      if Finished(sessions[0]) then [sessions[0]] + FinishedSessions(sessions[1..])
      else FinishedSessions(sessions[1..])
  }

  /** Selecting the finished sessions distributes over concatenation, so
      they keep their stored order and multiplicity. */
  lemma {:induction false} FinishedAppend(a: seq<WorkoutSession>, b: seq<WorkoutSession>)
    ensures FinishedSessions(a + b) == FinishedSessions(a) + FinishedSessions(b)
  {
    if |a| == 0 {
      assert a + b == b;
    } else {
      assert (a + b)[0] == a[0];
      assert (a + b)[1..] == a[1..] + b;
      FinishedAppend(a[1..], b);
    }
  }

  /** A single session is selected exactly when it is finished. */
  lemma FinishedSingleton(x: WorkoutSession)
    ensures FinishedSessions([x]) == if Finished(x) then [x] else []
  {
  }

  /** `array.slice(0, count)`: a negative count drops that many from the end. */
  function SliceTo<T>(xs: seq<T>, count: int): (r: seq<T>)
    ensures count >= 0 ==> r == xs[..if count <= |xs| then count else |xs|]
    ensures count < 0 ==> r == xs[..if |xs| + count >= 0 then |xs| + count else 0]
  {
    var end := if count < 0 then |xs| + count else count;
    var e := if end < 0 then 0 else if end > |xs| then |xs| else end;
    xs[..e]
  }

  /** `getRecentSessions`: the completed or stopped-early sessions, in stored
      (newest first) order, the first `count` of them. */
  function GetRecentSessions(h: History, count: int): (r: seq<WorkoutSession>)
    ensures forall s :: s in r ==> s in h.sessions && Finished(s)
    ensures r <= FinishedSessions(h.sessions)
    ensures count >= 0 ==> |r| == (if count <= |FinishedSessions(h.sessions)| then count else |FinishedSessions(h.sessions)|)
  {
    SliceTo(FinishedSessions(h.sessions), count)
  }

  /** `getSessionById`: the first session with the id, if any. */
  function GetSessionById(h: History, id: string): (r: Option<WorkoutSession>)
    ensures r.None? <==> forall k :: 0 <= k < |h.sessions| ==> h.sessions[k].id != id
    ensures r.Some? ==> r.value.id == id && exists k :: (0 <= k < |h.sessions| && h.sessions[k] == r.value &&
      forall j :: 0 <= j < k ==> h.sessions[j].id != id)
  {
    FindId(h.sessions, id)
  }

  function FindId(sessions: seq<WorkoutSession>, id: string): (r: Option<WorkoutSession>)
    ensures r.None? <==> forall k :: 0 <= k < |sessions| ==> sessions[k].id != id
    ensures r.Some? ==> r.value.id == id && exists k :: (0 <= k < |sessions| && sessions[k] == r.value &&
      forall j :: 0 <= j < k ==> sessions[j].id != id)
  {
    if |sessions| == 0 then None
    else if sessions[0].id == id then Some(sessions[0])
    else
      var r := FindId(sessions[1..], id);
      assert forall k :: 0 < k < |sessions| ==> sessions[k] == sessions[1..][k - 1];
      if r.Some? then
        var k :| 0 <= k < |sessions[1..]| && sessions[1..][k] == r.value &&
          forall j :: 0 <= j < k ==> sessions[1..][j].id != id;
        assert sessions[k + 1] == r.value;
        r
      else r
  }

  /** A session just added is found by its id. */
  lemma AddedSessionIsFound(h: History, session: WorkoutSession, now: int)
    ensures GetSessionById(AddSession(h, session, now), session.id) == Some(session)
  {
  }

  /** `clearHistory`. */
  function ClearHistory(h: History): (r: History)
    ensures r.sessions == [] && r.totalWorkoutsCompleted == 0 && r.totalMinutesWorked == 0
    ensures r.totalCaloriesBurned == 0
    ensures r.streak == Streak(0, 0, None)
  {
    InitialHistory
  }
}

=== FILE: manual_entry.dfy ===
/** Manually logged workouts: the session constructor that wraps a title,
    description, duration, date and model-estimated metadata into a
    completed session, and the three-step entry modal (form, loading,
    preview) that collects them. The metadata request is outside the
    model; its outcome is an input. */
module ManualEntry {
  import opened Common
  import opened WorkoutTypes
  import opened Flatten

  /** The metadata the model estimates for a manual workout. */
  datatype ManualMetadata = ManualMetadata(
    difficulty: Difficulty,
    estimatedCalories: int,
    calorieRange: CalorieRange,
    focusAreas: seq<string>,
    muscleGroupsTargeted: seq<string>)

  // ---------------------------------------------------------------------
  // createManualWorkoutSession
  // ---------------------------------------------------------------------

  /** A manual workout: only metadata, no exercises, flagged `isManual`. */
  function ManualWorkout(title: string, description: string, durationMinutes: int, date: int,
                         metadata: ManualMetadata, workoutId: string): (w: GeneratedWorkout)
    ensures w.id == workoutId && w.createdAt == date && w.name == title && w.description == description
    ensures w.targetDuration == durationMinutes * 60 && w.actualDuration == durationMinutes * 60
    ensures w.warmUp == Section([], 0) && w.circuits == [] && w.coolDown == Section([], 0)
    ensures w.restBetweenCircuits == 0 && w.isManual == Some(true)
    ensures w.equipmentSetUsed == "Manual Entry" && w.equipmentRequired == []
    ensures w.difficulty == metadata.difficulty && w.estimatedCalories == metadata.estimatedCalories
    ensures w.calorieRange == metadata.calorieRange
    ensures w.focusAreas == metadata.focusAreas && w.muscleGroupsTargeted == metadata.muscleGroupsTargeted
  {
    GeneratedWorkout(
      workoutId, date, title, description, metadata.difficulty,
      durationMinutes * 60, durationMinutes * 60,
      "Manual Entry", [],
      Section([], 0), [], Section([], 0), 0,
      metadata.estimatedCalories, metadata.calorieRange,
      metadata.focusAreas, metadata.muscleGroupsTargeted,
      Some(true))
  }

  /** `createManualWorkoutSession`. The two fresh ids and the feedback
      timestamp (`new Date()`) are inputs. */
  function CreateManualWorkoutSession(title: string, description: string, durationMinutes: int, date: int,
                                      metadata: ManualMetadata, workoutId: string, sessionId: string,
                                      now: int): (ss: WorkoutSession)
    ensures ss.id == sessionId && ss.workoutId == workoutId && ss.workoutId == ss.workout.id
    ensures ss.workout == ManualWorkout(title, description, durationMinutes, date, metadata, workoutId)
    ensures ss.status == WorkoutStatus.Completed && ss.percentComplete == 100
    ensures ss.completedItems == 0 && ss.totalItems == 0
    ensures ss.startedAt == Some(date) && ss.completedAt == Some(date) && ss.workout.createdAt == date
    ensures ss.actualDurationWorked == durationMinutes * 60 && ss.actualDurationWorked == ss.workout.actualDuration
    ensures ss.estimatedCaloriesBurned == metadata.estimatedCalories
    ensures ss.feedback == Some(Feedback(None, Some(description), Some(now)))
    ensures ss.stoppedAt.None? && ss.stoppedAtItem.None?
  {
    var w := ManualWorkout(title, description, durationMinutes, date, metadata, workoutId);
    WorkoutSession(
      sessionId, workoutId, w, WorkoutStatus.Completed, Some(date), Some(date), None,
      0, 0, 100, None, durationMinutes * 60, metadata.estimatedCalories,
      Some(Feedback(None, Some(description), Some(now))))
  }

  /** A manual workout has no timeline: flattening it gives no items and a
      total of 0, so its recorded duration never matches its timeline unless
      it lasted 0 minutes. */
  lemma ManualWorkoutHasNoTimeline(title: string, description: string, durationMinutes: int, date: int,
                                   metadata: ManualMetadata, workoutId: string)
    ensures var w := ManualWorkout(title, description, durationMinutes, date, metadata, workoutId);
      && FlattenWorkout(w).items == []
      && FlattenWorkout(w).totalItems == 0
      && (FlattenWorkout(w).totalDuration == w.actualDuration <==> durationMinutes == 0)
  {
    var w := ManualWorkout(title, description, durationMinutes, date, metadata, workoutId);
    assert CircuitsFrom(w, 0) == [];
  }

  // ---------------------------------------------------------------------
  // The entry modal
  // ---------------------------------------------------------------------

  datatype ModalStep = Form | Loading | Preview

  datatype ModalState = ModalState(
    step: ModalStep,
    title: string,
    description: string,
    durationMinutes: int,
    date: int,
    metadata: Option<ManualMetadata>,
    error: Option<string>,
    showDatePicker: bool,
    saving: bool)

  /** `resetModal`: a fresh form dated `now`. */
  function ResetModal(now: int): (m: ModalState)
    ensures m.step == Form && m.title == "" && m.description == "" && m.durationMinutes == 30
    ensures m.date == now && m.metadata.None? && m.error.None? && !m.showDatePicker && !m.saving
  {
    ModalState(Form, "", "", 30, now, None, None, false, false)
  }

  /** The Generate button is enabled only when both fields are non-blank. */
  predicate CanGenerate(m: ModalState) {
    !IsBlank(m.title) && !IsBlank(m.description)
  }

  /** The synchronous half of `handleGenerateMetadata`: reject blank input
      with a message and stay on the form, otherwise show the spinner. */
  function BeginGenerate(m: ModalState): (r: ModalState)
    ensures !CanGenerate(m) ==> r == m.(error := Some("Please fill in both title and description"))
    ensures CanGenerate(m) ==> r == m.(error := None, step := Loading)
  {
    if !CanGenerate(m) then m.(error := Some("Please fill in both title and description"))
    else m.(error := None, step := Loading)
  }

  /** The asynchronous half: the request's outcome decides the next step. */
  function FinishGenerate(m: ModalState, outcome: Result<ManualMetadata, string>): (r: ModalState)
    ensures outcome.Ok? ==> r.step == Preview && r.metadata == Some(outcome.value) && r.error == m.error
    ensures outcome.Err? ==> r.step == Form && r.error == Some(outcome.error) && r.metadata == m.metadata
    ensures r.title == m.title && r.description == m.description && r.durationMinutes == m.durationMinutes
  {
    match outcome
    case Ok(md) => m.(metadata := Some(md), step := Preview)
    case Err(e) => m.(error := Some(e), step := Form)
  }

  /** Calorie minus button: down by 50, never below 0. */
  function CaloriesDown(c: int): (r: int)
    ensures r >= 0 && r <= (if c > 0 then c else 0)
    ensures c >= 50 ==> r == c - 50
    ensures c < 50 ==> r == 0
  {
    if c - 50 > 0 then c - 50 else 0
  }

  /** Calorie plus button: up by 50. */
  function CaloriesUp(c: int): (r: int)
    ensures r - c == 50
  {
    c + 50
  }

  /** The two buttons undo each other away from the floor. */
  lemma CalorieButtonsInverse(c: int)
    ensures c >= 50 ==> CaloriesUp(CaloriesDown(c)) == c
    ensures c >= 0 ==> CaloriesDown(CaloriesUp(c)) == c
    ensures c < 50 ==> CaloriesUp(CaloriesDown(c)) == 50
  {
  }

  /** Every way the user (or the request) can move the modal. */
  datatype ModalAction =
    | EditTitle(title: string)
    | EditDescription(description: string)
    | PickDuration(minutes: int)
    | OpenDatePicker
    | ChangeDate(isIos: bool, picked: Option<int>)
    | Generate
    | MetadataArrived(outcome: Result<ManualMetadata, string>)
    | PickDifficulty(level: Difficulty)
    | LessCalories
    | MoreCalories
    | ToggleFocusArea(area: string)
    | ToggleMuscleGroup(muscle: string)
    | Back
    | Save(workoutId: string, sessionId: string, now: int)
    | Close(now: int)

  /** Apply a metadata edit; every metadata edit is a no-op without metadata. */
  function EditMetadata(m: ModalState, a: ModalAction): (r: ModalState)
    requires a.PickDifficulty? || a.LessCalories? || a.MoreCalories? || a.ToggleFocusArea? || a.ToggleMuscleGroup?
    ensures m.metadata.None? ==> r == m
    ensures r.metadata.Some? <==> m.metadata.Some?
    ensures r.(metadata := m.metadata) == m
  {
    match m.metadata
    case None => m
    case Some(md) =>
      var md2 :=
        match a
        case PickDifficulty(level) => md.(difficulty := level)
        case LessCalories => md.(estimatedCalories := CaloriesDown(md.estimatedCalories))
        case MoreCalories => md.(estimatedCalories := CaloriesUp(md.estimatedCalories))
        case ToggleFocusArea(area) => md.(focusAreas := Toggle(md.focusAreas, area))
        case ToggleMuscleGroup(muscle) => md.(muscleGroupsTargeted := Toggle(md.muscleGroupsTargeted, muscle));
      m.(metadata := Some(md2))
  }

  /** One transition, together with the session handed to the history store
      (only `Save` with metadata produces one). */
  function Step(m: ModalState, a: ModalAction): (r: (ModalState, Option<WorkoutSession>))
    ensures r.1.Some? <==> a.Save? && m.metadata.Some?
    ensures a.Save? && m.metadata.Some? ==>
      r.0 == ResetModal(a.now)
      && r.1.value == CreateManualWorkoutSession(m.title, m.description, m.durationMinutes, m.date,
                                                 m.metadata.value, a.workoutId, a.sessionId, a.now)
    ensures a.Save? && m.metadata.None? ==> r.0 == m
    ensures a.Back? ==> r.0 == m.(step := Form)
    ensures a.Close? ==> r.0 == ResetModal(a.now)
  {
    match a
    case EditTitle(t) => (m.(title := t), None)
    case EditDescription(d) => (m.(description := d), None)
    case PickDuration(minutes) => (m.(durationMinutes := minutes), None)
    case OpenDatePicker => (m.(showDatePicker := true), None)
    case ChangeDate(isIos, picked) =>
      (m.(showDatePicker := isIos, date := if picked.Some? then picked.value else m.date), None)
    case Generate => (BeginGenerate(m), None)
    case MetadataArrived(outcome) => (FinishGenerate(m, outcome), None)
    case PickDifficulty(_) => (EditMetadata(m, a), None)
    case LessCalories => (EditMetadata(m, a), None)
    case MoreCalories => (EditMetadata(m, a), None)
    case ToggleFocusArea(_) => (EditMetadata(m, a), None)
    case ToggleMuscleGroup(_) => (EditMetadata(m, a), None)
    case Back => (m.(step := Form), None)
    case Save(workoutId, sessionId, now) =>
      if m.metadata.None? then (m, None)
      else
        (ResetModal(now),
         Some(CreateManualWorkoutSession(m.title, m.description, m.durationMinutes, m.date,
                                         m.metadata.value, workoutId, sessionId, now)))
    case Close(now) => (ResetModal(now), None)
  }

  /** The actions the modal offers in its current state: the form's inputs
      and Generate only on the form (the date picker only while it is
      shown), the metadata editors, Back and Save only on the preview, and
      Close in the header of every step. A request's outcome can land in
      any step, since closing the modal does not cancel it. */
  predicate Offered(m: ModalState, a: ModalAction) {
    match a
    case EditTitle(_) => m.step == Form
    case EditDescription(_) => m.step == Form
    case PickDuration(_) => m.step == Form
    case OpenDatePicker => m.step == Form
    case ChangeDate(_, _) => m.step == Form && m.showDatePicker
    case Generate => m.step == Form
    case MetadataArrived(_) => true
    case PickDifficulty(_) => m.step == Preview
    case LessCalories => m.step == Preview
    case MoreCalories => m.step == Preview
    case ToggleFocusArea(_) => m.step == Preview
    case ToggleMuscleGroup(_) => m.step == Preview
    case Back => m.step == Preview
    case Save(_, _, _) => m.step == Preview
    case Close(_) => true
  }

  /** The preview step always has metadata to show, and the spinner never
      shows an error. */
  predicate ModalInvariant(m: ModalState) {
    && (m.step == Preview ==> m.metadata.Some?)
    && (m.step == Loading ==> m.error.None?)
  }

  lemma StepKeepsInvariant(m: ModalState, a: ModalAction)
    requires ModalInvariant(m)
    requires Offered(m, a)
    ensures ModalInvariant(Step(m, a).0)
  {
  }

  /** The state after a run of actions. */
  function Run(m: ModalState, actions: seq<ModalAction>): ModalState
    decreases |actions|
  {
    if |actions| == 0 then m else Run(Step(m, actions[0]).0, actions[1..])
  }

  /** Every action of the run is offered in the state it is applied to. */
  predicate OnlyOfferedActions(m: ModalState, actions: seq<ModalAction>)
    decreases |actions|
  {
    |actions| == 0
    || (Offered(m, actions[0]) && OnlyOfferedActions(Step(m, actions[0]).0, actions[1..]))
  }

  lemma {:induction false} RunKeepsInvariant(m: ModalState, actions: seq<ModalAction>)
    requires ModalInvariant(m)
    requires OnlyOfferedActions(m, actions)
    ensures ModalInvariant(Run(m, actions))
    decreases |actions|
  {
    if |actions| > 0 {
      StepKeepsInvariant(m, actions[0]);
      RunKeepsInvariant(Step(m, actions[0]).0, actions[1..]);
    }
  }

  /** From a fresh modal, every reachable state satisfies the invariant. */
  lemma FreshModalInvariant(now: int, actions: seq<ModalAction>)
    requires OnlyOfferedActions(ResetModal(now), actions)
    ensures ModalInvariant(Run(ResetModal(now), actions))
  {
    RunKeepsInvariant(ResetModal(now), actions);
  }

  /** Generating from the form with non-blank fields and a successful
      request lands on the preview showing exactly the returned metadata. */
  lemma GenerateThenArrive(m: ModalState, md: ManualMetadata)
    requires m.step == Form && CanGenerate(m)
    ensures var r := Step(Step(m, Generate).0, MetadataArrived(Ok(md))).0;
      r.step == Preview && r.metadata == Some(md) && r.error.None?
  {
  }

  /** Blank fields keep the modal on the form with an error, whatever was
      typed around them. */
  lemma BlankFieldsStayOnForm(m: ModalState)
    requires m.step == Form && (AllSpace(m.title) || AllSpace(m.description))
    ensures Step(m, Generate).0.step == Form && Step(m, Generate).0.error.Some?
  {
    BlankIffAllSpace(m.title);
    BlankIffAllSpace(m.description);
  }
}

=== FILE: onboarding.dfy ===
/** The first two onboarding steps: the goals step, which creates the
    profile, and the training step, which adds free-text training notes.
    The equipment step is in `EquipmentScreens`. */
module Onboarding {
  import opened Common
  import opened WorkoutTypes
  import opened Constants
  import opened UserStore

  // ---------------------------------------------------------------------
  // Goals
  // ---------------------------------------------------------------------

  /** The goals step's local state: the chosen suggestions, in the order
      chosen, and the free text. */
  datatype GoalsPicker = GoalsPicker(selected: seq<string>, goals: string)

  /** The state the step opens with: the stored goals as the free text. */
  function OpenGoals(profile: Option<UserProfile>): (g: GoalsPicker)
    ensures g.selected == []
    ensures profile.Some? ==> g.goals == profile.value.fitnessGoals
    ensures profile.None? ==> g.goals == ""
  {
    GoalsPicker([], if profile.Some? then profile.value.fitnessGoals else "")
  }

  function ToggleSuggestion(g: GoalsPicker, suggestion: string): (r: GoalsPicker)
    ensures suggestion in r.selected <==> suggestion !in g.selected
    ensures r.goals == g.goals
  {
    g.(selected := Toggle(g.selected, suggestion))
  }

  /** "Continue" is disabled with no suggestion chosen and blank text. */
  predicate GoalsContinueEnabled(g: GoalsPicker) {
    |g.selected| > 0 || !AllSpace(g.goals)
  }

  /** The parts joined into the goals: the chosen suggestions, then the
      trimmed text when it is not blank, with empty strings dropped. */
  function GoalParts(g: GoalsPicker): (parts: seq<string>)
    ensures forall k :: 0 <= k < |parts| ==> parts[k] != ""
    ensures AllSpace(g.goals) ==> parts == NonEmpty(g.selected)
    ensures !AllSpace(g.goals) ==> parts == NonEmpty(g.selected) + [Trim(g.goals)]
  {
    BlankIffAllSpace(g.goals);
    var text := if Trim(g.goals) != "" then [Trim(g.goals)] else [];
    NonEmptyAppend(g.selected, text);
    var parts := NonEmpty(g.selected + text);
    forall k | 0 <= k < |parts|
      ensures parts[k] != ""
    {
      assert parts[k] in parts;
    }
    parts
  }

  lemma {:induction false} NonEmptyAppend(xs: seq<string>, ys: seq<string>)
    requires forall k :: 0 <= k < |ys| ==> ys[k] != ""
    ensures NonEmpty(xs + ys) == NonEmpty(xs) + ys
  {
    if |xs| == 0 {
      assert xs + ys == ys;
    } else {
      NonEmptyAppend(xs[1..], ys);
      assert (xs + ys)[1..] == xs[1..] + ys;
    }
  }

  /** `[...selected, text].filter(Boolean).join('. ') || 'General fitness'`. */
  function CombinedGoals(g: GoalsPicker): (s: string)
    ensures s != ""
    ensures GoalParts(g) == [] ==> s == "General fitness"
    ensures GoalParts(g) != [] ==> s == Join(GoalParts(g), ". ")
  {
    var joined := Join(GoalParts(g), ". ");
    if joined == "" then
      assert GoalParts(g) == [] by {
        if GoalParts(g) != [] {
          JoinEnds(GoalParts(g), ". ");
        }
      }
      "General fitness"
    else joined
  }

  /** With "Continue" enabled the fallback is never used: the goals start
      with the first chosen suggestion, or are the trimmed text alone, and
      end with the trimmed text when there is one. */
  lemma EnabledGoalsAreTheUsers(g: GoalsPicker)
    requires GoalsContinueEnabled(g)
    requires forall k :: 0 <= k < |g.selected| ==> g.selected[k] != ""
    ensures CombinedGoals(g) == Join(GoalParts(g), ". ")
    ensures |g.selected| > 0 ==> g.selected[0] <= CombinedGoals(g)
    ensures |g.selected| == 0 ==> CombinedGoals(g) == Trim(g.goals)
    ensures !AllSpace(g.goals) ==> EndsWith(CombinedGoals(g), Trim(g.goals))
  {
    var parts := GoalParts(g);
    assert NonEmpty(g.selected) == g.selected;
    assert |parts| >= 1;
    JoinEnds(parts, ". ");
  }

  /** "Continue" on the goals step (`handleNext`): writes a whole new
      profile. Its id, creation time, equipment sets, duration and unit are
      carried over (or defaulted); onboarding is marked unfinished, and
      everything else, such as age, weight and training notes, is dropped.
      `newId` and `now` stand for the fresh id and the clock. */
  function GoalsNext(st: UserState, g: GoalsPicker, newId: string, now: int): (r: UserState)
    ensures r.profile.Some? && r.savedCustomInstructions == st.savedCustomInstructions
    ensures var p := r.profile.value;
      && p.fitnessGoals == CombinedGoals(g)
      && !p.hasCompletedOnboarding
      && p.age.None? && p.weight.None? && p.goalWeight.None? && p.trainingNotes.None?
    ensures st.profile.None? ==> (
      var p := r.profile.value;
      && p.id == newId && p.createdAt == now && p.equipmentSets == []
      && p.preferredWorkoutDuration == 30 && p.weightUnit == Lbs)
    ensures st.profile.Some? ==> (
      var before := st.profile.value;
      var p := r.profile.value;
      && p.id == (if before.id != "" then before.id else newId)
      && p.createdAt == before.createdAt
      && p.equipmentSets == before.equipmentSets
      && p.preferredWorkoutDuration == (if before.preferredWorkoutDuration != 0 then before.preferredWorkoutDuration else 30)
      && p.weightUnit == before.weightUnit)
  {
    var prior := st.profile;
    SetProfile(st, UserProfile(
      if prior.Some? && prior.value.id != "" then prior.value.id else newId,
      if prior.Some? then prior.value.createdAt else now,
      None, None, None,
      if prior.Some? then prior.value.weightUnit else Lbs,
      CombinedGoals(g),
      None,
      if prior.Some? then prior.value.equipmentSets else [],
      if prior.Some? && prior.value.preferredWorkoutDuration != 0 then prior.value.preferredWorkoutDuration else 30,
      false))
  }

  /** Coming back to the goals step and pressing "Continue" at once keeps
      the stored goals, when they are trimmed text. */
  lemma RevisitKeepsGoals(st: UserState, newId: string, now: int)
    requires st.profile.Some? && Trimmed(st.profile.value.fitnessGoals)
    ensures GoalsNext(st, OpenGoals(st.profile), newId, now).profile.value.fitnessGoals == st.profile.value.fitnessGoals
  {
    var goals := st.profile.value.fitnessGoals;
    TrimOfTrimmed(goals);
    BlankIffAllSpace(goals);
    assert GoalParts(OpenGoals(st.profile)) == [goals];
  }

  /** The suggestion chips are non-empty, so choosing any of them enables
      "Continue" and shows up in the goals. */
  lemma SuggestionsAreNonEmpty()
    ensures forall k :: 0 <= k < |GoalSuggestions| ==> GoalSuggestions[k] != ""
  {
  }

  // ---------------------------------------------------------------------
  // Training notes
  // ---------------------------------------------------------------------

  const AbilitySuggestions: seq<string> := [
    "Pistol squats", "Handstand pushups", "One-arm pushups", "Muscle-ups", "Ring dips", "L-sits",
    "Pull-ups (10+)", "Dips (10+)", "Box jumps", "Double unders"
  ]

  const PreferenceSuggestions: seq<string> := [
    "Prefer compound movements", "Like HIIT/circuits", "Focus on form over speed", "Minimal jumping",
    "No burpees please", "Love core work"
  ]

  /** The training step's local state. */
  datatype TrainingPicker = TrainingPicker(abilities: seq<string>, preferences: seq<string>, custom: string)

  const FreshTraining := TrainingPicker([], [], "")

  function ToggleAbility(t: TrainingPicker, a: string): (r: TrainingPicker)
    ensures a in r.abilities <==> a !in t.abilities
    ensures r.(abilities := t.abilities) == t
  {
    t.(abilities := Toggle(t.abilities, a))
  }

  function TogglePreference(t: TrainingPicker, p: string): (r: TrainingPicker)
    ensures p in r.preferences <==> p !in t.preferences
    ensures r.(preferences := t.preferences) == t
  {
    t.(preferences := Toggle(t.preferences, p))
  }

  /** The three possible sentences, each present only when it has content. */
  function TrainingParts(t: TrainingPicker): (parts: seq<string>)
    ensures forall k :: 0 <= k < |parts| ==> parts[k] != ""
    ensures |parts| == 0 <==> |t.abilities| == 0 && |t.preferences| == 0 && AllSpace(t.custom)
    ensures |t.abilities| > 0 ==> parts[0] == "Can do: " + Join(t.abilities, ", ")
    ensures |t.abilities| == 0 && |t.preferences| > 0 ==> parts[0] == "Preferences: " + Join(t.preferences, ", ")
    ensures !AllSpace(t.custom) ==> parts[|parts| - 1] == Trim(t.custom)
  {
    BlankIffAllSpace(t.custom);
    (if |t.abilities| > 0 then ["Can do: " + Join(t.abilities, ", ")] else [])
    + (if |t.preferences| > 0 then ["Preferences: " + Join(t.preferences, ", ")] else [])
    + (if Trim(t.custom) != "" then [Trim(t.custom)] else [])
  }

  /** `[...].filter(Boolean).join('. ') || undefined`: nothing when nothing
      was chosen or typed; otherwise the sentences in order, opening with
      the abilities and closing with the typed text. */
  function TrainingNotes(t: TrainingPicker): (r: Option<string>)
    ensures r.None? <==> |t.abilities| == 0 && |t.preferences| == 0 && AllSpace(t.custom)
    ensures r.Some? ==> r.value == Join(TrainingParts(t), ". ")
    ensures r.Some? && |t.abilities| > 0 ==> "Can do: " <= r.value
    ensures r.Some? && |t.abilities| == 0 && |t.preferences| > 0 ==> "Preferences: " <= r.value
    ensures r.Some? && !AllSpace(t.custom) ==> EndsWith(r.value, Trim(t.custom))
  {
    var parts := TrainingParts(t);
    if |parts| == 0 then None
    else
      JoinEnds(parts, ". ");
      assert "Can do: " <= "Can do: " + Join(t.abilities, ", ");
      assert "Preferences: " <= "Preferences: " + Join(t.preferences, ", ");
      Some(Join(parts, ". "))
  }

  /** "Continue" on the training step: sets the training notes, clearing
      them when there are none. Without a profile nothing changes. */
  function TrainingNext(st: UserState, t: TrainingPicker): (r: UserState)
    ensures st.profile.None? ==> r.profile.None?
    ensures st.profile.Some? ==> r.profile.Some? && r.profile.value.trainingNotes == TrainingNotes(t)
    ensures st.profile.Some? ==> r.profile.value.(trainingNotes := st.profile.value.trainingNotes) == st.profile.value
  {
    UpdateProfile(st, NoProfileChanges.(trainingNotes := Some(TrainingNotes(t))))
  }

  /** "Skip for now" leaves the profile alone, while "Continue" with nothing
      chosen clears notes kept from before. */
  function TrainingSkip(st: UserState): (r: UserState)
    ensures r == st
  {
    st
  }

  lemma ContinueEmptyClearsNotes(st: UserState)
    requires st.profile.Some?
    ensures TrainingNext(st, FreshTraining).profile.value.trainingNotes.None?
    ensures TrainingSkip(st).profile.value.trainingNotes == st.profile.value.trainingNotes
  {
    assert AllSpace("");
  }

  /** The single-sentence cases read back exactly. */
  lemma SingleSentenceNotes(t: TrainingPicker)
    ensures |t.abilities| == 0 && |t.preferences| == 0 && !AllSpace(t.custom) ==>
      TrainingNotes(t) == Some(Trim(t.custom))
    ensures |t.abilities| > 0 && |t.preferences| == 0 && AllSpace(t.custom) ==>
      TrainingNotes(t) == Some("Can do: " + Join(t.abilities, ", "))
  {
    BlankIffAllSpace(t.custom);
  }
}

=== FILE: progress_bar.dfy ===
/** The segmented progress bar under the timer: the timeline is cut into
    maximal runs of warm-up, main and cool-down items, each drawn with a
    width proportional to its item count and filled up to the current item. */
module ProgressBar {
  import opened Common
  import opened WorkoutTypes

  datatype SegmentType = WarmupSegment | MainSegment | CooldownSegment

  /** `getSegmentType`: rests count as main work, wherever they sit. */
  function SegmentTypeOf(t: TimerItemType): (s: SegmentType)
    ensures s == WarmupSegment <==> t == WarmupExerciseType
    ensures s == CooldownSegment <==> t == CooldownExerciseType
    ensures s == MainSegment <==> t != WarmupExerciseType && t != CooldownExerciseType
  {
    if t == WarmupExerciseType then WarmupSegment
    else if t == CooldownExerciseType then CooldownSegment
    else MainSegment
  }

  function ItemSegment(item: TimerItem): SegmentType {
    SegmentTypeOf(item.kind.Type())
  }

  /** A run of items of one type, both ends inclusive. */
  datatype Segment = Segment(segType: SegmentType, startIndex: nat, endIndex: nat, itemCount: nat)

  /** `segs` cuts `items[..n]` into consecutive, non-empty, maximal runs:
      they start at 0, end at n - 1, follow one another without gaps, every
      item in a run has the run's type, and neighbouring runs differ. */
  predicate Covers(items: seq<TimerItem>, segs: seq<Segment>, n: nat) {
    && n <= |items|
    && (n == 0 <==> |segs| == 0)
    && (|segs| > 0 ==> segs[0].startIndex == 0 && segs[|segs| - 1].endIndex == n - 1)
    && (forall k :: 0 <= k < |segs| ==>
          segs[k].startIndex <= segs[k].endIndex < n
          && segs[k].itemCount == segs[k].endIndex - segs[k].startIndex + 1)
    && (forall k :: 0 <= k < |segs| - 1 ==>
          segs[k + 1].startIndex == segs[k].endIndex + 1 && segs[k + 1].segType != segs[k].segType)
    && (forall k1, k2 :: 0 <= k1 < k2 < |segs| ==> segs[k1].endIndex < segs[k2].startIndex)
    && (forall k, j :: 0 <= k < |segs| && 0 <= j < n && segs[k].startIndex <= j <= segs[k].endIndex ==>
          ItemSegment(items[j]) == segs[k].segType)
  }

  /** Total item count of a list of segments. */
  function SumCounts(segs: seq<Segment>): nat {
    if |segs| == 0 then 0 else SumCounts(segs[..|segs| - 1]) + segs[|segs| - 1].itemCount
  }

  /** `calculateSegments`, as the source's single pass with an open
      segment that is pushed when an item of another type arrives. */
  method CalculateSegments(items: seq<TimerItem>) returns (segs: seq<Segment>)
    ensures |items| == 0 ==> segs == []
    ensures Covers(items, segs, |items|)
    ensures SumCounts(segs) == |items|
  {
    if |items| == 0 {
      return [];
    }
    segs := [];
    var current: Option<Segment> := None;
    var i := 0;
    while i < |items|
      invariant 0 <= i <= |items|
      invariant current.None? <==> i == 0
      invariant i == 0 ==> segs == []
      invariant current.Some? ==> Covers(items, segs + [current.value], i)
      invariant current.Some? ==> SumCounts(segs + [current.value]) == i
    {
      var next;
      segs, next := AddItem(items, segs, current, i);
      current := Some(next);
      i := i + 1;
    }
    segs := segs + [current.value];
  }

  /** One step of the pass: item `i` either grows the open segment or
      closes it (if any) and opens a new one of its own type. */
  method AddItem(items: seq<TimerItem>, segs: seq<Segment>, current: Option<Segment>, i: nat)
    returns (segs': seq<Segment>, current': Segment)
    requires i < |items|
    requires current.None? <==> i == 0
    requires i == 0 ==> segs == []
    requires current.Some? ==> Covers(items, segs + [current.value], i)
    requires current.Some? ==> SumCounts(segs + [current.value]) == i
    ensures Covers(items, segs' + [current'], i + 1)
    ensures SumCounts(segs' + [current']) == i + 1
  {
    var t := ItemSegment(items[i]);
    if current.None? {
      segs' := segs;
      current' := Segment(t, i, i, 1);
      FirstSegment(items, segs' + [current']);
    } else if current.value.segType != t {
      segs' := segs + [current.value];
      current' := Segment(t, i, i, 1);
      StartSegment(items, segs', current', i);
      SumCountsAppend(segs', current');
    } else {
      current' := current.value.(endIndex := i, itemCount := current.value.itemCount + 1);
      segs' := segs;
      GrowSegment(items, segs, current.value, current', i);
      SumCountsAppend(segs, current.value);
      SumCountsAppend(segs, current');
    }
  }

  lemma SumCountsAppend(segs: seq<Segment>, s: Segment)
    ensures SumCounts(segs + [s]) == SumCounts(segs) + s.itemCount
  {
    assert (segs + [s])[..|segs|] == segs;
  }

  lemma FirstSegment(items: seq<TimerItem>, one: seq<Segment>)
    requires |items| > 0 && one == [Segment(ItemSegment(items[0]), 0, 0, 1)]
    ensures Covers(items, one, 1)
    ensures SumCounts(one) == 1
  {
    assert one[..0] == [];
  }

  /** Opening a run of a new type at item `i` extends a covering by one. */
  lemma StartSegment(items: seq<TimerItem>, all: seq<Segment>, newSeg: Segment, i: nat)
    requires Covers(items, all, i) && 0 < i < |items|
    requires ItemSegment(items[i]) != all[|all| - 1].segType
    requires newSeg == Segment(ItemSegment(items[i]), i, i, 1)
    ensures Covers(items, all + [newSeg], i + 1)
  {
    var next := all + [newSeg];
    assert next[..|all|] == all;
    forall k, j | 0 <= k < |next| && 0 <= j < i + 1 && next[k].startIndex <= j <= next[k].endIndex
      ensures ItemSegment(items[j]) == next[k].segType
    {
      if k < |all| {
        assert next[k] == all[k];
      }
    }
  }

  /** Adding item `i` of the open run's type grows that run by one. */
  lemma GrowSegment(items: seq<TimerItem>, segs: seq<Segment>, c: Segment, grown: Segment, i: nat)
    requires Covers(items, segs + [c], i) && 0 < i < |items|
    requires ItemSegment(items[i]) == c.segType
    requires grown == c.(endIndex := i, itemCount := c.itemCount + 1)
    ensures Covers(items, segs + [grown], i + 1)
  {
    var before := segs + [c];
    var after := segs + [grown];
    assert before[..|segs|] == segs;
    assert after[..|segs|] == segs;
    forall k | 0 <= k < |segs|
      ensures after[k] == before[k]
    {
    }
    assert c.endIndex == i - 1;
    forall k | 0 <= k < |after|
      ensures after[k].startIndex <= after[k].endIndex < i + 1
      ensures after[k].itemCount == after[k].endIndex - after[k].startIndex + 1
    {
    }
    forall k | 0 <= k < |after| - 1
      ensures after[k + 1].startIndex == after[k].endIndex + 1 && after[k + 1].segType != after[k].segType
    {
      assert before[k + 1].startIndex == before[k].endIndex + 1;
    }
    forall k1, k2 | 0 <= k1 < k2 < |after|
      ensures after[k1].endIndex < after[k2].startIndex
    {
      assert before[k1].endIndex < before[k2].startIndex;
    }
    forall k, j | 0 <= k < |after| && 0 <= j < i + 1 && after[k].startIndex <= j <= after[k].endIndex
      ensures ItemSegment(items[j]) == after[k].segType
    {
      if k < |segs| {
        assert after[k] == before[k];
      } else if j < i {
        assert before[k] == c;
      }
    }
  }

  // ---------------------------------------------------------------------
  // Widths and fill
  // ---------------------------------------------------------------------

  /** `segment.itemCount / totalItems * 100`. */
  function WidthPercent(seg: Segment, total: nat): real
    requires total > 0
  {
    seg.itemCount as real / total as real * 100.0
  }

  function SumWidths(segs: seq<Segment>, total: nat): real
    requires total > 0
  {
    if |segs| == 0 then 0.0 else SumWidths(segs[..|segs| - 1], total) + WidthPercent(segs[|segs| - 1], total)
  }

  lemma {:induction false} SumWidthsIsShare(segs: seq<Segment>, total: nat)
    requires total > 0
    ensures SumWidths(segs, total) == SumCounts(segs) as real / total as real * 100.0
  {
    if |segs| > 0 {
      var init := segs[..|segs| - 1];
      SumWidthsIsShare(init, total);
      ShareAdds(SumCounts(init) as real, segs[|segs| - 1].itemCount as real, total as real);
    }
  }

  /** Shares of the same total add up. */
  lemma ShareAdds(a: real, b: real, t: real)
    requires t > 0.0
    ensures a / t * 100.0 + b / t * 100.0 == (a + b) / t * 100.0
  {
    assert a / t + b / t == (a + b) / t;
  }

  /** The widths of a full segmentation add up to the whole bar. */
  lemma WidthsFillTheBar(items: seq<TimerItem>, segs: seq<Segment>)
    requires |items| > 0 && SumCounts(segs) == |items|
    ensures SumWidths(segs, |items|) == 100.0
  {
    SumWidthsIsShare(segs, |items|);
    DivSelf(|items| as real);
  }

  lemma DivSelf(x: real)
    requires x > 0.0
    ensures x / x == 1.0
  {
    var q := x / x;
    assert q * x == x;
    assert (q - 1.0) * x == 0.0;
  }

  /** A proper share of a positive whole is below 100 percent. */
  lemma ShareBelowWhole(part: nat, whole: nat)
    requires part < whole
    ensures 0.0 <= part as real / whole as real * 100.0 < 100.0
  {
    var q := part as real / whole as real;
    assert q * whole as real == part as real;
  }

  /** Items of the segment already behind the current one. */
  function ItemsDone(seg: Segment, current: int): (d: int)
  {
    if current > seg.endIndex then seg.itemCount
    else if seg.startIndex <= current then current - seg.startIndex
    else 0
  }

  /** The fill rule: full once the current item is past the segment, empty
      before it, otherwise the share of the segment's items already done. */
  function FillPercent(seg: Segment, current: int): (f: real)
    requires seg.itemCount > 0
    ensures current > seg.endIndex ==> f == 100.0
    ensures current <= seg.endIndex && current < seg.startIndex ==> f == 0.0
    ensures seg.itemCount == seg.endIndex - seg.startIndex + 1 && seg.startIndex <= current <= seg.endIndex ==>
      0.0 <= f < 100.0
    ensures f == ItemsDone(seg, current) as real / seg.itemCount as real * 100.0
  {
    if current > seg.endIndex then
      DivSelf(seg.itemCount as real);
      100.0
    else if current >= seg.startIndex && current <= seg.endIndex then
      if seg.itemCount == seg.endIndex - seg.startIndex + 1 then
        ShareBelowWhole(current - seg.startIndex, seg.itemCount);
        (current - seg.startIndex) as real / seg.itemCount as real * 100.0
      else
        (current - seg.startIndex) as real / seg.itemCount as real * 100.0
    else 0.0
  }

  function SumDone(segs: seq<Segment>, current: int): int {
    if |segs| == 0 then 0 else SumDone(segs[..|segs| - 1], current) + ItemsDone(segs[|segs| - 1], current)
  }

  /** Dropping the last run leaves a covering of the items before it. */
  lemma CoversPrefix(items: seq<TimerItem>, segs: seq<Segment>, n: nat)
    requires Covers(items, segs, n) && |segs| > 0
    ensures Covers(items, segs[..|segs| - 1], segs[|segs| - 1].startIndex)
  {
    var m := |segs| - 1;
    var prefix := segs[..m];
    if m > 0 {
      assert segs[m].startIndex == segs[m - 1].endIndex + 1;
    }
    assert forall k :: 0 <= k < m ==> prefix[k] == segs[k];
  }

  /** Over a covering, the segments' done-counts add up to the current
      index: the bar as a whole is filled exactly to the current item. */
  lemma {:induction false} DoneAddsUpToCurrent(items: seq<TimerItem>, segs: seq<Segment>, n: nat, current: nat)
    requires Covers(items, segs, n) && current <= n
    ensures SumDone(segs, current) == current
    decreases |segs|
  {
    if |segs| > 0 {
      var last := segs[|segs| - 1];
      CoversPrefix(items, segs, n);
      if current <= last.startIndex {
        DoneAddsUpToCurrent(items, segs[..|segs| - 1], last.startIndex, current);
      } else {
        DoneAddsUpToCurrent(items, segs[..|segs| - 1], last.startIndex, last.startIndex);
        AllDoneBefore(items, segs[..|segs| - 1], last.startIndex, current);
      }
    }
  }

  /** Once the current index is past every covered item, every run counts
      as fully done, however far past it is. */
  lemma {:induction false} AllDoneBefore(items: seq<TimerItem>, segs: seq<Segment>, n: nat, current: int)
    requires Covers(items, segs, n) && current >= n
    ensures SumDone(segs, current) == SumDone(segs, n)
    decreases |segs|
  {
    if |segs| > 0 {
      CoversPrefix(items, segs, n);
      AllDoneBefore(items, segs[..|segs| - 1], segs[|segs| - 1].startIndex, current);
      AllDoneBefore(items, segs[..|segs| - 1], segs[|segs| - 1].startIndex, n);
    }
  }
}

=== FILE: review.dfy ===
/** The review screen's two state updates: the session draft built when the
    user starts the workout (handed to the timer together with the
    timeline), and the regeneration flow that replaces the workout after
    the user types feedback. The generator call itself is an input: its
    outcome is passed in as a `Result`. */
module Review {
  import opened Common
  import opened WorkoutTypes
  import opened Flatten
  import opened Timer

  // ---------------------------------------------------------------------
  // Starting the workout
  // ---------------------------------------------------------------------

  /** The session draft of `handleStartWorkout`: in progress, nothing done
      yet, sized to the flattened timeline. */
  function SessionDraft(w: GeneratedWorkout, f: FlattenedWorkout, id: string, now: int): (ss: WorkoutSession)
    ensures ss.status == InProgress
    ensures ss.completedItems == 0 && ss.percentComplete == 0
    ensures ss.actualDurationWorked == 0 && ss.estimatedCaloriesBurned == 0
    ensures ss.totalItems == f.totalItems
    ensures ss.workoutId == w.id && ss.workout == w
    ensures ss.startedAt == Some(now) && ss.completedAt.None? && ss.stoppedAt.None?
    ensures ss.stoppedAtItem.None? && ss.feedback.None?
  {
    WorkoutSession(id, w.id, w, InProgress, Some(now), None, None, 0, f.totalItems, 0, None, 0, 0, None)
  }

  /** The screen's workout state (the part of the workout store it uses). */
  datatype ReviewState = ReviewState(
    currentWorkout: Option<GeneratedWorkout>,
    flattenedWorkout: Option<FlattenedWorkout>,
    feedbackMessage: string,
    isGenerating: bool,
    showFeedback: bool,
    generationError: Option<string>)

  /** Start: with no workout or timeline the screen only offers "Go Back";
      otherwise the timer is initialised with the timeline and the draft. */
  function StartWorkout(rs: ReviewState, timer: TimerState, id: string, now: int): (r: Option<TimerState>)
    ensures r.Some? <==> rs.currentWorkout.Some? && rs.flattenedWorkout.Some?
    ensures r.Some? ==> r.value.status == Idle && r.value.items == rs.flattenedWorkout.value.items
    ensures r.Some? ==> r.value.session == Some(SessionDraft(rs.currentWorkout.value, rs.flattenedWorkout.value, id, now))
  {
    if rs.currentWorkout.Some? && rs.flattenedWorkout.Some? then
      var w := rs.currentWorkout.value;
      var f := rs.flattenedWorkout.value;
      Some(InitializeTimer(timer, f.items, SessionDraft(w, f, id, now)))
    else None
  }

  /** When the screen's timeline is the flattening of its workout (which
      both the generation flow and regeneration maintain), the session's
      item count is the length of the timeline the timer runs. */
  lemma StartedSessionMatchesTimeline(rs: ReviewState, timer: TimerState, id: string, now: int)
    requires rs.currentWorkout.Some?
    requires rs.flattenedWorkout == Some(FlattenWorkout(rs.currentWorkout.value))
    ensures var r := StartWorkout(rs, timer, id, now);
      && r.Some?
      && r.value.session.value.totalItems == |r.value.items|
      && r.value.session.value.workoutId == FlattenWorkout(rs.currentWorkout.value).workoutId
      && r.value.timeRemaining == (if |r.value.items| > 0 then r.value.items[0].duration else 0)
  {
  }

  // ---------------------------------------------------------------------
  // Regeneration
  // ---------------------------------------------------------------------

  /** The equipment set used for the request: the first default set,
      otherwise the first set, otherwise none. */
  function SelectedSet(sets: seq<EquipmentSet>): (r: Option<EquipmentSet>)
    ensures r.None? <==> |sets| == 0
    ensures r.Some? ==> r.value in sets
    ensures r.Some? && r.value.isDefault != Some(true) ==>
      r.value == sets[0] && forall k :: 0 <= k < |sets| ==> sets[k].isDefault != Some(true)
  {
    match FirstDefault(sets)
    case Some(k) => Some(sets[k])
    case None => if |sets| > 0 then Some(sets[0]) else None
  }

  /** Index of the first set marked default. */
  function FirstDefault(sets: seq<EquipmentSet>): (r: Option<nat>)
    ensures r.None? <==> forall k :: 0 <= k < |sets| ==> sets[k].isDefault != Some(true)
    ensures r.Some? ==> r.value < |sets| && sets[r.value].isDefault == Some(true)
    ensures r.Some? ==> forall k :: 0 <= k < r.value ==> sets[k].isDefault != Some(true)
  {
    if |sets| == 0 then None
    else if sets[0].isDefault == Some(true) then Some(0)
    else
      match FirstDefault(sets[1..])
      case None => None
      case Some(k) => Some(k + 1)
  }

  /** The names of every circuit exercise, circuit by circuit, in order
      (`circuits.flatMap(c => c.exercises.map(e => e.name))`). */
  function ExercisesUsed(circuits: seq<Circuit>): (names: seq<string>)
  {
    if |circuits| == 0 then []
    else ExerciseNames(circuits[0].exercises) + ExercisesUsed(circuits[1..])
  }

  function ExerciseNames(es: seq<Exercise>): (names: seq<string>)
    ensures |names| == |es|
    ensures forall j :: 0 <= j < |es| ==> names[j] == es[j].name
  {
    seq(|es|, j requires 0 <= j < |es| => es[j].name)
  }

  /** A name is listed exactly when some circuit has an exercise with that
      name; warm-up and cool-down exercises do not contribute. */
  lemma {:induction false} ExercisesUsedMembers(circuits: seq<Circuit>, name: string)
    ensures name in ExercisesUsed(circuits)
      <==> exists i, j :: 0 <= i < |circuits| && 0 <= j < |circuits[i].exercises|
                          && circuits[i].exercises[j].name == name
  {
    if |circuits| > 0 {
      ExercisesUsedMembers(circuits[1..], name);
      var head := ExerciseNames(circuits[0].exercises);
      if name in head {
        var j :| 0 <= j < |head| && head[j] == name;
        assert circuits[0].exercises[j].name == name;
      }
      if exists i, j :: 0 <= i < |circuits| && 0 <= j < |circuits[i].exercises| && circuits[i].exercises[j].name == name {
        var i, j :| 0 <= i < |circuits| && 0 <= j < |circuits[i].exercises| && circuits[i].exercises[j].name == name;
        if i == 0 {
          assert head[j] == name;
        } else {
          assert circuits[1..][i - 1].exercises[j].name == name;
        }
      }
      if name in ExercisesUsed(circuits[1..]) {
        var i, j :| 0 <= i < |circuits[1..]| && 0 <= j < |circuits[1..][i].exercises| && circuits[1..][i].exercises[j].name == name;
        assert circuits[i + 1].exercises[j].name == name;
      }
    }
  }

  /** The number of names listed is the number of circuit exercises. */
  function CircuitExerciseCount(circuits: seq<Circuit>): nat {
    if |circuits| == 0 then 0 else |circuits[0].exercises| + CircuitExerciseCount(circuits[1..])
  }

  lemma {:induction false} ExercisesUsedLength(circuits: seq<Circuit>)
    ensures |ExercisesUsed(circuits)| == CircuitExerciseCount(circuits)
  {
    if |circuits| > 0 {
      ExercisesUsedLength(circuits[1..]);
    }
  }

  /** What the regeneration request says about one recent session. */
  datatype RecentWorkout = RecentWorkout(
    name: string,
    focusAreas: seq<string>,
    exercisesUsed: seq<string>,
    completedAt: Option<int>,
    rpe: Option<int>,
    notes: Option<string>)

  /** `completedAt || startedAt || ''`, with `''` as `None`. */
  function SummaryOf(ss: WorkoutSession): (r: RecentWorkout)
    ensures r.name == ss.workout.name && r.exercisesUsed == ExercisesUsed(ss.workout.circuits)
    ensures ss.completedAt.Some? ==> r.completedAt == ss.completedAt
    ensures ss.completedAt.None? ==> r.completedAt == ss.startedAt
    ensures ss.feedback.None? ==> r.rpe.None? && r.notes.None?
  {
    RecentWorkout(
      ss.workout.name, ss.workout.focusAreas, ExercisesUsed(ss.workout.circuits),
      if ss.completedAt.Some? then ss.completedAt else ss.startedAt,
      if ss.feedback.Some? then ss.feedback.value.rpe else None,
      if ss.feedback.Some? then ss.feedback.value.notes else None)
  }

  /** The request parameters regeneration reads from the screen. */
  datatype RegenerationRequest = RegenerationRequest(
    userGoals: string,
    equipmentAvailable: seq<string>,
    requestedDuration: int,
    recentWorkouts: seq<RecentWorkout>,
    feedback: string)

  /** The guard: a profile is needed and the feedback must not be blank. */
  predicate CanRegenerate(profile: Option<UserProfile>, feedbackMessage: string) {
    profile.Some? && !IsBlank(feedbackMessage)
  }

  function BuildRequest(profile: UserProfile, feedbackMessage: string, selectedDuration: int,
                        recentSessions: seq<WorkoutSession>): (q: RegenerationRequest)
    ensures q.feedback == Trim(feedbackMessage)
    ensures |q.recentWorkouts| == |recentSessions|
    ensures forall k :: 0 <= k < |recentSessions| ==> q.recentWorkouts[k] == SummaryOf(recentSessions[k])
    ensures SelectedSet(profile.equipmentSets).None? ==> q.equipmentAvailable == []
    ensures SelectedSet(profile.equipmentSets).Some? ==>
      q.equipmentAvailable == SelectedSet(profile.equipmentSets).value.equipment
  {
    var selected := SelectedSet(profile.equipmentSets);
    RegenerationRequest(
      profile.fitnessGoals,
      if selected.Some? then selected.value.equipment else [],
      selectedDuration,
      seq(|recentSessions|, k requires 0 <= k < |recentSessions| => SummaryOf(recentSessions[k])),
      Trim(feedbackMessage))
  }

  /** `handleRegenerateWithFeedback`, from the press to the end of the
      `finally` block. `outcome` is what the generator returned for the
      request; it is not consulted when the guard fails. */
  function Regenerate(rs: ReviewState, profile: Option<UserProfile>, outcome: Result<GeneratedWorkout, string>): (r: ReviewState)
    ensures !CanRegenerate(profile, rs.feedbackMessage) ==> r == rs
    ensures CanRegenerate(profile, rs.feedbackMessage) ==> !r.isGenerating && !r.showFeedback
    ensures CanRegenerate(profile, rs.feedbackMessage) && outcome.Ok? ==>
      && r.currentWorkout == Some(outcome.value)
      && r.flattenedWorkout == Some(FlattenWorkout(outcome.value))
      && r.feedbackMessage == ""
      && r.generationError == rs.generationError
    ensures CanRegenerate(profile, rs.feedbackMessage) && outcome.Err? ==>
      && r.currentWorkout == rs.currentWorkout
      && r.flattenedWorkout == rs.flattenedWorkout
      && r.feedbackMessage == rs.feedbackMessage
      && r.generationError == Some(outcome.error)
  {
    if !CanRegenerate(profile, rs.feedbackMessage) then rs
    else
      var pending := rs.(isGenerating := true, showFeedback := false);
      var settled :=
        match outcome
        case Ok(w) => pending.(currentWorkout := Some(w), flattenedWorkout := Some(FlattenWorkout(w)), feedbackMessage := "")
        case Err(e) => pending.(generationError := Some(e));
      settled.(isGenerating := false)
  }

  /** Regeneration keeps the screen's timeline the flattening of its
      workout, so a later start still satisfies `StartedSessionMatchesTimeline`. */
  lemma RegenerationKeepsTimelineInSync(rs: ReviewState, profile: Option<UserProfile>, outcome: Result<GeneratedWorkout, string>)
    requires rs.currentWorkout.Some? && rs.flattenedWorkout == Some(FlattenWorkout(rs.currentWorkout.value))
    ensures var r := Regenerate(rs, profile, outcome);
      r.currentWorkout.Some? && r.flattenedWorkout == Some(FlattenWorkout(r.currentWorkout.value))
  {
  }

  /** Feedback made only of whitespace never triggers a request. */
  lemma WhitespaceFeedbackIsIgnored(rs: ReviewState, profile: Option<UserProfile>, outcome: Result<GeneratedWorkout, string>)
    requires AllSpace(rs.feedbackMessage)
    ensures Regenerate(rs, profile, outcome) == rs
  {
    BlankIffAllSpace(rs.feedbackMessage);
  }
}

=== FILE: timer.dfy ===
/** The workout timer store: a record of status, timeline, position and
    counters, and one pure step function per store action. The clock reading
    a step needs (`new Date()`) is a parameter `now`. */
module Timer {
  import opened Common
  import opened WorkoutTypes

  /** The store's six statuses; `Done` is the store's `'completed'`. */
  datatype TimerStatus = Idle | Countdown | Running | Paused | Done | Transition

  datatype TimerState = TimerState(
    status: TimerStatus,
    items: seq<TimerItem>,
    currentItemIndex: nat,
    timeRemaining: int,
    totalElapsed: int,
    session: Option<WorkoutSession>,
    countdownValue: int,
    showCountdown: bool,
    justCompletedItem: bool)

  /** The store's initial value, which `reset` restores. */
  const Pristine: TimerState := TimerState(Idle, [], 0, 0, 0, None, 3, false, false)

  /** The index points into the timeline (or is 0 on an empty one). Every
      action below keeps this true. */
  predicate Consistent(s: TimerState) {
    if |s.items| == 0 then s.currentItemIndex == 0 else s.currentItemIndex < |s.items|
  }

  // ---------------------------------------------------------------------
  // Session finalisation
  // ---------------------------------------------------------------------

  /** `Math.round(index / length * 100)`; an empty timeline gives 0. */
  function PercentOf(index: int, length: int): (p: int)
    ensures length > 0 && 0 <= index <= length ==> 0 <= p <= 100
    ensures length > 0 && index == length ==> p == 100
    ensures length <= 0 ==> p == 0
    ensures length > 0 ==> 2 * length * p <= 200 * index + length < 2 * length * (p + 1)
  {
    if length <= 0 then 0
    else
      var p := RoundDiv(100 * index, length);
      assert 0 <= index <= length ==> 0 <= p <= 100 by {
        if 0 <= index <= length {
          MulMonotone(100, index, length);
          RoundDivBetween(100 * index, length, 100);
        }
      }
      assert index == length ==> p == 100 by {
        if index == length {
          RoundDivExact(100, length);
        }
      }
      p
  }

  /** The session record written when the timeline runs out. */
  function CompletedSession(ss: WorkoutSession, now: int, itemCount: int, elapsed: int): (r: WorkoutSession)
    ensures r.status == WorkoutStatus.Completed && r.completedAt == Some(now)
    ensures r.completedItems == itemCount && r.percentComplete == 100
    ensures r.actualDurationWorked == elapsed
    ensures r.estimatedCaloriesBurned == ss.workout.estimatedCalories
    ensures r.id == ss.id && r.workout == ss.workout && r.startedAt == ss.startedAt
    ensures r.stoppedAt == ss.stoppedAt && r.stoppedAtItem == ss.stoppedAtItem && r.feedback == ss.feedback
  {
    ss.(status := WorkoutStatus.Completed, completedAt := Some(now), completedItems := itemCount,
        percentComplete := 100, actualDurationWorked := elapsed,
        estimatedCaloriesBurned := ss.workout.estimatedCalories)
  }

  /** Where the user stopped: the current item's coordinates and name. */
  function StoppedAt(t: TimerItem): (r: StoppedAtItem)
    ensures r.itemName == t.name
    ensures r.circuitIndex.Some? <==> t.kind.Type() != WarmupExerciseType && t.kind.Type() != CooldownExerciseType
    ensures r.exerciseIndex.Some? <==> t.kind.ExerciseOf().Some?
  {
    StoppedAtItem(t.kind.CircuitIndexOf(), t.kind.RoundIndexOf(), t.kind.ExerciseIndexOf(), t.name)
  }

  /** The session record written by `stopTimer`. Calories are left as they were. */
  function StoppedSession(ss: WorkoutSession, now: int, s: TimerState): (r: WorkoutSession)
    ensures r.status == StoppedEarly && r.stoppedAt == Some(now)
    ensures r.completedItems == s.currentItemIndex
    ensures r.actualDurationWorked == s.totalElapsed
    ensures Consistent(s) ==> 0 <= r.percentComplete <= 100
    ensures r.percentComplete == PercentOf(s.currentItemIndex, |s.items|)
    ensures r.estimatedCaloriesBurned == ss.estimatedCaloriesBurned
    ensures r.completedAt == ss.completedAt && r.workout == ss.workout && r.feedback == ss.feedback
    ensures r.stoppedAtItem.Some? <==> s.currentItemIndex < |s.items|
    ensures s.currentItemIndex < |s.items| ==> r.stoppedAtItem.value.itemName == s.items[s.currentItemIndex].name
  {
    ss.(status := StoppedEarly, stoppedAt := Some(now), completedItems := s.currentItemIndex,
        actualDurationWorked := s.totalElapsed,
        percentComplete := PercentOf(s.currentItemIndex, |s.items|),
        stoppedAtItem := if s.currentItemIndex < |s.items| then Some(StoppedAt(s.items[s.currentItemIndex])) else None)
  }

  // ---------------------------------------------------------------------
  // Store actions
  // ---------------------------------------------------------------------

  /** `initializeTimer`: idle at the first item with nothing elapsed. The
      countdown fields and the completion flag are not touched. */
  function InitializeTimer(s: TimerState, items: seq<TimerItem>, session: WorkoutSession): (r: TimerState)
    ensures r.status == Idle && r.items == items && r.session == Some(session)
    ensures r.currentItemIndex == 0 && r.totalElapsed == 0 && Consistent(r)
    ensures |items| > 0 ==> r.timeRemaining == items[0].duration
    ensures |items| == 0 ==> r.timeRemaining == 0
    ensures r.countdownValue == s.countdownValue && r.showCountdown == s.showCountdown
    ensures r.justCompletedItem == s.justCompletedItem
  {
    s.(status := Idle, items := items, currentItemIndex := 0,
       timeRemaining := if |items| > 0 then items[0].duration else 0,
       totalElapsed := 0, session := Some(session))
  }

  /** `startCountdown`: show the 3-2-1 countdown. */
  function StartCountdown(s: TimerState): (r: TimerState)
    ensures r.status == Countdown && r.showCountdown && r.countdownValue == 3
    ensures r.(status := s.status, showCountdown := s.showCountdown, countdownValue := s.countdownValue) == s
  {
    s.(status := Countdown, showCountdown := true, countdownValue := 3)
  }

  /** `startTimer`: running, countdown hidden. */
  function StartTimer(s: TimerState): (r: TimerState)
    ensures r.status == Running && !r.showCountdown
    ensures r.(status := s.status, showCountdown := s.showCountdown) == s
  {
    s.(status := Running, showCountdown := false)
  }

  /** `pauseTimer`: sets the status whatever it was. */
  function PauseTimer(s: TimerState): (r: TimerState)
    ensures r.status == Paused && r.(status := s.status) == s
  {
    s.(status := Paused)
  }

  /** `resumeTimer`: sets the status whatever it was. */
  function ResumeTimer(s: TimerState): (r: TimerState)
    ensures r.status == Running && r.(status := s.status) == s
  {
    s.(status := Running)
  }

  /** `startTransitionCountdown`. */
  function StartTransitionCountdown(s: TimerState): (r: TimerState)
    ensures r.status == Transition && r.showCountdown && r.countdownValue == 3
    ensures r.(status := s.status, showCountdown := s.showCountdown, countdownValue := s.countdownValue) == s
  {
    s.(status := Transition, showCountdown := true, countdownValue := 3)
  }

  /** `finishTransition`: the same change as `startTimer`. */
  function FinishTransition(s: TimerState): TimerState {
    StartTimer(s)
  }

  function SetCountdownValue(s: TimerState, value: int): (r: TimerState)
    ensures r.countdownValue == value && r.(countdownValue := s.countdownValue) == s
  {
    s.(countdownValue := value)
  }

  function SetShowCountdown(s: TimerState, show: bool): (r: TimerState)
    ensures r.showCountdown == show && r.(showCountdown := s.showCountdown) == s
  {
    s.(showCountdown := show)
  }

  function ClearJustCompletedItem(s: TimerState): (r: TimerState)
    ensures !r.justCompletedItem && r.(justCompletedItem := s.justCompletedItem) == s
  {
    s.(justCompletedItem := false)
  }

  /** `reset`: every field back to its initial value. */
  function Reset(s: TimerState): (r: TimerState)
    ensures r.status == Idle && r.items == [] && r.session == None
    ensures r.currentItemIndex == 0 && r.timeRemaining == 0 && r.totalElapsed == 0
    ensures r.countdownValue == 3 && !r.showCountdown && !r.justCompletedItem
  {
    Pristine
  }

  /** `stopTimer`: with a session, go idle and record the stop; without one,
      nothing happens. */
  function StopTimer(s: TimerState, now: int): (r: TimerState)
    ensures s.session.None? ==> r == s
    ensures s.session.Some? ==>
      && r.status == Idle
      && r.session == Some(StoppedSession(s.session.value, now, s))
      && r.(status := s.status, session := s.session) == s
  {
    match s.session
    case None => s
    case Some(ss) => s.(status := Idle, session := Some(StoppedSession(ss, now, s)))
  }

  /** `moveToNextItem`: past the last item the workout is completed (the
      index stays on the last item and the final second is not added);
      otherwise the next item starts in `running` and one second is added. */
  function MoveToNextItem(s: TimerState, now: int): (r: TimerState)
    ensures Consistent(s) ==> Consistent(r)
    ensures r.items == s.items && r.justCompletedItem == s.justCompletedItem
    ensures r.countdownValue == s.countdownValue && r.showCountdown == s.showCountdown
    ensures s.currentItemIndex + 1 >= |s.items| ==>
      && r.status == Done
      && r.currentItemIndex == s.currentItemIndex
      && r.timeRemaining == s.timeRemaining
      && r.totalElapsed == s.totalElapsed
      && r.session.Some? == s.session.Some?
      && (s.session.Some? ==> r.session.value == CompletedSession(s.session.value, now, |s.items|, s.totalElapsed))
    ensures s.currentItemIndex + 1 < |s.items| ==>
      && r.status == Running
      && r.currentItemIndex == s.currentItemIndex + 1
      && r.timeRemaining == s.items[r.currentItemIndex].duration
      && r.totalElapsed == s.totalElapsed + 1
      && r.session == s.session
  {
    var next := s.currentItemIndex + 1;
    if next >= |s.items| then
      s.(status := Done,
         session := match s.session
                    case None => None
                    case Some(ss) => Some(CompletedSession(ss, now, |s.items|, s.totalElapsed)))
    else
      s.(status := Running, currentItemIndex := next, timeRemaining := s.items[next].duration,
         totalElapsed := s.totalElapsed + 1)
  }

  /** `tick`: one second. Only a running timer moves; a second that does
      not finish the item counts down, the one that does raises the
      completion flag and advances. */
  function Tick(s: TimerState, now: int): (r: TimerState)
    ensures s.status != Running ==> r == s
    ensures Consistent(s) ==> Consistent(r)
    ensures r.items == s.items
    ensures s.status == Running && s.timeRemaining > 1 ==>
      r == s.(timeRemaining := s.timeRemaining - 1, totalElapsed := s.totalElapsed + 1)
    ensures s.status == Running && s.timeRemaining <= 1 ==>
      r.justCompletedItem && r == MoveToNextItem(s.(justCompletedItem := true), now)
  {
    if s.status != Running then s
    else if s.timeRemaining > 1 then
      s.(timeRemaining := s.timeRemaining - 1, totalElapsed := s.totalElapsed + 1)
    else
      MoveToNextItem(s.(justCompletedItem := true), now)
  }

  /** `skipToNext`, in any status. Before the last item it moves on and adds
      the part of the current item already done (`duration - timeRemaining`)
      to the elapsed time; on the last item it completes the workout without
      adding anything. */
  function SkipToNext(s: TimerState, now: int): (r: TimerState)
    ensures Consistent(s) ==> Consistent(r)
    ensures r.items == s.items && r.justCompletedItem == s.justCompletedItem
    ensures s.currentItemIndex + 1 >= |s.items| ==> r == MoveToNextItem(s, now) && r.status == Done
    ensures s.currentItemIndex + 1 < |s.items| ==>
      && r.currentItemIndex == s.currentItemIndex + 1
      && r.timeRemaining == s.items[r.currentItemIndex].duration
      && r.totalElapsed == s.totalElapsed + (s.items[s.currentItemIndex].duration - s.timeRemaining)
      && r.status == s.status && r.session == s.session
  {
    var next := s.currentItemIndex + 1;
    if next >= |s.items| then MoveToNextItem(s, now)
    else
      s.(currentItemIndex := next, timeRemaining := s.items[next].duration,
         totalElapsed := s.totalElapsed + (s.items[s.currentItemIndex].duration - s.timeRemaining))
  }

  /** `goToPrevious`: back one item with its full duration; elapsed time is
      kept. At index 0 nothing happens; an index past the end of the
      timeline makes the source throw, which leaves the store unchanged. */
  function GoToPrevious(s: TimerState): (r: TimerState)
    ensures Consistent(s) ==> Consistent(r)
    ensures r.totalElapsed == s.totalElapsed && r.status == s.status && r.items == s.items
    ensures s.currentItemIndex == 0 ==> r == s
    ensures 0 < s.currentItemIndex <= |s.items| ==>
      && r.currentItemIndex == s.currentItemIndex - 1
      && r.timeRemaining == s.items[r.currentItemIndex].duration
      && r.(currentItemIndex := s.currentItemIndex, timeRemaining := s.timeRemaining) == s
  {
    if s.currentItemIndex > 0 && s.currentItemIndex - 1 < |s.items| then
      var prev := s.currentItemIndex - 1;
      s.(currentItemIndex := prev, timeRemaining := s.items[prev].duration)
    else s
  }

  // ---------------------------------------------------------------------
  // Running the timeline
  // ---------------------------------------------------------------------

  /** `n` successive ticks, all at clock reading `now`. */
  function Ticks(s: TimerState, n: nat, now: int): TimerState
    decreases n
  {
    if n == 0 then s else Ticks(Tick(s, now), n - 1, now)
  }

  predicate AllPositive(items: seq<TimerItem>) {
    forall k :: 0 <= k < |items| ==> items[k].duration >= 1
  }

  /** While a timeline runs: a valid index and a countdown between 1 and the
      current item's duration. */
  predicate RunInvariant(s: TimerState) {
    && 0 <= s.currentItemIndex < |s.items|
    && 1 <= s.timeRemaining <= s.items[s.currentItemIndex].duration
  }

  /** Seconds left until the end of the timeline: the current countdown
      plus the durations of every later item. */
  function Remaining(s: TimerState): int {
    if s.currentItemIndex < |s.items| then s.timeRemaining + SumDurations(s.items[s.currentItemIndex + 1..])
    else s.timeRemaining
  }

  lemma SumFrom(items: seq<TimerItem>, i: nat)
    requires i < |items|
    ensures SumDurations(items[i..]) == items[i].duration + SumDurations(items[i + 1..])
  {
    assert items[i..] == [items[i]] + items[i + 1..];
    SumDurationsAppend([items[i]], items[i + 1..]);
    assert [items[i]][..0] == [];
  }

  lemma {:induction false} SumPositive(items: seq<TimerItem>)
    requires AllPositive(items)
    ensures SumDurations(items) >= |items|
  {
    if |items| > 0 {
      SumPositive(items[..|items| - 1]);
    }
  }

  /** One tick of a running timeline either counts the current item down,
      or starts the next item, or completes the workout; each case adds
      exactly the seconds stated and moves the end of the timeline one
      second closer. */
  lemma TickStep(s: TimerState, now: int)
    requires s.status == Running && RunInvariant(s) && AllPositive(s.items)
    ensures var r := Tick(s, now);
      || (r.status == Running && RunInvariant(r) && r.currentItemIndex == s.currentItemIndex
          && r.timeRemaining == s.timeRemaining - 1 && r.totalElapsed == s.totalElapsed + 1
          && Remaining(r) == Remaining(s) - 1)
      || (r.status == Running && RunInvariant(r) && r.currentItemIndex == s.currentItemIndex + 1
          && r.timeRemaining == s.items[r.currentItemIndex].duration && r.totalElapsed == s.totalElapsed + 1
          && r.justCompletedItem && Remaining(r) == Remaining(s) - 1)
      || (r.status == Done && Remaining(s) == 1 && r.currentItemIndex == |s.items| - 1
          && r.totalElapsed == s.totalElapsed && r.justCompletedItem)
  {
    var i := s.currentItemIndex;
    if s.timeRemaining <= 1 && i + 1 < |s.items| {
      SumFrom(s.items, i + 1);
    } else if s.timeRemaining <= 1 {
      assert s.items[i + 1..] == [];
    }
  }

  /** Running a timeline of positive durations from any running position:
      exactly `Remaining(s)` ticks reach `completed`, every earlier tick
      leaves the timer running with a valid position and one more second
      elapsed, and the final tick adds no second, so the elapsed time ends
      one short of the seconds ticked. */
  lemma {:induction false} RunToCompletion(s: TimerState, now: int)
    requires s.status == Running && RunInvariant(s) && AllPositive(s.items)
    ensures Remaining(s) >= 1
    ensures forall k :: 0 <= k < Remaining(s) ==>
      Ticks(s, k, now).status == Running && RunInvariant(Ticks(s, k, now))
      && Ticks(s, k, now).items == s.items && Ticks(s, k, now).totalElapsed == s.totalElapsed + k
      && Ticks(s, k, now).session == s.session
    ensures var r := Ticks(s, Remaining(s), now);
      && r.status == Done
      && r.currentItemIndex == |s.items| - 1
      && r.totalElapsed == s.totalElapsed + Remaining(s) - 1
      && (s.session.Some? ==>
            r.session == Some(CompletedSession(s.session.value, now, |s.items|, r.totalElapsed)))
    decreases Remaining(s)
  {
    SumPositive(s.items[s.currentItemIndex + 1..]);
    TickStep(s, now);
    var r1 := Tick(s, now);
    if r1.status == Done {
      LastTick(s, now);
    } else {
      RunToCompletion(r1, now);
      TickThenRun(s, now);
    }
  }

  /** The case of `RunToCompletion` where one second is left. */
  lemma LastTick(s: TimerState, now: int)
    requires s.status == Running && RunInvariant(s) && AllPositive(s.items)
    requires Tick(s, now).status == Done
    ensures Remaining(s) >= 1
    ensures forall k :: 0 <= k < Remaining(s) ==>
      Ticks(s, k, now).status == Running && RunInvariant(Ticks(s, k, now))
      && Ticks(s, k, now).items == s.items && Ticks(s, k, now).totalElapsed == s.totalElapsed + k
      && Ticks(s, k, now).session == s.session
    ensures var r := Ticks(s, Remaining(s), now);
      && r.status == Done
      && r.currentItemIndex == |s.items| - 1
      && r.totalElapsed == s.totalElapsed + Remaining(s) - 1
      && (s.session.Some? ==>
            r.session == Some(CompletedSession(s.session.value, now, |s.items|, r.totalElapsed)))
  {
    TickStep(s, now);
    assert Ticks(s, 1, now) == Tick(s, now);
  }

  /** The case of `RunToCompletion` where the first tick keeps the timer
      running: the rest of the run is the run from after that tick. */
  lemma TickThenRun(s: TimerState, now: int)
    requires s.status == Running && RunInvariant(s) && AllPositive(s.items)
    requires Tick(s, now).status == Running && Remaining(Tick(s, now)) == Remaining(s) - 1
    requires Tick(s, now).items == s.items && Tick(s, now).totalElapsed == s.totalElapsed + 1
    requires Tick(s, now).session == s.session
    requires Remaining(Tick(s, now)) >= 1
    requires forall k :: 0 <= k < Remaining(Tick(s, now)) ==>
      Ticks(Tick(s, now), k, now).status == Running && RunInvariant(Ticks(Tick(s, now), k, now))
      && Ticks(Tick(s, now), k, now).items == Tick(s, now).items && Ticks(Tick(s, now), k, now).totalElapsed == Tick(s, now).totalElapsed + k
      && Ticks(Tick(s, now), k, now).session == Tick(s, now).session
    requires var r := Ticks(Tick(s, now), Remaining(Tick(s, now)), now);
      && r.status == Done
      && r.currentItemIndex == |Tick(s, now).items| - 1
      && r.totalElapsed == Tick(s, now).totalElapsed + Remaining(Tick(s, now)) - 1
      && (Tick(s, now).session.Some? ==>
            r.session == Some(CompletedSession(Tick(s, now).session.value, now, |Tick(s, now).items|, r.totalElapsed)))
    ensures Remaining(s) >= 1
    ensures forall k :: 0 <= k < Remaining(s) ==>
      Ticks(s, k, now).status == Running && RunInvariant(Ticks(s, k, now))
      && Ticks(s, k, now).items == s.items && Ticks(s, k, now).totalElapsed == s.totalElapsed + k
      && Ticks(s, k, now).session == s.session
    ensures var r := Ticks(s, Remaining(s), now);
      && r.status == Done
      && r.currentItemIndex == |s.items| - 1
      && r.totalElapsed == s.totalElapsed + Remaining(s) - 1
      && (s.session.Some? ==>
            r.session == Some(CompletedSession(s.session.value, now, |s.items|, r.totalElapsed)))
  {
    var r1 := Tick(s, now);
    forall k | 0 <= k < Remaining(s)
      ensures Ticks(s, k, now).status == Running && RunInvariant(Ticks(s, k, now))
      ensures Ticks(s, k, now).items == s.items && Ticks(s, k, now).totalElapsed == s.totalElapsed + k
      ensures Ticks(s, k, now).session == s.session
    {
      if k > 0 {
        TicksShift(s, k, now);
      }
    }
    ShiftedEnd(s, r1, Ticks(r1, Remaining(r1), now), now);
  }

  /** The last state of a run is the last state of the run one tick later. */
  lemma ShiftedEnd(s: TimerState, r1: TimerState, r: TimerState, now: int)
    requires r1 == Tick(s, now) && Remaining(r1) == Remaining(s) - 1 && Remaining(s) >= 1
    requires r1.items == s.items && r1.totalElapsed == s.totalElapsed + 1 && r1.session == s.session
    requires r == Ticks(r1, Remaining(r1), now)
    requires && r.status == Done
      && r.currentItemIndex == |r1.items| - 1
      && r.totalElapsed == r1.totalElapsed + Remaining(r1) - 1
      && (r1.session.Some? ==>
            r.session == Some(CompletedSession(r1.session.value, now, |r1.items|, r.totalElapsed)))
    ensures r == Ticks(s, Remaining(s), now)
    ensures && r.status == Done
      && r.currentItemIndex == |s.items| - 1
      && r.totalElapsed == s.totalElapsed + Remaining(s) - 1
      && (s.session.Some? ==>
            r.session == Some(CompletedSession(s.session.value, now, |s.items|, r.totalElapsed)))
  {
    TicksShift(s, Remaining(s), now);
  }

  lemma TicksShift(s: TimerState, k: nat, now: int)
    requires k > 0
    ensures Ticks(s, k, now) == Ticks(Tick(s, now), k - 1, now)
  {
  }

  /** From a freshly initialised timer whose countdown has finished, a
      timeline of positive durations completes after exactly the sum of its
      durations in ticks, and the recorded session reports one second less
      than that as the time worked. */
  lemma FreshRunCompletes(s0: TimerState, items: seq<TimerItem>, session: WorkoutSession, now: int)
    requires |items| > 0 && AllPositive(items)
    ensures SumDurations(items) >= |items|
    ensures var s := StartTimer(InitializeTimer(s0, items, session));
      && Remaining(s) == SumDurations(items)
      && Ticks(s, SumDurations(items), now).status == Done
      && Ticks(s, SumDurations(items), now).session
         == Some(CompletedSession(session, now, |items|, SumDurations(items) - 1))
  {
    var s := StartTimer(InitializeTimer(s0, items, session));
    SumPositive(items);
    SumFrom(items, 0);
    assert items[0..] == items;
    RunToCompletion(s, now);
  }

  /** A paused (or otherwise not running) timer ignores any number of ticks. */
  lemma {:induction false} TicksFrozenUnlessRunning(s: TimerState, n: nat, now: int)
    requires s.status != Running
    ensures Ticks(s, n, now) == s
  {
    if n > 0 {
      TicksFrozenUnlessRunning(s, n - 1, now);
    }
  }

  /** Pausing then resuming a running timer restores it exactly. */
  lemma PauseResume(s: TimerState)
    requires s.status == Running
    ensures ResumeTimer(PauseTimer(s)) == s
  {
  }

  /** Going back and then skipping forward over an item returns to the same
      item, restarted at its full duration, with the total elapsed time and
      the status as they were. */
  lemma PreviousThenSkip(s: TimerState, now: int)
    requires Consistent(s) && 0 < s.currentItemIndex
    ensures var r := SkipToNext(GoToPrevious(s), now);
      && r.currentItemIndex == s.currentItemIndex
      && r.timeRemaining == s.items[s.currentItemIndex].duration
      && r.totalElapsed == s.totalElapsed
      && r.status == s.status
  {
  }

  /** Every store action keeps the index inside the timeline. */
  lemma ActionsKeepConsistent(s: TimerState, items: seq<TimerItem>, session: WorkoutSession, now: int, n: nat)
    requires Consistent(s)
    ensures Consistent(Ticks(s, n, now))
    ensures Consistent(StopTimer(s, now)) && Consistent(Reset(s))
    ensures Consistent(InitializeTimer(s, items, session))
    decreases n
  {
    if n > 0 {
      ActionsKeepConsistent(Tick(s, now), items, session, now, n - 1);
    }
  }
}

=== FILE: timer_screen.dfy ===
/** The rules the timer screen derives from the timer state: which side of
    the body is active, which audio cue fires on which second, when the
    countdown overlays show, how the controls drive the store, and the
    session record written when the user ends a workout early. Audio is
    reduced to the cue that would be played. */
module TimerScreen {
  import opened Common
  import opened WorkoutTypes
  import opened Flatten
  import opened Timer

  datatype Side = Left | Right

  /** The audible cues the screen can emit. */
  datatype Cue = CountdownNumber(n: int) | Go | HalfwayWarning | SideSwitch | WorkoutComplete

  // ---------------------------------------------------------------------
  // Current item and side switching
  // ---------------------------------------------------------------------

  function CurrentItem(s: TimerState): (r: Option<TimerItem>)
    ensures r.Some? <==> s.currentItemIndex < |s.items|
    ensures r.Some? ==> r.value == s.items[s.currentItemIndex]
  {
    if s.currentItemIndex < |s.items| then Some(s.items[s.currentItemIndex]) else None
  }

  /** `Math.floor(duration / 2)`; Dafny's division by 2 already floors. */
  function Midpoint(duration: int): (m: int)
    ensures 2 * m <= duration < 2 * m + 2
  {
    duration / 2
  }

  /** `currentItem?.exercise?.switchSides ?? false`. */
  predicate HasSideSwitching(s: TimerState) {
    match CurrentItem(s)
    case None => false
    case Some(t) =>
      match t.kind.ExerciseOf()
      case None => false
      case Some(e) => e.switchSides == Some(true)
  }

  /** `currentItem?.duration ?? 0`. */
  function ExerciseDuration(s: TimerState): int {
    match CurrentItem(s)
    case None => 0
    case Some(t) => t.duration
  }

  /** LEFT while more than half of the item remains, RIGHT afterwards. */
  function CurrentSide(s: TimerState): (side: Side)
    ensures side == Left <==> s.timeRemaining > Midpoint(ExerciseDuration(s))
  {
    if s.timeRemaining > Midpoint(ExerciseDuration(s)) then Left else Right
  }

  /** The side indicator is rendered only for exercises that switch sides. */
  predicate SideIndicatorShown(s: TimerState) {
    CurrentItem(s).Some? && HasSideSwitching(s)
  }

  /** Rest items never show a side: only exercises carry `switchSides`. */
  lemma RestsShowNoSide(s: TimerState)
    requires CurrentItem(s).Some? && IsRestItem(CurrentItem(s).value.kind.Type())
    ensures !SideIndicatorShown(s)
  {
    RestIffNoExercise(CurrentItem(s).value.kind);
  }

  /** Of the countdown values `1..k`, how many show LEFT on an item of
      duration `d`. */
  function LeftSeconds(d: int, k: nat): nat {
    if k == 0 then 0 else LeftSeconds(d, k - 1) + (if k > Midpoint(d) then 1 else 0)
  }

  lemma {:induction false} LeftSecondsClosed(d: nat, k: nat)
    ensures LeftSeconds(d, k) == if k > Midpoint(d) then k - Midpoint(d) else 0
  {
    if k > 0 {
      LeftSecondsClosed(d, k - 1);
    }
  }

  /** Over the seconds of a switch-sides exercise of duration `d`, LEFT is
      shown `d - floor(d/2)` times and RIGHT `floor(d/2)` times: the first
      half goes to the left side, which gets the extra second of an odd
      duration. */
  lemma SideHalves(d: nat)
    ensures LeftSeconds(d, d) == d - Midpoint(d)
    ensures d - LeftSeconds(d, d) == Midpoint(d)
    ensures 0 <= LeftSeconds(d, d) - (d - LeftSeconds(d, d)) <= 1
  {
    LeftSecondsClosed(d, d);
  }

  // ---------------------------------------------------------------------
  // Cue timing
  // ---------------------------------------------------------------------

  /** The side-switch effect: previous value above the midpoint, current
      value at the midpoint (and positive), while running. */
  predicate SideSwitchCueFires(status: TimerStatus, hasSideSwitching: bool, prev: Option<int>,
                               timeRemaining: int, midpoint: int)
  {
    && status == Running && hasSideSwitching && prev.Some?
    && prev.value > midpoint
    && timeRemaining <= midpoint && timeRemaining > 0
    && timeRemaining == midpoint
  }

  /** Within one item the countdown takes each value once, so the cue fires
      on exactly one step: the one that lands on a positive midpoint. On the
      first render of an item (previous value from the item before) it never
      fires, because the fresh countdown is above the midpoint. */
  lemma SideSwitchOnce(d: int, prevTr: int, tr: int)
    requires prevTr == tr + 1
    ensures SideSwitchCueFires(Running, true, Some(prevTr), tr, Midpoint(d))
      <==> tr == Midpoint(d) && Midpoint(d) >= 1
  {
  }

  lemma SideSwitchNotOnFreshItem(d: int, prev: Option<int>)
    ensures !SideSwitchCueFires(Running, true, prev, d, Midpoint(d))
  {
  }

  predicate EndingCountdownShown(s: TimerState) {
    s.status == Running && 1 <= s.timeRemaining <= 3
  }

  predicate InitialCountdownShown(s: TimerState) {
    s.showCountdown && s.status == Countdown
  }

  /** The halfway warning: running, on a non-rest item, at exactly the
      midpoint, and only when the midpoint is above 3. */
  predicate HalfwayWarningFires(s: TimerState) {
    match CurrentItem(s)
    case None => false
    case Some(t) =>
      s.status == Running && !IsRestItem(t.kind.Type())
      && s.timeRemaining == Midpoint(t.duration) && Midpoint(t.duration) > 3
  }

  /** The halfway warning never plays over the ending countdown, and never
      on a rest or on an item shorter than 8 seconds. */
  lemma HalfwayAvoidsEnding(s: TimerState)
    requires HalfwayWarningFires(s)
    ensures !EndingCountdownShown(s)
    ensures CurrentItem(s).value.duration >= 8
    ensures CurrentItem(s).value.kind.ExerciseOf().Some?
  {
    RestIffNoExercise(CurrentItem(s).value.kind);
  }

  /** The interval callback's cue, played before `tick`. */
  function PreTickCue(timeRemaining: int): (c: Option<Cue>)
    ensures c.Some? <==> 2 <= timeRemaining <= 4
  {
    if 2 <= timeRemaining <= 4 then Some(CountdownNumber(timeRemaining - 1)) else None
  }

  /** The pre-tick cue announces exactly the value the tick is about to
      display, and that value is inside the ending-countdown overlay. */
  lemma PreTickCueMatchesDisplay(s: TimerState, now: int)
    requires s.status == Running && PreTickCue(s.timeRemaining).Some?
    ensures PreTickCue(s.timeRemaining).value == CountdownNumber(Tick(s, now).timeRemaining)
    ensures EndingCountdownShown(Tick(s, now))
    ensures Tick(s, now).currentItemIndex == s.currentItemIndex
  {
  }

  /** The item-change effect: while running, a newly entered item whose
      countdown starts at 1..3 announces that value at once. */
  function NewItemCue(status: TimerStatus, prevIndex: int, index: int, timeRemaining: int): (c: Option<Cue>)
    ensures c.Some? <==> status == Running && prevIndex != index && 1 <= timeRemaining <= 3
    ensures c.Some? ==> c.value == CountdownNumber(timeRemaining)
  {
    if status == Running && prevIndex != index && 1 <= timeRemaining <= 3 then
      Some(CountdownNumber(timeRemaining))
    else None
  }

  /** One run of the item-change effect: the cue it plays, and the new
      value of the remembered index, which catches up with the current
      index whatever the status. */
  function ItemChangeEffect(status: TimerStatus, prevRef: int, index: int, timeRemaining: int): (r: (Option<Cue>, int))
    ensures r.1 == index
    ensures r.0.Some? ==> status == Running && prevRef != index
    ensures r.0 == NewItemCue(status, prevRef, index, timeRemaining)
  {
    (NewItemCue(status, prevRef, index, timeRemaining), index)
  }

  /** For an item of duration `d` entered while running from a different
      item, each value `v` the ending overlay shows is announced exactly
      once: by the item-change effect when the item starts at `v`,
      otherwise by the pre-tick cue of the second before. */
  lemma EveryEndingValueAnnouncedOnce(prevIndex: int, index: int, d: int, v: int)
    requires prevIndex != index
    requires 1 <= v <= 3 && v <= d
    ensures var byPreTick := v + 1 <= d && PreTickCue(v + 1) == Some(CountdownNumber(v));
            var byNewItem := ItemChangeEffect(Running, prevIndex, index, d).0 == Some(CountdownNumber(v));
            byPreTick != byNewItem
  {
  }

  /** The value an item starts at goes unannounced when the item was not
      entered while running: the first item after 3-2-1-GO, whose index the
      effect already remembers from the first render, and an item reached
      by skip or previous while paused, whose index the effect records
      silently so that resuming does not announce it either. */
  lemma StartValueSilentUnlessEnteredRunning(status: TimerStatus, prevRef: int, index: int, d: int)
    requires 1 <= d <= 3
    ensures ItemChangeEffect(Running, index, index, d).0.None?
    ensures status != Running ==> ItemChangeEffect(status, prevRef, index, d) == (None, index)
    ensures var remembered := ItemChangeEffect(status, prevRef, index, d).1;
            ItemChangeEffect(Running, remembered, index, d).0.None?
  {
  }

  // ---------------------------------------------------------------------
  // Initial countdown driver
  // ---------------------------------------------------------------------

  /** One firing of the countdown effect: while counting down, a positive
      value is announced and decremented; zero plays GO and starts the
      timer. Outside `countdown` the effect does nothing. */
  function CountdownStep(s: TimerState): (r: (Option<Cue>, TimerState))
    ensures s.status != Countdown ==> r == (None, s)
    ensures s.status == Countdown && s.countdownValue > 0 ==>
      r == (Some(CountdownNumber(s.countdownValue)), SetCountdownValue(s, s.countdownValue - 1))
    ensures s.status == Countdown && s.countdownValue <= 0 ==> r == (Some(Go), StartTimer(s))
  {
    if s.status != Countdown then (None, s)
    else if s.countdownValue > 0 then
      (Some(CountdownNumber(s.countdownValue)), SetCountdownValue(s, s.countdownValue - 1))
    else (Some(Go), StartTimer(s))
  }

  /** `n` firings of the countdown effect and the cues they play. */
  function DriveCountdown(s: TimerState, n: nat): (seq<Cue>, TimerState)
    decreases n
  {
    if n == 0 then ([], s)
    else
      var step := CountdownStep(s);
      var rest := DriveCountdown(step.1, n - 1);
      ((if step.0.Some? then [step.0.value] else []) + rest.0, rest.1)
  }

  /** The screen's start effect: an idle timer with a timeline starts the
      countdown. */
  function ScreenStart(s: TimerState): (r: TimerState)
    ensures s.status == Idle && |s.items| > 0 ==> r == StartCountdown(s)
    ensures !(s.status == Idle && |s.items| > 0) ==> r == s
  {
    if s.status == Idle && |s.items| > 0 then StartCountdown(s) else s
  }

  /** Opening the screen on an initialised timer plays 3, 2, 1, GO over four
      firings and leaves the timer running on the first item with nothing
      elapsed, the countdown hidden and the timeline untouched. */
  lemma CountdownPlaysThreeTwoOneGo(s0: TimerState, items: seq<TimerItem>, session: WorkoutSession)
    requires |items| > 0
    ensures var s := ScreenStart(InitializeTimer(s0, items, session));
            var cues := DriveCountdown(s, 4).0;
            var r := DriveCountdown(s, 4).1;
      && cues == [CountdownNumber(3), CountdownNumber(2), CountdownNumber(1), Go]
      && r.status == Running && !r.showCountdown && r.countdownValue == 0
      && r.items == items && r.currentItemIndex == 0
      && r.timeRemaining == items[0].duration && r.totalElapsed == 0
  {
    var s := ScreenStart(InitializeTimer(s0, items, session));
    var s1 := SetCountdownValue(s, 2);
    var s2 := SetCountdownValue(s1, 1);
    var s3 := SetCountdownValue(s2, 0);
    assert s == StartCountdown(InitializeTimer(s0, items, session));
    assert CountdownStep(s) == (Some(CountdownNumber(3)), s1);
    assert CountdownStep(s1) == (Some(CountdownNumber(2)), s2);
    assert CountdownStep(s2) == (Some(CountdownNumber(1)), s3);
    assert CountdownStep(s3) == (Some(Go), StartTimer(s3));
    assert DriveCountdown(StartTimer(s3), 0) == ([], StartTimer(s3));
    DriveCountdownUnfold(s3, 0);
    DriveCountdownUnfold(s2, 1);
    DriveCountdownUnfold(s1, 2);
    DriveCountdownUnfold(s, 3);
    assert [CountdownNumber(3)] + ([CountdownNumber(2)] + ([CountdownNumber(1)] + ([Go] + [])))
      == [CountdownNumber(3), CountdownNumber(2), CountdownNumber(1), Go];
  }

  lemma DriveCountdownUnfold(s: TimerState, n: nat)
    ensures DriveCountdown(s, n + 1).0
      == (if CountdownStep(s).0.Some? then [CountdownStep(s).0.value] else [])
         + DriveCountdown(CountdownStep(s).1, n).0
    ensures DriveCountdown(s, n + 1).1 == DriveCountdown(CountdownStep(s).1, n).1
  {
  }

  // ---------------------------------------------------------------------
  // Controls
  // ---------------------------------------------------------------------

  /** The pause/resume button: pauses only a running timer and resumes only
      a paused one; in any other status the press does nothing. */
  function HandlePauseResume(s: TimerState): (r: TimerState)
    ensures s.status == Running ==> r == PauseTimer(s)
    ensures s.status == Paused ==> r == ResumeTimer(s)
    ensures s.status != Running && s.status != Paused ==> r == s
    ensures r.(status := s.status) == s
  {
    if s.status == Running then PauseTimer(s)
    else if s.status == Paused then ResumeTimer(s)
    else s
  }

  /** Two presses of the button restore the timer; a finished or idle
      timer cannot be restarted with it. */
  lemma PauseResumeInvolution(s: TimerState)
    ensures HandlePauseResume(HandlePauseResume(s)) == s
    ensures s.status != Running && s.status != Paused ==> HandlePauseResume(s).status == s.status
  {
  }

  /** The Previous button is disabled at the first item. */
  predicate PreviousEnabled(s: TimerState) {
    s.currentItemIndex != 0
  }

  /** The button is disabled exactly when pressing it would do nothing. */
  lemma PreviousEnabledIffMoves(s: TimerState)
    requires Consistent(s)
    ensures PreviousEnabled(s) <==> GoToPrevious(s).currentItemIndex != s.currentItemIndex
  {
  }

  // ---------------------------------------------------------------------
  // Ending a workout
  // ---------------------------------------------------------------------

  /** `Math.round(estimatedCalories * index / length)`; an empty timeline
      gives 0. */
  function ProratedCalories(estimated: int, index: int, length: int): (c: int)
    ensures length > 0 ==> 2 * length * c <= 2 * estimated * index + length < 2 * length * (c + 1)
    ensures length <= 0 ==> c == 0
  {
    if length > 0 then RoundDiv(estimated * index, length) else 0
  }

  /** Prorating by items done stays within the estimate, gives nothing at
      the first item and the whole estimate past the last. */
  lemma ProratedCaloriesBounds(estimated: int, index: int, length: int)
    requires length > 0 && estimated >= 0 && 0 <= index <= length
    ensures 0 <= ProratedCalories(estimated, index, length) <= estimated
    ensures index == 0 ==> ProratedCalories(estimated, index, length) == 0
    ensures index == length ==> ProratedCalories(estimated, index, length) == estimated
  {
    MulMonotone(estimated, index, length);
    assert estimated * length == length * estimated;
    RoundDivBetween(estimated * index, length, estimated);
    RoundDivExact(estimated, length);
    RoundDivExact(0, length);
  }

  /** The record `handleStop` hands to the history: the render-time session
      marked stopped early, with calories prorated by items done. */
  function StopEarlyRecord(ss: WorkoutSession, s: TimerState, now: int): (r: WorkoutSession)
    ensures r.status == StoppedEarly && r.stoppedAt == Some(now)
    ensures r.completedItems == s.currentItemIndex && r.actualDurationWorked == s.totalElapsed
    ensures r.estimatedCaloriesBurned
      == ProratedCalories(ss.workout.estimatedCalories, s.currentItemIndex, |s.items|)
    ensures r.stoppedAtItem == ss.stoppedAtItem
    ensures r.percentComplete == PercentOf(s.currentItemIndex, |s.items|)
  {
    ss.(status := StoppedEarly, stoppedAt := Some(now), completedItems := s.currentItemIndex,
        actualDurationWorked := s.totalElapsed,
        percentComplete := PercentOf(s.currentItemIndex, |s.items|),
        estimatedCaloriesBurned := ProratedCalories(ss.workout.estimatedCalories, s.currentItemIndex, |s.items|))
  }

  /** The screen's record agrees with the store's `stopTimer` record except
      that it prorates calories and keeps the session's own
      `stoppedAtItem` (so the store's coordinates are lost). */
  lemma StopRecordVersusStore(ss: WorkoutSession, s: TimerState, now: int)
    ensures StopEarlyRecord(ss, s, now)
      == StoppedSession(ss, now, s).(
           estimatedCaloriesBurned := ProratedCalories(ss.workout.estimatedCalories, s.currentItemIndex, |s.items|),
           stoppedAtItem := ss.stoppedAtItem)
  {
  }

  datatype StopOutcome = StopOutcome(timer: TimerState, recorded: Option<WorkoutSession>)

  /** Confirming "End Workout": stop the store, hand the record built from
      the render-time state to the history, and reset the timer. */
  function HandleStop(s: TimerState, now: int): (r: StopOutcome)
    ensures r.timer == Reset(s)
    ensures r.recorded.Some? <==> s.session.Some?
    ensures s.session.Some? ==> r.recorded.value == StopEarlyRecord(s.session.value, s, now)
  {
    var stopped := StopTimer(s, now);
    var recorded := match s.session
      case None => None
      case Some(ss) => Some(StopEarlyRecord(ss, s, now));
    StopOutcome(Reset(stopped), recorded)
  }

  /** The completion effect: a finished timer with a session hands it to
      the history. */
  function CompletionRecord(s: TimerState): (r: Option<WorkoutSession>)
    ensures r.Some? <==> s.status == Done && s.session.Some?
    ensures r.Some? ==> r.value == s.session.value
  {
    if s.status == Done then s.session else None
  }

  /** After a full run the history receives a completed session with
      every item done and the full calorie estimate. */
  lemma FullRunRecordsCompletion(s0: TimerState, items: seq<TimerItem>, session: WorkoutSession, now: int)
    requires |items| > 0 && AllPositive(items)
    ensures SumDurations(items) >= 1
    ensures var s := StartTimer(InitializeTimer(s0, items, session));
      var rec := CompletionRecord(Ticks(s, SumDurations(items), now));
      && rec.Some?
      && rec.value.status == WorkoutStatus.Completed
      && rec.value.completedItems == |items|
      && rec.value.percentComplete == 100
      && rec.value.estimatedCaloriesBurned == session.workout.estimatedCalories
  {
    FreshRunCompletes(s0, items, session, now);
  }
}

=== FILE: user_store.dfy ===
/** The user store: the profile (absent until onboarding saves one), its
    equipment sets, and the list of recently used custom instructions.
    Every profile mutator leaves an absent profile absent. */
module UserStore {
  import opened Common
  import opened WorkoutTypes

  /** The most custom instructions kept. */
  const MaxInstructions: nat := 20

  datatype UserState = UserState(
    profile: Option<UserProfile>,
    isLoading: bool,
    savedCustomInstructions: seq<string>)

  const InitialUserState := UserState(None, false, [])

  /** `setProfile`. */
  function SetProfile(st: UserState, p: UserProfile): (r: UserState)
    ensures r.profile == Some(p)
    ensures r.savedCustomInstructions == st.savedCustomInstructions
  {
    st.(profile := Some(p))
  }

  // ---------------------------------------------------------------------
  // Partial updates (`{ ...profile, ...updates }`)
  // ---------------------------------------------------------------------

  /** A `Partial<UserProfile>`: `None` is an absent key. For an optional
      field, `Some(None)` is a key present with the value `undefined`, which
      the spread copies over the old value. */
  datatype ProfilePatch = ProfilePatch(
    id: Option<string>,
    createdAt: Option<int>,
    age: Option<Option<int>>,
    weight: Option<Option<real>>,
    goalWeight: Option<Option<real>>,
    weightUnit: Option<WeightUnit>,
    fitnessGoals: Option<string>,
    trainingNotes: Option<Option<string>>,
    equipmentSets: Option<seq<EquipmentSet>>,
    preferredWorkoutDuration: Option<int>,
    hasCompletedOnboarding: Option<bool>)

  const NoProfileChanges := ProfilePatch(None, None, None, None, None, None, None, None, None, None, None)

  function Pick<T>(update: Option<T>, current: T): (v: T)
    ensures update.Some? ==> v == update.value
    ensures update.None? ==> v == current
  {
    if update.Some? then update.value else current
  }

  /** `q` is `{ ...p, ...u }`, stated key by key. */
  predicate ProfilePatched(p: UserProfile, u: ProfilePatch, q: UserProfile) {
    && KeyApplied(u.id, p.id, q.id)
    && KeyApplied(u.createdAt, p.createdAt, q.createdAt)
    && KeyApplied(u.age, p.age, q.age)
    && KeyApplied(u.weight, p.weight, q.weight)
    && KeyApplied(u.goalWeight, p.goalWeight, q.goalWeight)
    && KeyApplied(u.weightUnit, p.weightUnit, q.weightUnit)
    && KeyApplied(u.fitnessGoals, p.fitnessGoals, q.fitnessGoals)
    && KeyApplied(u.trainingNotes, p.trainingNotes, q.trainingNotes)
    && KeyApplied(u.equipmentSets, p.equipmentSets, q.equipmentSets)
    && KeyApplied(u.preferredWorkoutDuration, p.preferredWorkoutDuration, q.preferredWorkoutDuration)
    && KeyApplied(u.hasCompletedOnboarding, p.hasCompletedOnboarding, q.hasCompletedOnboarding)
  }

  function MergeProfile(p: UserProfile, u: ProfilePatch): UserProfile {
    UserProfile(
      Pick(u.id, p.id),
      Pick(u.createdAt, p.createdAt),
      Pick(u.age, p.age),
      Pick(u.weight, p.weight),
      Pick(u.goalWeight, p.goalWeight),
      Pick(u.weightUnit, p.weightUnit),
      Pick(u.fitnessGoals, p.fitnessGoals),
      Pick(u.trainingNotes, p.trainingNotes),
      Pick(u.equipmentSets, p.equipmentSets),
      Pick(u.preferredWorkoutDuration, p.preferredWorkoutDuration),
      Pick(u.hasCompletedOnboarding, p.hasCompletedOnboarding))
  }

  /** `updateProfile`: the supplied keys win, the others keep their value. */
  function UpdateProfile(st: UserState, u: ProfilePatch): (r: UserState)
    ensures st.profile.None? ==> r.profile.None?
    ensures st.profile.Some? ==> r.profile.Some? && ProfilePatched(st.profile.value, u, r.profile.value)
    ensures r.savedCustomInstructions == st.savedCustomInstructions
  {
    st.(profile := if st.profile.Some? then Some(MergeProfile(st.profile.value, u)) else None)
  }

  /** An empty update changes nothing, and applying the same update twice
      is the same as applying it once. */
  lemma UpdateProfileIdempotent(st: UserState, u: ProfilePatch)
    ensures UpdateProfile(st, NoProfileChanges) == st
    ensures UpdateProfile(UpdateProfile(st, u), u) == UpdateProfile(st, u)
  {
  }

  // ---------------------------------------------------------------------
  // Equipment sets
  // ---------------------------------------------------------------------

  /** Replaces the profile's equipment sets, or leaves an absent profile. */
  function WithSets(st: UserState, f: seq<EquipmentSet> -> seq<EquipmentSet>): (r: UserState)
    ensures st.profile.None? ==> r == st
    ensures st.profile.Some? ==> r.profile == Some(st.profile.value.(equipmentSets := f(st.profile.value.equipmentSets)))
    ensures r.savedCustomInstructions == st.savedCustomInstructions
  {
    if st.profile.Some? then
      st.(profile := Some(st.profile.value.(equipmentSets := f(st.profile.value.equipmentSets))))
    else st
  }

  /** `addEquipmentSet`: appends at the end. */
  function AddEquipmentSet(st: UserState, s: EquipmentSet): (r: UserState)
    ensures st.profile.None? ==> r == st
    ensures st.profile.Some? ==> r.profile.Some? && r.profile.value.equipmentSets == st.profile.value.equipmentSets + [s]
    ensures st.profile.Some? ==> r.profile.value.(equipmentSets := st.profile.value.equipmentSets) == st.profile.value
  {
    WithSets(st, sets => sets + [s])
  }

  /** A `Partial<EquipmentSet>`, with the same conventions as a profile patch. */
  datatype SetPatch = SetPatch(
    id: Option<string>,
    name: Option<string>,
    equipment: Option<seq<string>>,
    notes: Option<Option<string>>,
    isDefault: Option<Option<bool>>)

  /** `t` is `{ ...s, ...u }`, stated key by key. */
  predicate SetPatched(s: EquipmentSet, u: SetPatch, t: EquipmentSet) {
    && KeyApplied(u.id, s.id, t.id)
    && KeyApplied(u.name, s.name, t.name)
    && KeyApplied(u.equipment, s.equipment, t.equipment)
    && KeyApplied(u.notes, s.notes, t.notes)
    && KeyApplied(u.isDefault, s.isDefault, t.isDefault)
  }

  function MergeSet(s: EquipmentSet, u: SetPatch): EquipmentSet {
    EquipmentSet(Pick(u.id, s.id), Pick(u.name, s.name), Pick(u.equipment, s.equipment),
      Pick(u.notes, s.notes), Pick(u.isDefault, s.isDefault))
  }

  function MergeMatching(sets: seq<EquipmentSet>, id: string, u: SetPatch): (r: seq<EquipmentSet>)
    ensures |r| == |sets|
    ensures forall k :: 0 <= k < |sets| && sets[k].id != id ==> r[k] == sets[k]
    ensures forall k :: 0 <= k < |sets| && sets[k].id == id ==> r[k] == MergeSet(sets[k], u)
  {
    if |sets| == 0 then []
    else [if sets[0].id == id then MergeSet(sets[0], u) else sets[0]] + MergeMatching(sets[1..], id, u)
  }

  /** `updateEquipmentSet`: merges into the sets with the id, in place. */
  function UpdateEquipmentSet(st: UserState, id: string, u: SetPatch): (r: UserState)
    ensures st.profile.None? ==> r == st
    ensures st.profile.Some? ==> r.profile.Some?
    ensures st.profile.Some? && r.profile.Some? ==> (
      var before := st.profile.value.equipmentSets;
      var after := r.profile.value.equipmentSets;
      && |after| == |before|
      && (forall k :: 0 <= k < |before| && before[k].id != id ==> after[k] == before[k])
      && (forall k :: 0 <= k < |before| && before[k].id == id ==> SetPatched(before[k], u, after[k])))
    ensures st.profile.Some? ==> r.profile.value.(equipmentSets := st.profile.value.equipmentSets) == st.profile.value
    ensures r.savedCustomInstructions == st.savedCustomInstructions
  {
    WithSets(st, sets => MergeMatching(sets, id, u))
  }

  function DropSet(sets: seq<EquipmentSet>, id: string): (r: seq<EquipmentSet>)
    ensures forall s :: s in r <==> s in sets && s.id != id
    ensures (forall k :: 0 <= k < |sets| ==> sets[k].id != id) ==> r == sets
    ensures |r| <= |sets|
  {
    if |sets| == 0 then []
    else
      assert forall s :: s in sets <==> s == sets[0] || s in sets[1..];
      if sets[0].id == id then DropSet(sets[1..], id) else [sets[0]] + DropSet(sets[1..], id)
  }

  /** Filtering distributes over concatenation, so the kept sets stay in
      their original order with their original multiplicity. */
  lemma {:induction false} DropSetAppend(a: seq<EquipmentSet>, b: seq<EquipmentSet>, id: string)
    ensures DropSet(a + b, id) == DropSet(a, id) + DropSet(b, id)
  {
    if |a| == 0 {
      assert a + b == b;
    } else {
      assert (a + b)[0] == a[0];
      assert (a + b)[1..] == a[1..] + b;
      DropSetAppend(a[1..], b, id);
    }
  }

  /** A single set is kept exactly when its id differs. */
  lemma DropSetSingleton(s: EquipmentSet, id: string)
    ensures DropSet([s], id) == if s.id == id then [] else [s]
  {
  }

  /** `deleteEquipmentSet`: removes every set with the id. */
  function DeleteEquipmentSet(st: UserState, id: string): (r: UserState)
    ensures st.profile.None? ==> r == st
    ensures st.profile.Some? ==> r.profile.Some?
    ensures st.profile.Some? && r.profile.Some? ==>
      forall s :: s in r.profile.value.equipmentSets <==> s in st.profile.value.equipmentSets && s.id != id
    ensures st.profile.Some? ==> r.profile.value.equipmentSets == DropSet(st.profile.value.equipmentSets, id)
    ensures st.profile.Some? ==> r.profile.value.(equipmentSets := st.profile.value.equipmentSets) == st.profile.value
  {
    WithSets(st, sets => DropSet(sets, id))
  }

  lemma {:induction false} DropAppended(sets: seq<EquipmentSet>, s: EquipmentSet)
    requires forall k :: 0 <= k < |sets| ==> sets[k].id != s.id
    ensures DropSet(sets + [s], s.id) == sets
  {
    if |sets| == 0 {
      assert [s][1..] == [];
    } else {
      assert (sets + [s])[1..] == sets[1..] + [s];
      DropAppended(sets[1..], s);
    }
  }

  /** Deleting a set just added under a fresh id restores the profile. */
  lemma DeleteUndoesAdd(st: UserState, s: EquipmentSet)
    requires st.profile.Some?
    requires forall k :: 0 <= k < |st.profile.value.equipmentSets| ==> st.profile.value.equipmentSets[k].id != s.id
    ensures DeleteEquipmentSet(AddEquipmentSet(st, s), s.id) == st
  {
    DropAppended(st.profile.value.equipmentSets, s);
  }

  function MarkDefault(sets: seq<EquipmentSet>, id: string): (r: seq<EquipmentSet>)
    ensures |r| == |sets|
    ensures forall k :: 0 <= k < |sets| ==> r[k] == sets[k].(isDefault := Some(sets[k].id == id))
  {
    if |sets| == 0 then []
    else [sets[0].(isDefault := Some(sets[0].id == id))] + MarkDefault(sets[1..], id)
  }

  /** `setDefaultEquipmentSet`: afterwards a set is the default exactly when
      its id matches; nothing else about any set changes. */
  function SetDefaultEquipmentSet(st: UserState, id: string): (r: UserState)
    ensures st.profile.None? ==> r == st
    ensures st.profile.Some? ==> r.profile.Some?
    ensures st.profile.Some? && r.profile.Some? ==> (
      var before := st.profile.value.equipmentSets;
      var after := r.profile.value.equipmentSets;
      && |after| == |before|
      && (forall k :: 0 <= k < |after| ==> (after[k].isDefault == Some(true) <==> after[k].id == id))
      && (forall k :: 0 <= k < |after| ==> after[k].isDefault.Some?)
      && (forall k :: 0 <= k < |after| ==> after[k].(isDefault := before[k].isDefault) == before[k]))
    ensures st.profile.Some? ==> r.profile.value.(equipmentSets := st.profile.value.equipmentSets) == st.profile.value
    ensures r.savedCustomInstructions == st.savedCustomInstructions
  {
    WithSets(st, sets => MarkDefault(sets, id))
  }

  /** Choosing the same default twice is the same as choosing it once. */
  lemma SetDefaultIdempotent(st: UserState, id: string)
    ensures SetDefaultEquipmentSet(SetDefaultEquipmentSet(st, id), id) == SetDefaultEquipmentSet(st, id)
  {
    if st.profile.Some? {
      var once := MarkDefault(st.profile.value.equipmentSets, id);
      assert MarkDefault(once, id) == once;
    }
  }

  // ---------------------------------------------------------------------
  // Onboarding flag
  // ---------------------------------------------------------------------

  function SetOnboarded(st: UserState, done: bool): (r: UserState)
    ensures st.profile.None? ==> r == st
    ensures st.profile.Some? ==> r.profile == Some(st.profile.value.(hasCompletedOnboarding := done))
  {
    if st.profile.Some? then st.(profile := Some(st.profile.value.(hasCompletedOnboarding := done))) else st
  }

  /** `completeOnboarding`. */
  function CompleteOnboarding(st: UserState): (r: UserState)
    ensures st.profile.None? ==> r == st
    ensures st.profile.Some? ==> r.profile.Some? && r.profile.value.hasCompletedOnboarding
    ensures st.profile.Some? ==> r.profile.value.(hasCompletedOnboarding := st.profile.value.hasCompletedOnboarding) == st.profile.value
  {
    SetOnboarded(st, true)
  }

  /** `resetOnboarding`. */
  function ResetOnboarding(st: UserState): (r: UserState)
    ensures st.profile.None? ==> r == st
    ensures st.profile.Some? ==> r.profile.Some? && !r.profile.value.hasCompletedOnboarding
    ensures st.profile.Some? ==> r.profile.value.(hasCompletedOnboarding := st.profile.value.hasCompletedOnboarding) == st.profile.value
  {
    SetOnboarded(st, false)
  }

  /** Resetting undoes completing for a profile that had not finished. */
  lemma ResetUndoesComplete(st: UserState)
    requires st.profile.Some? ==> !st.profile.value.hasCompletedOnboarding
    ensures ResetOnboarding(CompleteOnboarding(st)) == st
  {
  }

  // ---------------------------------------------------------------------
  // Saved custom instructions
  // ---------------------------------------------------------------------

  /** `addCustomInstruction`: saves the trimmed text first, dropping the
      oldest beyond twenty; blank or already saved text changes nothing. */
  function AddCustomInstruction(st: UserState, instruction: string): (r: UserState)
    ensures IsBlank(instruction) || Trim(instruction) in st.savedCustomInstructions ==> r == st
    ensures !IsBlank(instruction) && Trim(instruction) !in st.savedCustomInstructions ==>
      && r.profile == st.profile
      && |r.savedCustomInstructions| > 0
      && r.savedCustomInstructions[0] == Trim(instruction)
      && |r.savedCustomInstructions| <= MaxInstructions
      && r.savedCustomInstructions[1..] <= st.savedCustomInstructions
      && |r.savedCustomInstructions| == (if |st.savedCustomInstructions| < MaxInstructions then |st.savedCustomInstructions| + 1 else MaxInstructions)
  {
    var trimmed := Trim(instruction);
    if trimmed == "" || trimmed in st.savedCustomInstructions then st
    else
      var all := [trimmed] + st.savedCustomInstructions;
      var kept := if |all| <= MaxInstructions then all else all[..MaxInstructions];
      assert kept[1..] == all[1..|kept|];
      st.(savedCustomInstructions := kept)
  }

  /** The saved list never holds a duplicate, never exceeds twenty, and
      holds only trimmed, non-empty text. */
  predicate InstructionsOk(st: UserState) {
    && NoDuplicates(st.savedCustomInstructions)
    && |st.savedCustomInstructions| <= MaxInstructions
    && forall k :: 0 <= k < |st.savedCustomInstructions| ==> Trimmed(st.savedCustomInstructions[k])
  }

  lemma AddCustomInstructionKeepsInvariant(st: UserState, instruction: string)
    requires InstructionsOk(st)
    ensures InstructionsOk(AddCustomInstruction(st, instruction))
  {
    var trimmed := Trim(instruction);
    if trimmed != "" && trimmed !in st.savedCustomInstructions {
      var r := AddCustomInstruction(st, instruction).savedCustomInstructions;
      var saved := st.savedCustomInstructions;
      forall i, j | 0 <= i < j < |r|
        ensures r[i] != r[j]
      {
        assert r[j] == saved[j - 1];
        if i > 0 {
          assert r[i] == saved[i - 1];
        }
      }
    }
  }

  /** `clearCustomInstructions`. */
  function ClearCustomInstructions(st: UserState): (r: UserState)
    ensures r.savedCustomInstructions == [] && r.profile == st.profile
    ensures InstructionsOk(r)
  {
    st.(savedCustomInstructions := [])
  }
}

=== FILE: uuid.dfy ===
/** The byte path of the app's `uuid()`: sixteen random bytes, stamped with
    the version and variant bits of a version-4 UUID (sections 4.1.3 and
    4.1.1 of RFC 4122), rendered as lower-case hex in the 8-4-4-4-12 layout.
    The random bytes are a parameter. */
module Uuid {

  /** `n.toString(16)` for a single hex digit. */
  function HexDigit(n: nat): (c: char)
    requires n < 16
    ensures IsHexChar(c)
    ensures HexValue(c) == n
  {
    if n < 10 then ('0' as int + n) as char else ('a' as int + n - 10) as char
  }

  predicate IsHexChar(c: char) {
    ('0' <= c <= '9') || ('a' <= c <= 'f')
  }

  function HexValue(c: char): (n: nat)
    requires IsHexChar(c)
    ensures n < 16
  {
    if '0' <= c <= '9' then c as int - '0' as int else c as int - 'a' as int + 10
  }

  /** `b.toString(16).padStart(2, '0')`: always two digits, high nibble first. */
  function ByteHex(b: bv8): (s: string)
    ensures |s| == 2
    ensures IsHexChar(s[0]) && IsHexChar(s[1])
    ensures HexValue(s[0]) * 16 + HexValue(s[1]) == b as int
  {
    [HexDigit(b as int / 16), HexDigit(b as int % 16)]
  }

  /** `Array.from(bytes, byteHex).join('')`. */
  function Hex(bytes: seq<bv8>): (s: string)
    ensures |s| == 2 * |bytes|
    ensures forall k :: 0 <= k < |bytes| ==> s[2 * k..2 * k + 2] == ByteHex(bytes[k])
  {
    if |bytes| == 0 then ""
    else
      var rest := Hex(bytes[1..]);
      var s := ByteHex(bytes[0]) + rest;
      forall k | 0 < k < |bytes|
        ensures s[2 * k..2 * k + 2] == ByteHex(bytes[k])
      {
        assert s[2 * k..2 * k + 2] == rest[2 * (k - 1)..2 * (k - 1) + 2];
      }
      s
  }

  /** Stamps the version nibble into byte 6 and the variant bits into byte 8. */
  function Stamp(bytes: seq<bv8>): (r: seq<bv8>)
    requires |bytes| == 16
    ensures |r| == 16
    ensures forall k :: 0 <= k < 16 && k != 6 && k != 8 ==> r[k] == bytes[k]
    ensures r[6] as int / 16 == 4 && r[6] as int % 16 == bytes[6] as int % 16
    ensures r[8] as int / 64 == 2 && r[8] as int % 64 == bytes[8] as int % 64
  {
    VersionBits(bytes[6]);
    VariantBits(bytes[8]);
    bytes[6 := (bytes[6] & 0x0f) | 0x40][8 := (bytes[8] & 0x3f) | 0x80]
  }

  /** `(b & 0x0f) | 0x40` keeps the low nibble and sets the high one to 4. */
  lemma VersionBits(b: bv8)
    ensures ((b & 0x0f) | 0x40) as int == b as int % 16 + 64
  {
  }

  /** `(b & 0x3f) | 0x80` keeps the low six bits and sets the top two to 10. */
  lemma VariantBits(b: bv8)
    ensures ((b & 0x3f) | 0x80) as int == b as int % 64 + 128
  {
  }

  /** The 8-4-4-4-12 layout of 32 hex digits. */
  function Layout(hex: string): (s: string)
    requires |hex| == 32
    ensures |s| == 36
  {
    hex[..8] + "-" + hex[8..12] + "-" + hex[12..16] + "-" + hex[16..20] + "-" + hex[20..]
  }

  /** `uuid()` on the `getRandomValues` path, given the random bytes. */
  function FromBytes(bytes: seq<bv8>): (s: string)
    requires |bytes| == 16
    ensures |s| == 36
  {
    Layout(Hex(Stamp(bytes)))
  }

  predicate IsHyphenPos(i: int) {
    i == 8 || i == 13 || i == 18 || i == 23
  }

  /** Which hex digit sits at position `i` of the layout. */
  function HexIndex(i: nat): (j: nat)
    requires i < 36 && !IsHyphenPos(i)
    ensures j < 32
  {
    if i < 8 then i else if i < 13 then i - 1 else if i < 18 then i - 2 else if i < 23 then i - 3 else i - 4
  }

  lemma LayoutPositions(hex: string)
    requires |hex| == 32
    ensures forall i :: 0 <= i < 36 && IsHyphenPos(i) ==> Layout(hex)[i] == '-'
    ensures forall i :: 0 <= i < 36 && !IsHyphenPos(i) ==> Layout(hex)[i] == hex[HexIndex(i)]
  {
    var s := Layout(hex);
    LayoutPieces(hex);
    forall i | 0 <= i < 36 && !IsHyphenPos(i)
      ensures s[i] == hex[HexIndex(i)]
    {
      if i < 8 {
        assert s[..8][i] == s[i];
      } else if i < 13 {
        assert s[9..13][i - 9] == s[i];
      } else if i < 18 {
        assert s[14..18][i - 14] == s[i];
      } else if i < 23 {
        assert s[19..23][i - 19] == s[i];
      } else {
        assert s[24..][i - 24] == s[i];
      }
    }
  }

  /** Where the five groups of digits and the four hyphens land. */
  lemma LayoutPieces(hex: string)
    requires |hex| == 32
    ensures var s := Layout(hex);
      && s[..8] == hex[..8] && s[9..13] == hex[8..12] && s[14..18] == hex[12..16]
      && s[19..23] == hex[16..20] && s[24..] == hex[20..]
      && s[8] == '-' && s[13] == '-' && s[18] == '-' && s[23] == '-'
  {
    var s := Layout(hex);
    var p1 := hex[..8] + "-";
    var p2 := p1 + hex[8..12] + "-";
    var p3 := p2 + hex[12..16] + "-";
    var p4 := p3 + hex[16..20] + "-";
    assert s == p4 + hex[20..];
    assert s[..8] == hex[..8];
    assert s[9..13] == hex[8..12];
    assert s[14..18] == hex[12..16];
    assert s[19..23] == hex[16..20];
    assert s[24..] == hex[20..];
  }

  lemma HexChars(bytes: seq<bv8>, j: nat)
    requires j < 2 * |bytes|
    ensures IsHexChar(Hex(bytes)[j])
  {
    var k := j / 2;
    assert Hex(bytes)[2 * k..2 * k + 2] == ByteHex(bytes[k]);
    assert Hex(bytes)[j] == Hex(bytes)[2 * k..2 * k + 2][j - 2 * k];
  }

  /** The result is 36 characters: hyphens at 8, 13, 18 and 23 and lower-case
      hex digits everywhere else. */
  lemma FromBytesShape(bytes: seq<bv8>)
    requires |bytes| == 16
    ensures forall i :: 0 <= i < 36 && IsHyphenPos(i) ==> FromBytes(bytes)[i] == '-'
    ensures forall i :: 0 <= i < 36 && !IsHyphenPos(i) ==> IsHexChar(FromBytes(bytes)[i])
  {
    var hex := Hex(Stamp(bytes));
    LayoutPositions(hex);
    forall i | 0 <= i < 36 && !IsHyphenPos(i)
      ensures IsHexChar(FromBytes(bytes)[i])
    {
      HexChars(Stamp(bytes), HexIndex(i));
    }
  }

  /** The version digit is '4' and the variant digit one of 8, 9, a, b. */
  lemma FromBytesVersionAndVariant(bytes: seq<bv8>)
    requires |bytes| == 16
    ensures FromBytes(bytes)[14] == '4'
    ensures FromBytes(bytes)[19] in {'8', '9', 'a', 'b'}
  {
    var st := Stamp(bytes);
    var hex := Hex(st);
    LayoutPositions(hex);
    assert FromBytes(bytes)[14] == hex[12];
    assert FromBytes(bytes)[19] == hex[16];
    assert hex[12..14] == ByteHex(st[6]);
    assert hex[16..18] == ByteHex(st[8]);
    var hi := st[8] as int / 16;
    assert 8 <= hi <= 11;
  }

  // ---------------------------------------------------------------------
  // Reading the bytes back
  // ---------------------------------------------------------------------

  predicate AllHex(s: string) {
    forall k :: 0 <= k < |s| ==> IsHexChar(s[k])
  }

  /** Reads pairs of hex digits back into bytes. */
  function ParseHex(s: string): (bytes: seq<bv8>)
    requires |s| % 2 == 0 && AllHex(s)
    ensures |bytes| == |s| / 2
  {
    if |s| == 0 then []
    else [(HexValue(s[0]) * 16 + HexValue(s[1])) as bv8] + ParseHex(s[2..])
  }

  lemma {:induction false} ParseHexRoundTrip(bytes: seq<bv8>)
    ensures AllHex(Hex(bytes))
    ensures ParseHex(Hex(bytes)) == bytes
  {
    if |bytes| > 0 {
      ParseHexRoundTrip(bytes[1..]);
      var s := Hex(bytes);
      assert s == ByteHex(bytes[0]) + Hex(bytes[1..]);
      assert s[2..] == Hex(bytes[1..]);
      assert s[0..2] == ByteHex(bytes[0]);
      var b := (HexValue(s[0]) * 16 + HexValue(s[1])) as bv8;
      assert b == bytes[0];
    }
  }

  /** The hex digits of a laid-out identifier, hyphens removed. */
  function Digits(id: string): (hex: string)
    requires |id| == 36
    ensures |hex| == 32
  {
    id[..8] + id[9..13] + id[14..18] + id[19..23] + id[24..]
  }

  /** Removing the hyphens gives back the digits that were laid out. */
  lemma DigitsOfLayout(hex: string)
    requires |hex| == 32
    ensures Digits(Layout(hex)) == hex
  {
    LayoutPieces(hex);
    assert hex == hex[..8] + hex[8..12] + hex[12..16] + hex[16..20] + hex[20..];
  }

  /** Every stamped byte can be read back from the identifier: rendering
      loses nothing but the six bits the stamp overwrites. */
  lemma FromBytesRoundTrip(bytes: seq<bv8>)
    requires |bytes| == 16
    ensures Digits(FromBytes(bytes)) == Hex(Stamp(bytes))
    ensures AllHex(Digits(FromBytes(bytes)))
    ensures ParseHex(Digits(FromBytes(bytes))) == Stamp(bytes)
  {
    var hex := Hex(Stamp(bytes));
    DigitsOfLayout(hex);
    ParseHexRoundTrip(Stamp(bytes));
  }
}

=== FILE: weight_store.dfy ===
/** The weight log: entries kept newest first. Dates are integer
    timestamps. Adding re-sorts the list (a stable sort on the date, latest
    first); editing does not. */
module WeightStore {
  import opened Common
  import opened WorkoutTypes

  /** Latest first: no entry is newer than one before it. */
  predicate SortedByDate(es: seq<WeightEntry>) {
    forall i, j :: 0 <= i < j < |es| ==> es[i].date >= es[j].date
  }

  /** Places `e` before the first entry that is not newer than it, so that
      it stays ahead of entries with the same date that followed it. */
  function InsertByDate(e: WeightEntry, es: seq<WeightEntry>): (r: seq<WeightEntry>)
    requires SortedByDate(es)
    ensures SortedByDate(r)
    ensures multiset(r) == multiset(es) + multiset{e}
    ensures |r| == |es| + 1
  {
    if |es| == 0 || e.date >= es[0].date then [e] + es
    else
      var rest := InsertByDate(e, es[1..]);
      InsertBelowHead(e, es, rest);
      [es[0]] + rest
  }

  /** Inserting an older entry below the head keeps the head first. */
  lemma InsertBelowHead(e: WeightEntry, es: seq<WeightEntry>, rest: seq<WeightEntry>)
    requires SortedByDate(es) && |es| > 0 && e.date < es[0].date
    requires SortedByDate(rest) && multiset(rest) == multiset(es[1..]) + multiset{e}
    ensures SortedByDate([es[0]] + rest)
    ensures multiset([es[0]] + rest) == multiset(es) + multiset{e}
  {
    assert es == [es[0]] + es[1..];
    forall k | 0 <= k < |rest|
      ensures rest[k].date <= es[0].date
    {
      assert rest[k] in multiset(rest);
      if rest[k] != e {
        assert rest[k] in multiset(es[1..]);
        var m :| 0 <= m < |es[1..]| && es[1..][m] == rest[k];
        assert es[m + 1] == rest[k];
      }
    }
    var r := [es[0]] + rest;
    forall i, j | 0 <= i < j < |r|
      ensures r[i].date >= r[j].date
    {
      if i > 0 {
        assert r[i] == rest[i - 1] && r[j] == rest[j - 1];
      }
    }
  }

  /** `[...].sort((a, b) => date(b) - date(a))`, a stable sort. */
  function SortByDate(es: seq<WeightEntry>): (r: seq<WeightEntry>)
    ensures SortedByDate(r)
    ensures multiset(r) == multiset(es)
    ensures |r| == |es|
  {
    if |es| == 0 then []
    else
      assert es == [es[0]] + es[1..];
      InsertByDate(es[0], SortByDate(es[1..]))
  }

  /** Sorting a list that is already in order leaves it as it is. */
  lemma {:induction false} SortSortedIsIdentity(es: seq<WeightEntry>)
    requires SortedByDate(es)
    ensures SortByDate(es) == es
  {
    if |es| > 0 {
      SortSortedIsIdentity(es[1..]);
      assert es == [es[0]] + es[1..];
    }
  }

  /** `addEntry`: the new entry joins the list, which comes out sorted,
      latest first, holding exactly the old entries and the new one. */
  function AddEntry(entries: seq<WeightEntry>, entry: WeightEntry): (r: seq<WeightEntry>)
    ensures SortedByDate(r)
    ensures multiset(r) == multiset(entries) + multiset{entry}
  {
    SortByDate([entry] + entries)
  }

  /** On a sorted list, adding is inserting the entry ahead of every entry
      that is not newer. */
  lemma AddToSortedInserts(entries: seq<WeightEntry>, entry: WeightEntry)
    requires SortedByDate(entries)
    ensures AddEntry(entries, entry) == InsertByDate(entry, entries)
  {
    var all := [entry] + entries;
    assert all[1..] == entries;
    SortSortedIsIdentity(entries);
  }

  /** A `Partial<WeightEntry>`; `Some(None)` sets `notes` to `undefined`. */
  datatype EntryPatch = EntryPatch(
    id: Option<string>,
    date: Option<int>,
    weight: Option<real>,
    unit: Option<WeightUnit>,
    notes: Option<Option<string>>)

  /** `{ ...e, ...u }`: every supplied key wins, every absent key is kept. */
  function MergeEntry(e: WeightEntry, u: EntryPatch): (m: WeightEntry)
    ensures KeyApplied(u.id, e.id, m.id)
    ensures KeyApplied(u.date, e.date, m.date)
    ensures KeyApplied(u.weight, e.weight, m.weight)
    ensures KeyApplied(u.unit, e.unit, m.unit)
    ensures KeyApplied(u.notes, e.notes, m.notes)
  {
    WeightEntry(
      if u.id.Some? then u.id.value else e.id,
      if u.date.Some? then u.date.value else e.date,
      if u.weight.Some? then u.weight.value else e.weight,
      if u.unit.Some? then u.unit.value else e.unit,
      if u.notes.Some? then u.notes.value else e.notes)
  }

  /** `updateEntry`: merges into the entries with the id, in place. */
  function UpdateEntry(entries: seq<WeightEntry>, id: string, u: EntryPatch): (r: seq<WeightEntry>)
    ensures |r| == |entries|
    ensures forall k :: 0 <= k < |entries| && entries[k].id != id ==> r[k] == entries[k]
    ensures forall k :: 0 <= k < |entries| && entries[k].id == id ==> r[k] == MergeEntry(entries[k], u)
  {
    if |entries| == 0 then []
    else [if entries[0].id == id then MergeEntry(entries[0], u) else entries[0]] + UpdateEntry(entries[1..], id, u)
  }

  /** An edit that leaves dates alone keeps the list sorted... */
  lemma UpdateWithoutDateKeepsOrder(entries: seq<WeightEntry>, id: string, u: EntryPatch)
    requires SortedByDate(entries) && u.date.None?
    ensures SortedByDate(UpdateEntry(entries, id, u))
  {
    var r := UpdateEntry(entries, id, u);
    assert forall k :: 0 <= k < |r| ==> r[k].date == entries[k].date;
  }

  /** ...but an edit of the date is not re-sorted. */
  lemma UpdateDateCanUnsort()
    ensures var es := [WeightEntry("a", 2, 80.0, Kg, None), WeightEntry("b", 1, 81.0, Kg, None)];
      && SortedByDate(es)
      && !SortedByDate(UpdateEntry(es, "b", EntryPatch(None, Some(3), None, None, None)))
  {
    var es := [WeightEntry("a", 2, 80.0, Kg, None), WeightEntry("b", 1, 81.0, Kg, None)];
    var r := UpdateEntry(es, "b", EntryPatch(None, Some(3), None, None, None));
    assert r[0].date == 2 && r[1].date == 3;
  }

  /** `removeEntry`: drops every entry with the id, keeping the order. */
  function RemoveEntry(entries: seq<WeightEntry>, id: string): (r: seq<WeightEntry>)
    ensures forall e :: e in r <==> e in entries && e.id != id
    ensures |r| <= |entries|
    ensures SortedByDate(entries) ==> SortedByDate(r)
  {
    if |entries| == 0 then []
    else
      var rest := RemoveEntry(entries[1..], id);
      assert entries == [entries[0]] + entries[1..];
      SortedTail(entries);
      if entries[0].id == id then rest
      else
        SortedCons(entries, rest);
        [entries[0]] + rest
  }

  /** `getEntriesInRange`: the entries dated from `start` to `end`
      inclusive, in stored order. */
  function GetEntriesInRange(entries: seq<WeightEntry>, start: int, end: int): (r: seq<WeightEntry>)
    ensures forall e :: e in r <==> e in entries && start <= e.date <= end
    ensures |r| <= |entries|
    ensures SortedByDate(entries) ==> SortedByDate(r)
  {
    if |entries| == 0 then []
    else
      var rest := GetEntriesInRange(entries[1..], start, end);
      assert entries == [entries[0]] + entries[1..];
      SortedTail(entries);
      if start <= entries[0].date <= end then
        SortedCons(entries, rest);
        [entries[0]] + rest
      else rest
  }

  /** Removal distributes over concatenation, so the kept entries stay in
      their stored order with their multiplicity. */
  lemma {:induction false} RemoveEntryAppend(a: seq<WeightEntry>, b: seq<WeightEntry>, id: string)
    ensures RemoveEntry(a + b, id) == RemoveEntry(a, id) + RemoveEntry(b, id)
  {
    if |a| == 0 {
      assert a + b == b;
    } else {
      assert (a + b)[0] == a[0];
      assert (a + b)[1..] == a[1..] + b;
      RemoveEntryAppend(a[1..], b, id);
    }
  }

  /** A single entry is kept exactly when its id differs. */
  lemma RemoveEntrySingleton(e: WeightEntry, id: string)
    ensures RemoveEntry([e], id) == if e.id == id then [] else [e]
  {
  }

  /** The range query distributes over concatenation, so the selected
      entries keep their stored order and multiplicity. */
  lemma {:induction false} RangeAppend(a: seq<WeightEntry>, b: seq<WeightEntry>, start: int, end: int)
    ensures GetEntriesInRange(a + b, start, end) == GetEntriesInRange(a, start, end) + GetEntriesInRange(b, start, end)
  {
    if |a| == 0 {
      assert a + b == b;
    } else {
      assert (a + b)[0] == a[0];
      assert (a + b)[1..] == a[1..] + b;
      RangeAppend(a[1..], b, start, end);
    }
  }

  /** A single entry is selected exactly when its date is in the range. */
  lemma RangeSingleton(e: WeightEntry, start: int, end: int)
    ensures GetEntriesInRange([e], start, end) == if start <= e.date <= end then [e] else []
  {
  }

  lemma SortedTail(es: seq<WeightEntry>)
    ensures SortedByDate(es) && |es| > 0 ==> SortedByDate(es[1..])
  {
    if SortedByDate(es) && |es| > 0 {
      forall i, j | 0 <= i < j < |es[1..]|
        ensures es[1..][i].date >= es[1..][j].date
      {
        assert es[1..][i] == es[i + 1] && es[1..][j] == es[j + 1];
      }
    }
  }

  /** Keeping the newest entry in front of some of the others keeps the
      order. */
  lemma SortedCons(es: seq<WeightEntry>, rest: seq<WeightEntry>)
    ensures SortedByDate(es) && |es| > 0 && SortedByDate(rest) && (forall e :: e in rest ==> e in es[1..])
      ==> SortedByDate([es[0]] + rest)
  {
    if SortedByDate(es) && |es| > 0 && SortedByDate(rest) && (forall e :: e in rest ==> e in es[1..]) {
      var r := [es[0]] + rest;
      forall i, j | 0 <= i < j < |r|
        ensures r[i].date >= r[j].date
      {
        assert r[j] == rest[j - 1];
        assert r[j] in es[1..];
        var m :| 0 <= m < |es[1..]| && es[1..][m] == r[j];
        assert es[m + 1] == r[j];
        if i > 0 {
          assert r[i] == rest[i - 1];
        }
      }
    }
  }

  /** `getLatestEntry`: the first entry, if any. */
  function GetLatestEntry(entries: seq<WeightEntry>): (r: Option<WeightEntry>)
    ensures r.None? <==> |entries| == 0
    ensures r.Some? ==> r.value in entries
    ensures r.Some? && SortedByDate(entries) ==> forall e :: e in entries ==> e.date <= r.value.date
  {
    if |entries| == 0 then None else Some(entries[0])
  }

  /** After an addition, the latest entry is the newest of them all. */
  lemma LatestAfterAddIsNewest(entries: seq<WeightEntry>, entry: WeightEntry)
    ensures GetLatestEntry(AddEntry(entries, entry)).Some?
    ensures forall e :: e in entries ==> e.date <= GetLatestEntry(AddEntry(entries, entry)).value.date
    ensures entry.date <= GetLatestEntry(AddEntry(entries, entry)).value.date
  {
    var r := AddEntry(entries, entry);
    assert entry in multiset(r);
    forall e | e in entries
      ensures e in r
    {
      assert e in multiset(entries);
      assert e in multiset(r);
    }
  }
}

=== FILE: workout_types.dfy ===
/** The workout data model: exercises, sections, circuits, the generated
    workout, the flattened timer timeline and the session record, together
    with the user-profile and weight-entry records the stores keep.

    Identifiers are opaque strings; timestamps are opaque integers (seconds
    since an epoch); every JavaScript `number` used as a count or a number of
    seconds is an `int`. */
module WorkoutTypes {
  import opened Common

  // ---------------------------------------------------------------------
  // Exercises, sections, circuits
  // ---------------------------------------------------------------------

  datatype Modifications = Modifications(easier: Option<string>, harder: Option<string>)

  /** One movement. `duration` is a whole number of seconds; when
      `switchSides` is set, the first half of the duration is done on the
      left side and the second half on the right. */
  datatype Exercise = Exercise(
    id: string,
    name: string,
    duration: int,
    targetReps: Option<int>,
    repRange: Option<string>,
    description: string,
    muscleGroups: seq<string>,
    equipment: Option<seq<string>>,
    switchSides: Option<bool>,
    modifications: Option<Modifications>)

  /** A warm-up or cool-down section: its exercises and the precomputed
      total of their durations. */
  datatype Section = Section(exercises: seq<Exercise>, totalDuration: int)

  datatype Circuit = Circuit(
    id: string,
    name: string,
    rounds: int,
    restBetweenRounds: int,
    restBetweenExercises: int,
    exercises: seq<Exercise>,
    totalDuration: int)

  datatype Difficulty = Beginner | Intermediate | Advanced

  datatype CalorieRange = CalorieRange(low: int, high: int)

  datatype GeneratedWorkout = GeneratedWorkout(
    id: string,
    createdAt: int,
    name: string,
    description: string,
    difficulty: Difficulty,
    targetDuration: int,
    actualDuration: int,
    equipmentSetUsed: string,
    equipmentRequired: seq<string>,
    warmUp: Section,
    circuits: seq<Circuit>,
    coolDown: Section,
    restBetweenCircuits: int,
    estimatedCalories: int,
    calorieRange: CalorieRange,
    focusAreas: seq<string>,
    muscleGroupsTargeted: seq<string>,
    isManual: Option<bool>)

  // ---------------------------------------------------------------------
  // Timer timeline
  // ---------------------------------------------------------------------

  /** The six timeline tags. */
  datatype TimerItemType =
    | WarmupExerciseType
    | CircuitExerciseType
    | CooldownExerciseType
    | ExerciseRestType
    | RoundRestType
    | CircuitRestType

  /** What a timeline entry is. Only the three exercise variants carry an
      Exercise; each variant carries exactly the coordinates the flattener
      sets for it. */
  datatype ItemKind =
    | WarmupExercise(exercise: Exercise, exerciseIndex: int)
    | CircuitExercise(exercise: Exercise, circuitIndex: int, roundIndex: int, exerciseIndex: int)
    | CooldownExercise(exercise: Exercise, exerciseIndex: int)
    | ExerciseRest(circuitIndex: int, roundIndex: int)
    | RoundRest(circuitIndex: int, roundIndex: int)
    | CircuitRest(circuitIndex: int)
  {
    function Type(): TimerItemType {
      match this
      case WarmupExercise(_, _) => WarmupExerciseType
      case CircuitExercise(_, _, _, _) => CircuitExerciseType
      case CooldownExercise(_, _) => CooldownExerciseType
      case ExerciseRest(_, _) => ExerciseRestType
      case RoundRest(_, _) => RoundRestType
      case CircuitRest(_) => CircuitRestType
    }

    /** The `exercise` field of the item, present only for exercise tags. */
    function ExerciseOf(): Option<Exercise> {
      match this
      case WarmupExercise(e, _) => Some(e)
      case CircuitExercise(e, _, _, _) => Some(e)
      case CooldownExercise(e, _) => Some(e)
      case _ => None
    }

    function CircuitIndexOf(): Option<int> {
      match this
      case CircuitExercise(_, c, _, _) => Some(c)
      case ExerciseRest(c, _) => Some(c)
      case RoundRest(c, _) => Some(c)
      case CircuitRest(c) => Some(c)
      case _ => None
    }

    function RoundIndexOf(): Option<int> {
      match this
      case CircuitExercise(_, _, r, _) => Some(r)
      case ExerciseRest(_, r) => Some(r)
      case RoundRest(_, r) => Some(r)
      case _ => None
    }

    function ExerciseIndexOf(): Option<int> {
      match this
      case WarmupExercise(_, x) => Some(x)
      case CircuitExercise(_, _, _, x) => Some(x)
      case CooldownExercise(_, x) => Some(x)
      case _ => None
    }
  }

  /** One timed step of the timeline. */
  datatype TimerItem = TimerItem(name: string, duration: int, kind: ItemKind)

  datatype FlattenedWorkout = FlattenedWorkout(
    workoutId: string,
    items: seq<TimerItem>,
    totalDuration: int,
    totalItems: int)

  /** Sum of the durations of a run of timeline items. */
  function SumDurations(items: seq<TimerItem>): int {
    if |items| == 0 then 0 else SumDurations(items[..|items| - 1]) + items[|items| - 1].duration
  }

  lemma {:induction false} SumDurationsAppend(a: seq<TimerItem>, b: seq<TimerItem>)
    ensures SumDurations(a + b) == SumDurations(a) + SumDurations(b)
  {
    if |b| > 0 {
      assert (a + b)[..|a + b| - 1] == a + b[..|b| - 1];
      SumDurationsAppend(a, b[..|b| - 1]);
    } else {
      assert a + b == a;
    }
  }

  /** Sum of the durations of a list of exercises. */
  function SumExerciseDurations(es: seq<Exercise>): int {
    if |es| == 0 then 0 else es[0].duration + SumExerciseDurations(es[1..])
  }

  /** Sum of the precomputed totals of a list of circuits. */
  function SumCircuitTotals(cs: seq<Circuit>): int {
    if |cs| == 0 then 0 else cs[0].totalDuration + SumCircuitTotals(cs[1..])
  }

  /** Number of timeline items with a given tag. */
  function CountType(items: seq<TimerItem>, t: TimerItemType): nat {
    if |items| == 0 then 0
    else (if items[0].kind.Type() == t then 1 else 0) + CountType(items[1..], t)
  }

  lemma {:induction false} CountTypeAppend(a: seq<TimerItem>, b: seq<TimerItem>, t: TimerItemType)
    ensures CountType(a + b, t) == CountType(a, t) + CountType(b, t)
  {
    if |a| > 0 {
      assert (a + b)[1..] == a[1..] + b;
      CountTypeAppend(a[1..], b, t);
    } else {
      assert a + b == b;
    }
  }

  // ---------------------------------------------------------------------
  // Sessions
  // ---------------------------------------------------------------------

  /** A session's status; exactly these four values exist. */
  datatype WorkoutStatus = Pending | InProgress | Completed | StoppedEarly

  /** Post-workout feedback. `rpe` is the 1-10 perceived-exertion rating the
      screens offer. */
  datatype Feedback = Feedback(rpe: Option<int>, notes: Option<string>, updatedAt: Option<int>)

  datatype StoppedAtItem = StoppedAtItem(
    circuitIndex: Option<int>,
    roundIndex: Option<int>,
    exerciseIndex: Option<int>,
    itemName: string)

  datatype WorkoutSession = WorkoutSession(
    id: string,
    workoutId: string,
    workout: GeneratedWorkout,
    status: WorkoutStatus,
    startedAt: Option<int>,
    completedAt: Option<int>,
    stoppedAt: Option<int>,
    completedItems: int,
    totalItems: int,
    percentComplete: int,
    stoppedAtItem: Option<StoppedAtItem>,
    actualDurationWorked: int,
    estimatedCaloriesBurned: int,
    feedback: Option<Feedback>)

  // ---------------------------------------------------------------------
  // Profile and weight entries
  // ---------------------------------------------------------------------

  datatype WeightUnit = Lbs | Kg

  datatype EquipmentSet = EquipmentSet(
    id: string,
    name: string,
    equipment: seq<string>,
    notes: Option<string>,
    isDefault: Option<bool>)

  datatype UserProfile = UserProfile(
    id: string,
    createdAt: int,
    age: Option<int>,
    weight: Option<real>,
    goalWeight: Option<real>,
    weightUnit: WeightUnit,
    fitnessGoals: string,
    trainingNotes: Option<string>,
    equipmentSets: seq<EquipmentSet>,
    preferredWorkoutDuration: int,
    hasCompletedOnboarding: bool)

  datatype WeightEntry = WeightEntry(
    id: string,
    date: int,
    weight: real,
    unit: WeightUnit,
    notes: Option<string>)
}
